=== FILE: README.md ===
# pochoir, modelled in Dafny

pochoir solves Laplace boundary-value problems on N-dimensional grids by finite differences. It pads a value array and a boolean "fixed" mask with a one-cell halo. It then relaxes the array with a Jacobi stencil, the mean of the 2N neighbours of each cell. After each step it re-imposes the pinned values and applies a periodic or fixed edge condition on every axis. It stops after a number of epochs, or earlier once the change over an epoch's last step is below a precision.

Around the solver sit several smaller pieces:
- array helpers: pad, core, dup, and a comma-list parser;
- the grid geometry of a `Domain`;
- the older fixed-rank 1-D/2-D/3-D variants of the edge conditions and stencils;
- constructive solid geometry;
- two generators of printed-circuit-board electrode volumes: quarter-circle holes, and strips tiled from a quarter;
- dictionary flattening;
- the storage-format choice and the `todict`/`fromdict` conversion;
- rectangle validation;
- the unit constants.

How the model represents the source:
- **Arrays.** An N-dimensional numpy array is the class `NdArrays.NdArray`. Its fields are a fixed `shape` and a `cells` map from multi-index to `real`. Functions and lemmas work on those maps.
- **Assignments.** numpy slice assignments, Python negative indices and the out-of-range `IndexError` are modelled explicitly, in `NdArrays` and `Writes`.
- **Functions that write arrays in place** are methods that modify the array. Each method is proved equal to a specification function, and the properties the source promises are proved about that function.
- **Pure code** (geometry, shapes, flattening, persistence, the schema check) is functions and lemmas.
- **Python values** (`None`, numbers, strings, lists, tuples, dicts, the three schema named tuples, numpy arrays) are the datatype `Values.Value`.
- **Python exceptions** are `Wrappers.Error` inside a `Result`.

## Model

| member | source | states |
|---|---|---|
| NdArrays.Full | pochoir/arrays.py:106 | `zeros(shape)`: an array of exactly the cells of `shape`, each holding the fill value |
| NdArrays.NdArray.Zeros | pochoir/arrays.py:106 | a new array of the given shape, all zeros |
| NdArrays.NdArray.FromCells | pochoir/arrays.py:81 | a new array holding exactly the given cells |
| NdArrays.Range | pochoir/arrays.py:89 | a step-1 slice clamped as CPython does; it is the slice itself when already in range |
| NdArrays.SliceCells | pochoir/arrays.py:96 | `a[slices]`: cell `j` of the view is the cell of `a` at `j` plus the region's start, and the view has the sliced shape |
| NdArrays.AssignSlice | pochoir/arrays.py:107 | `a[slices] = src`: cells inside the region take `src`'s values, and every other cell keeps its value |
| NdArrays.SliceOfAssign | pochoir/arrays.py:107 | reading back a region just assigned gives exactly what was assigned |
| Writes.Position | pochoir/gen_pcb_quarter.py:73-79 | Python's integer index: defined iff `-n <= i < n`, and then it is `i` itself or, for a negative `i`, `i` counted back from the end (`i + n`) |
| Writes.Fill | pochoir/gen_pcb_quarter.py:73 | `arr[sel] = v`: `IndexError` iff some index is out of range, raised before any write; otherwise the selected cells hold `v` and the rest are unchanged |
| Arrays.CoreSlices1 | pochoir/arrays.py:84-89 | one slice `1 : n-1` per axis |
| Arrays.Core1 | pochoir/arrays.py:92-96 | `core1(a)` has every dimension 2 smaller, and its cell `i` is `a[i+1]` |
| Arrays.PadCells | pochoir/arrays.py:99-108 | `pad1(a)` has every dimension 2 larger, every halo cell zero, and cell `i+1` equal to `a[i]` |
| Arrays.Pad1 | pochoir/arrays.py:99-108 | a fresh array whose shape and cells are those of `PadCells` |
| Arrays.CorePad | pochoir/arrays.py:92-108 | `core1(pad1(a)) == a` |
| Arrays.PadInterior | pochoir/arrays.py:105-107 | every off-halo cell of the padded array holds the input's cell one lower |
| Arrays.Dup | pochoir/arrays.py:75-81 | a fresh array, distinct from the input, with the same shape and cells |
| Arrays.Fields | pochoir/arrays.py:36 | the pieces split on commas and stripped, blank ones dropped; every field kept is non-empty with no surrounding whitespace, whitespace being Python's `str.isspace` set (ASCII blanks, `\x1c`-`\x1f`, NEL, no-break and Unicode spaces) |
| Arrays.ConvertAll | pochoir/arrays.py:36 | the conversion succeeds iff every field converts; then the results are elementwise, and otherwise the error is that of the first field that fails, every earlier field converting |
| Arrays.FromStr1 | pochoir/arrays.py:32-37 | `fromstr1(s, dtype)`: the fields of `s` each converted by `dtype`, in order; its behaviour is stated by `Arrays.FromStr1Join`, `Arrays.FieldsSkipBlank` and `Arrays.ConvertAll` |
| Arrays.FromStr1Join | pochoir/arrays.py:32-37 | parsing comma-joined non-blank values, whatever whitespace surrounds them, converts each value in order |
| Arrays.FieldsSkipBlank | pochoir/arrays.py:36 | a blank or all-whitespace field is skipped |
| PyStrings.SplitJoin | pochoir/arrays.py:36 | `sep.join(xs).split(sep) == xs` when no piece holds `sep` |
| PyStrings.JoinSplit | pochoir/arrays.py:36 | `sep.join(s.split(sep)) == s` |
| PyStrings.Strip | pochoir/arrays.py:36 | `str.strip`: the result has no `str.isspace` character at either end |
| Arrays.StripUnicodeSpaces | pochoir/arrays.py:36 | a no-break space alone strips to the empty string, and ideographic or no-break spaces around a value are stripped |
| PyStrings.StripBlank | pochoir/arrays.py:36 | an all-whitespace string strips to the empty string |
| FdmGeneric.SliceCopyIsPlaneCopy | pochoir/fdm_generic.py:13-32 | `arr[dst] = arr[src]` with one-cell slices on axis `d` and whole slices elsewhere copies plane `q` into plane `p` |
| FdmGeneric.AxisHalo | pochoir/fdm_generic.py:14-32 | the two plane copies of one axis keep exactly the cells of the array (plane 0 first, then plane `n-1`) |
| FdmGeneric.AxisHaloEstablishes | pochoir/fdm_generic.py:27-32 | processing axis `d` establishes that axis's halo relation |
| FdmGeneric.AxisHaloKeepsHalo | pochoir/fdm_generic.py:14-32 | processing a later axis keeps the halo relation of every other axis |
| FdmGeneric.EdgeConditionOf | pochoir/fdm_generic.py:13-32 | the per-axis copies applied in axis order keep exactly the cells of the array; the halo relations it establishes are `FdmGeneric.EdgeConditionHalo` |
| FdmGeneric.EdgeCondition | pochoir/fdm_generic.py:3-32 | succeeds iff the flag count equals the rank; otherwise nothing is written; on success the cells are the per-axis halo copies applied in axis order |
| FdmGeneric.EdgeConditionHalo | pochoir/fdm_generic.py:14-32 | after the call, every axis's periodic or fixed relation holds at the same time |
| FdmGeneric.EdgeConditionKeepsInterior | pochoir/fdm_generic.py:13-32 | only halo cells are written; every core cell keeps its value |
| FdmGeneric.StencilCells | pochoir/fdm_generic.py:35-67 | the result has the core shape; each cell is the sum of the 2N neighbours times `1/(2N)` |
| FdmGeneric.ShiftedViewsAt | pochoir/fdm_generic.py:58-64 | cell `i` of the `pos` and `neg` views of axis `d` is the +1 and -1 neighbour of core cell `i` |
| FdmGeneric.AccumulateAxis | pochoir/fdm_generic.py:57-64 | adding the two views of axis `k` to the sums over the earlier axes gives the sums over axes up to `k` |
| FdmGeneric.ZeroedTarget | pochoir/fdm_generic.py:50-55 | a fresh zero array of the core shape, or the supplied `res` zeroed, so earlier contents do not leak |
| FdmGeneric.AddAllShifted | pochoir/fdm_generic.py:57-64 | after the loop over the axes, `res` holds each core cell's full neighbour sum |
| FdmGeneric.Stencil | pochoir/fdm_generic.py:35-67 | the result is `StencilCells` of the unmodified input, in a fresh array or in `res` itself |
| FdmGeneric.StencilBounds | pochoir/fdm_generic.py:48-66 | each stencil value lies between the minimum and the maximum of the input |
| FdmGeneric.StencilConstant | pochoir/fdm_generic.py:48-66 | a constant input gives that constant in every core cell |
| FdmNumpy.Pinned | pochoir/fdm_numpy.py:48-49 | `iarr[ifixed]`: the values of exactly the cells the mask marks |
| FdmNumpy.Reimpose | pochoir/fdm_numpy.py:62 | marked cells take their pinned value, and every other cell keeps its own |
| FdmNumpy.PinnedInterior | pochoir/fdm_numpy.py:44-49 | padding the mask adds only unmarked cells, so every pinned cell lies in the core |
| FdmNumpy.Step | pochoir/fdm_numpy.py:60-63 | one Jacobi step on the padded cells (stencil into the core, pinned values back, edge condition) keeps exactly the cells of the array; its cell values are `FdmNumpy.StepAt` and `FdmNumpy.StepHalo` |
| FdmNumpy.Relaxed | pochoir/fdm_numpy.py:53-63 | the padded cells after `n` steps keep exactly the cells of the array; `FdmNumpy.RelaxedKeepsPinned` states what they hold |
| FdmNumpy.StepAt | pochoir/fdm_numpy.py:60-63 | Jacobi, not Gauss-Seidel: an unpinned interior cell takes the stencil of the cells before the step, and a pinned cell takes its pinned value |
| FdmNumpy.StepHalo | pochoir/fdm_numpy.py:63 | after a step, every axis's halo relation holds |
| FdmNumpy.RelaxedKeepsPinned | pochoir/fdm_numpy.py:49-62 | pinned cells hold their pinned values after any number of steps |
| FdmNumpy.RunStops | pochoir/fdm_numpy.py:53-74 | a run stops at an epoch end: early only where the test passes, otherwise after exactly `epoch*nepochs` steps; no earlier epoch end passes the test, so the stop is the first passing end |
| FdmNumpy.Run | pochoir/fdm_numpy.py:53-74 | the core and its last change where the epochs stop; what it returns is stated by `FdmNumpy.RunResult` |
| FdmNumpy.RunResult | pochoir/fdm_numpy.py:57-71 | the run returns the core where it stopped and that core minus the core one step earlier; it stops early iff `prec` is non-zero and every change is below it, and at no earlier epoch end was every change below `prec` |
| FdmNumpy.MaxBelow | pochoir/fdm_numpy.py:67-69 | `max(abs(err)) < prec` is the same as every change being below `prec` in magnitude |
| FdmNumpy.SolveSpec | pochoir/fdm_numpy.py:17-74 | `solve` as a function: the input and a zero error with no step to take, the rank-mismatch or empty-array error, otherwise `Run` of the padded problem; its properties are `FdmNumpy.SolveErrors`, `FdmNumpy.SolveShapes`, `FdmNumpy.SolveKeepsPinned` and `FdmNumpy.SolveIsRun` |
| FdmNumpy.SolveErrors | pochoir/fdm_numpy.py:17-74 | with steps to take, `solve` fails iff the flag count is not the rank or the array is empty |
| FdmNumpy.SolveShapes | pochoir/fdm_numpy.py:42-74 | both returned arrays have the input's shape |
| FdmNumpy.SolveKeepsPinned | pochoir/fdm_numpy.py:48-62 | every cell the mask marks comes back holding its input value |
| FdmNumpy.SolveIsRun | pochoir/fdm_numpy.py:44-74 | with steps to take, a successful `solve` is the run of the padded problem |
| FdmNumpy.SetCore1 | pochoir/fdm_numpy.py:11-12 | `dst[core] = src` as a slice assignment, with nothing else changed |
| FdmNumpy.SetCore2 | pochoir/fdm_numpy.py:14-15 | the marked cells take their pinned values |
| FdmNumpy.Relax | pochoir/fdm_numpy.py:60-63 | one in-place step yields exactly `Step` of the old cells |
| FdmNumpy.CheckEpoch | pochoir/fdm_numpy.py:65-71 | `err` becomes the change of the core over the step, and the status is the precision test |
| FdmNumpy.Epoch | pochoir/fdm_numpy.py:55-71 | `epoch` in-place steps reach the state after step `end`; the snapshot is taken before the last step |
| FdmNumpy.Sweep | pochoir/fdm_numpy.py:53-74 | the epoch loop on arrays returns what `Run` specifies |
| FdmNumpy.Prepare | pochoir/fdm_numpy.py:42-50 | the error array is zero, the arrays are padded, the pinned values are read, and the core slices are set |
| FdmNumpy.Solve | pochoir/fdm_numpy.py:17-74 | succeeds iff the specification does, with the same error or the same pair of arrays |
| FdmNumpy.ZeroBudget | pochoir/fdm_numpy.py:52-74 | with `epoch*nepochs == 0`, the code as written fails on the unbound `maxerr`; the corrected `solve` returns the input and a zero error |
| FdmNumpy.SolveAsWritten | pochoir/fdm_numpy.py:52-74 | the source as written agrees with the corrected `solve` whenever there are steps to take; `FdmNumpy.ZeroBudget` shows where they differ |
| Pochoir.MakeDomain | pochoir.py:35-41 | a zero grid with every dimension 2 larger than requested |
| Pochoir.PyIndex | pochoir.py:45-49 | negative indices count from the end of the axis |
| Pochoir.NamedAxisIsAxisHalo | pochoir.py:43-49 | "periodic" and "fixed" on one axis are the generic per-axis rule with the matching flag |
| Pochoir.NamedAxis | pochoir.py:44-49 | assigning `grid[0]` and `grid[-1]` through negative indices yields the named per-axis rule; any other name leaves the axis untouched |
| Pochoir.NamedHaloAgrees | pochoir.py:51-83 | with every condition "periodic" or "fixed", the named conditions agree with `edge_condition`, with `periodic[d] = (cond[d] == "periodic")` |
| Pochoir.EdgeConditions1d | pochoir.py:43-49 | `IndexError` iff no condition is given; on a 1-D grid it is the generic rule for a named condition, and an unknown name changes nothing |
| Pochoir.EdgeConditions2d | pochoir.py:51-63 | axis 0 then axis 1; a missing condition raises after the earlier axes were processed; it agrees with the generic rule |
| Pochoir.EdgeConditions3d | pochoir.py:65-83 | axes 0, 1 and 2 in turn, agreeing with the generic rule |
| Pochoir.SignSlicesShape | pochoir.py:85-95 | unit-offset slices select the core shape, starting at `1 + sign` |
| Pochoir.Subarray | pochoir.py:85-95 | `subarrayNd(arr, *sign)`: every index of the view has the array's rank; its cells are `Pochoir.SubarrayAt` |
| Pochoir.SubarrayAt | pochoir.py:85-95 | cell `j` of `subarrayNd(arr, *sign)` is `arr[j + 1 + sign]` |
| Pochoir.Stencil1d | pochoir.py:97-98 | `stencil1d(grid)` has exactly the cells of the core of a 1-D grid; its values are `Pochoir.Stencil1dAgrees` |
| Pochoir.Stencil2d | pochoir.py:100-102 | `stencil2d(grid)` has exactly the cells of the core of a 2-D grid; its values are `Pochoir.Stencil2dAgrees` |
| Pochoir.Stencil3d | pochoir.py:104-107 | `stencil3d(grid)` has exactly the cells of the core of a 3-D grid; its values are `Pochoir.Stencil3dAgrees` |
| Pochoir.Stencil1dAgrees | pochoir.py:97-98 | `stencil1d` equals the generic stencil on 1-D arrays |
| Pochoir.Stencil2dAgrees | pochoir.py:100-102 | `stencil2d` equals the generic stencil on 2-D arrays |
| Pochoir.Stencil3dAgrees | pochoir.py:104-107 | `stencil3d` equals the generic stencil on 3-D arrays |
| Pochoir.NormValues | pochoir.py:98-105 | the generic weight `1/(2N)` is 1/2, 1/4 and 1/6 for ranks 1, 2 and 3 |
| Domains.NewDomain | pochoir/domain.py:12-32 | keeps the shape, and an explicit per-axis spacing or origin is used as given |
| Domains.NewDomainDefaults | pochoir/domain.py:24-31 | that domain is well formed, with the spacing on every axis and a zero origin |
| Domains.Elementwise | pochoir/domain.py:40-48 | numpy's 1-D broadcasting: lengths that do not broadcast raise `ValueError`; otherwise the result has the broadcast length (a zero divisor is reported as an error, see Left out) |
| Domains.RoundHalfEven | pochoir/domain.py:48 | the nearest integer, with halves going to the even neighbour |
| Domains.Point | pochoir/domain.py:35-40 | `point(index)` succeeds on a well-formed domain and an index of its rank, and then has one coordinate per axis; each coordinate is `Domains.PointAt` |
| Domains.IndexOf | pochoir/domain.py:43-48 | on a well-formed domain and a point of its rank, `index` succeeds iff no spacing is zero; the index is `Domains.IndexOfPoint` and `Domains.IndexIsNearest` |
| Domains.PointAt | pochoir/domain.py:35-40 | `point(i)[k] == origin[k] + i[k]*spacing[k]` |
| Domains.IndexOfPoint | pochoir/domain.py:43-48 | `index(point(i)) == i` when no spacing is zero |
| Domains.IndexIsNearest | pochoir/domain.py:43-48 | the index found is nearest: on every axis the point lies within half a spacing of it |
| Domains.Crop | pochoir/domain.py:51-59 | succeeds iff `axis` is a valid axis index, negative ones counting from the end; any other axis raises `IndexError` |
| Domains.CropBounds | pochoir/domain.py:51-59 | the result is a non-empty range inside the axis or `(0,0)`, and it holds exactly the positions both the slice and the axis hold |
| Domains.CropIdempotent | pochoir/domain.py:55-59 | cropping a cropped slice changes nothing |
| Domains.ImshowExtent | pochoir/domain.py:62-86 | without an axis, `ValueError` when the rank is not 2; with an axis, `ValueError` when the rank is not 3; a well-formed domain of the right rank succeeds (`Domains.ImshowExtent2d`, `Domains.ImshowExtent3d`) |
| Domains.ImshowExtent2d | pochoir/domain.py:72-77 | a 2-D domain spans from its first to its last grid coordinate on both axes |
| Domains.ImshowExtent3d | pochoir/domain.py:80-86 | the result is `(p1[a1], p2[a1], p2[a2], p1[a2])`, with `a1 = (axis+1)%3` and `a2 = (axis+2)%3` |
| Domains.Linspace | pochoir/domain.py:101 | `num` values from `first` to `last` inclusive |
| Domains.Linspaces | pochoir/domain.py:89-102 | one sequence per axis, never more than the shape, spacing or origin has entries; their contents are `Domains.LinspacesArePoints` |
| Domains.LinspacesArePoints | pochoir/domain.py:89-102 | one sequence per axis, of that axis's length, whose entries are the coordinates `point` gives |
| Shapes.Inside | pochoir/shapes.py:19-74 | `s.inside(p)` for spheres, shelves, unions, intersections and holes; what it holds is stated by the `Shapes` lemmas below |
| Shapes.SphereHoldsCenter | pochoir/shapes.py:13-22 | the centre is inside a sphere of any radius |
| Shapes.SphereHoldsAxisPoint | pochoir/shapes.py:19-22 | the boundary is inclusive: the point one radius along an axis is inside |
| Shapes.SphereMissesFarPoint | pochoir/shapes.py:19-22 | a point further than the radius along one axis is outside |
| Shapes.SphereSymmetric | pochoir/shapes.py:19-22 | a sphere is symmetric about its centre |
| Shapes.ShelfInside | pochoir/shapes.py:25-34 | a point is inside iff it lies between the corners on every axis, corners included |
| Shapes.ShelfHoldsCorners | pochoir/shapes.py:31-34 | both corners are inside when the first is below the second |
| Shapes.UnionInside | pochoir/shapes.py:55-59 | inside iff some member holds the point |
| Shapes.IntersectionInside | pochoir/shapes.py:62-66 | inside iff every member holds the point |
| Shapes.EmptyCombinations | pochoir/shapes.py:55-66 | the empty union holds nothing, and the empty intersection holds everything |
| Shapes.HoleOfHole | pochoir/shapes.py:69-74 | a hole is the complement, so a hole of a hole is the shape again |
| Shapes.CutOut | pochoir/shapes.py:62-74 | `Intersection(s, Hole(b))` holds no point of `b` |
| Shapes.HoleOfUnion | pochoir/shapes.py:55-74 | De Morgan: the hole of a union is the intersection of the holes |
| PcbQuarter.Step | pochoir/gen_pcb_quarter.py:20-31 | one pass of the midpoint loop: `x` grows by at least 1, `y` never grows, and the points come in swapped pairs |
| PcbQuarter.ArcPairs | pochoir/gen_pcb_quarter.py:20-31 | the loop appends only swapped pairs `(x,y),(y,x)` |
| PcbQuarter.Quarter | pochoir/gen_pcb_quarter.py:14-31 | the unsorted quarter: `(0, r)` and then the points of the midpoint loop; its shape is `PcbQuarter.QuarterPairs` and `PcbQuarter.QuarterLength` |
| PcbQuarter.QuarterPairs | pochoir/gen_pcb_quarter.py:19-31 | the raw list is `(0, r)` followed by swapped pairs |
| PcbQuarter.QuarterLength | pochoir/gen_pcb_quarter.py:14-20 | the loop runs iff `r >= 0` |
| PcbQuarter.InsertByX | pochoir/gen_pcb_quarter.py:32 | stable insertion by `x`: the result is sorted, a permutation of the input plus the point, and the point sits after every point with `x` not greater and before every point with `x` greater, so equal keys keep arrival order |
| PcbQuarter.SortByX | pochoir/gen_pcb_quarter.py:32 | `sort(key=p[0])`: sorted, a permutation of the input, same length, and stable: for every `x`, the points with that `x` are in input order |
| PcbQuarter.InsertKeepsOrder | pochoir/gen_pcb_quarter.py:32 | inserting a point appends it to the points with its `x` and leaves every other `x`'s points unchanged |
| PcbQuarter.Shift | pochoir/gen_pcb_quarter.py:33-35 | every point moved by `(x0, y0)`, same length |
| PcbQuarter.Circle | pochoir/gen_pcb_quarter.py:7-36 | the value `draw_quarter_circle` returns: the quarter sorted by `x`, then shifted; stated by `PcbQuarter.CircleOfQuarter`, `PcbQuarter.CircleNonEmpty` and `PcbQuarter.DrawQuarterCircle` |
| PcbQuarter.DrawQuarterCircle | pochoir/gen_pcb_quarter.py:7-36 | the loop-and-sort method returns exactly the circle |
| PcbQuarter.ShiftPoints | pochoir/gen_pcb_quarter.py:33-35 | the shifting loop returns `Shift` of its input |
| PcbQuarter.CircleOfQuarter | pochoir/gen_pcb_quarter.py:7-36 | the circle is sorted by `x`, has one point per raw point, and each point is a raw point shifted (and back) |
| PcbQuarter.CircleNonEmpty | pochoir/gen_pcb_quarter.py:19 | the circle always has at least the starting point |
| PcbQuarter.MirrorX | pochoir/gen_pcb_quarter.py:38-45 | `(x, y) -> (x, 2*y0 - y)`, keeping length and order |
| PcbQuarter.MirrorY | pochoir/gen_pcb_quarter.py:47-54 | `(x, y) -> (2*x0 - x, y)`, keeping length and order |
| PcbQuarter.MirrorCenter | pochoir/gen_pcb_quarter.py:57-64 | `(x, y) -> (2*x0 - x, 2*y0 - y)`, keeping length and order |
| PcbQuarter.MirrorsInvolutive | pochoir/gen_pcb_quarter.py:38-64 | each mirror applied twice gives back the points |
| PcbQuarter.CenterIsBothAxes | pochoir/gen_pcb_quarter.py:38-64 | the centre mirror is both axis mirrors composed, in either order |
| PcbQuarter.FormQuarterBoundary | pochoir/gen_pcb_quarter.py:81-105 | `IndexError` iff the point list is empty |
| PcbQuarter.BoundaryCases | pochoir/gen_pcb_quarter.py:81-105 | above `y0`, rising ranges; below `y0`, falling ranges; on `y0` with `dx >= 0`, nothing; on `y0` with `dx < 0`, rising then falling (every point twice) |
| PcbQuarter.FillOutcome | pochoir/gen_pcb_quarter.py:73-79 | one slice write: `IndexError` iff not addressable, before any write; otherwise selected cells take `v` and the rest are unchanged |
| PcbQuarter.AreaFilled | pochoir/gen_pcb_quarter.py:66-73 | `fill_area` writes entry by entry until one raises, keeping exactly the cells of the array; the cells it writes are `PcbQuarter.AreaFilledCells` |
| PcbQuarter.FillArea | pochoir/gen_pcb_quarter.py:66-73 | the in-place loop yields exactly `AreaFilled` of the old cells |
| PcbQuarter.AreaFilledCells | pochoir/gen_pcb_quarter.py:66-73 | raises iff some entry's row is out of range; on success, exactly the covered cells hold `val` and nothing else changes |
| PcbQuarter.DrawPlane | pochoir/gen_pcb_quarter.py:75-79 | `arr[:, :, z] = val` as a checked slice write |
| PcbQuarter.PlaneSelects | pochoir/gen_pcb_quarter.py:79 | `arr[:, :, z]` selects exactly layer `z` |
| PcbQuarter.HoleBoundaries | pochoir/gen_pcb_quarter.py:113-117 | the two hole boundaries `draw_pcb_plane` computes |
| PcbQuarter.PcbPlane | pochoir/gen_pcb_quarter.py:108-119 | `draw_pcb_plane` keeps exactly the cells of the array; the cells it writes are `PcbQuarter.PcbPlaneCells` |
| PcbQuarter.DrawPcbPlane | pochoir/gen_pcb_quarter.py:108-119 | the in-place method yields exactly `PcbPlane` of the old cells |
| PcbQuarter.PcbPlaneCells | pochoir/gen_pcb_quarter.py:108-119 | a cathode plane sets layer `z`; a PCB plane sets layer `z`, then zeroes the holes in every layer; nothing else changes |
| PcbQuarter.Pcb3D | pochoir/gen_pcb_quarter.py:121-128 | `draw_3D_pcb` keeps exactly the cells of the array; what it writes is `PcbQuarter.PcbLayers`, and when it raises is `PcbQuarter.PcbNeedsLayers` |
| PcbQuarter.Draw3DPcb | pochoir/gen_pcb_quarter.py:121-128 | the plane loop yields exactly `Pcb3D` of the old cells |
| PcbQuarter.PcbLayers | pochoir/gen_pcb_quarter.py:121-128 | the top layer holds the anode voltage; layers from `pcb_width` up hold the cathode voltage; lower layers hold the PCB voltage outside the holes and 0 inside |
| PcbQuarter.PcbNeedsLayers | pochoir/gen_pcb_quarter.py:121-128 | with fewer than three axes or an empty third axis, `IndexError` is raised and nothing is written |
| PcbQuarter.ZeroWhereZero | pochoir/gen_pcb_quarter.py:135 | `barr[arr == 0] = 0`: same cells, zero exactly where `arr` is zero, else unchanged |
| PcbQuarter.Generator | pochoir/gen_pcb_quarter.py:130-137 | both arrays have the domain's shape; the volume is `Pcb3D` with the source's constants; the mask is 0 where the volume is 0 and 1 elsewhere |
| PcbQuarter.GeneratedMask | pochoir/gen_pcb_quarter.py:130-137 | the mask is 0 on the hole cells of the PCB layers below the top, and 1 everywhere else |
| PcbStrips.Mirrored | pochoir/gen_pcb_3Dstrips.py:9-17 | reversing an array along one axis keeps exactly its cells; where each value goes is `PcbStrips.MirroredAt` and `PcbStrips.MirroredMoves` |
| PcbStrips.MirroredAt | pochoir/gen_pcb_3Dstrips.py:9-17 | cell `i` of the mirror image is the source's cell at `i` flipped on that axis |
| PcbStrips.MirroredMoves | pochoir/gen_pcb_3Dstrips.py:9-17 | each source cell reappears at its flipped position |
| PcbStrips.MirroredTwice | pochoir/gen_pcb_3Dstrips.py:9-17 | mirroring twice along one axis gives back the array |
| PcbStrips.MirrorsCommute | pochoir/gen_pcb_3Dstrips.py:9-17 | the two mirrors commute |
| PcbStrips.MirrorArrYAxis | pochoir/gen_pcb_3Dstrips.py:9-12 | `IndexError` iff the rank is below 2; otherwise a fresh array of the same shape reversed along axis 1 |
| PcbStrips.MirrorArrXAxis | pochoir/gen_pcb_3Dstrips.py:14-17 | `IndexError` iff the rank is below 2; otherwise a fresh array of the same shape reversed along axis 0 |
| PcbStrips.Paste | pochoir/gen_pcb_3Dstrips.py:25 | `arr[rows, cols, z] = q[:, :, 0]` succeeds iff `q` has a layer, `z` is a valid layer and the quarter broadcasts onto the block; a quarter without a layer or a bad `z` raises `IndexError`, a shape mismatch `ValueError`, and on error no cell changes |
| PcbStrips.PasteAt | pochoir/gen_pcb_3Dstrips.py:25 | a block write: cells of the block take the broadcast source cell, and other cells keep their value |
| PcbStrips.RunAppend | pochoir/gen_pcb_3Dstrips.py:24-43 | running two write lists in turn is running their concatenation |
| PcbStrips.RunMiss | pochoir/gen_pcb_3Dstrips.py:24-43 | writes to other layers leave a cell alone, whether or not one raises |
| PcbStrips.TileWrites | pochoir/gen_pcb_3Dstrips.py:25-28 | the four writes of one tile in the generator's order; what they write is `PcbStrips.TilePattern` |
| PcbStrips.TilePattern | pochoir/gen_pcb_3Dstrips.py:25-28 | a tile puts the chessboard (`q1 \| q4` over `q4 \| q1`) on its two quarter rows and two quarter columns of layer `z`, and nothing else changes |
| PcbStrips.StripWrites | pochoir/gen_pcb_3Dstrips.py:24-32 | every strip write is on layer `pcb_low_edge` or `pcb_low_edge + pcb_width` |
| PcbStrips.PasteInto | pochoir/gen_pcb_3Dstrips.py:25 | the in-place block write yields exactly `RunOne` |
| PcbStrips.DrawTile | pochoir/gen_pcb_3Dstrips.py:25-28 | the four in-place writes of a tile yield exactly `Run` of them |
| PcbStrips.DrawPair | pochoir/gen_pcb_3Dstrips.py:25-32 | one pass of the loop either stops with the outcome of all remaining strip writes or leaves the array from which the later passes give that same outcome |
| PcbStrips.DrawStrips | pochoir/gen_pcb_3Dstrips.py:24-32 | the strip loop yields exactly `Run` of the strip writes |
| PcbStrips.Strips3D | pochoir/gen_pcb_3Dstrips.py:19-43 | both arrays keep exactly their cells; a quarter with no rows raises `IndexError`; what is written is `PcbStrips.MaskPattern`, `PcbStrips.ValuePattern` and `PcbStrips.StripLayersOnly` |
| PcbStrips.Draw3DStrips | pochoir/gen_pcb_3Dstrips.py:19-43 | the in-place arrays and exception are exactly `Strips3D` |
| PcbStrips.MaskPattern | pochoir/gen_pcb_3Dstrips.py:24-32 | on success, each mask cell on the two strip layers, within `2*Nstrips` quarter rows and two quarter columns, holds the chessboard; other mask cells are unchanged |
| PcbStrips.ValuePattern | pochoir/gen_pcb_3Dstrips.py:34-43 | on success, `arr` holds quarter rows `Nstrips-1` and `Nstrips` of the chessboard on the selected layer, and is otherwise unchanged |
| PcbStrips.PatternOfMirror | pochoir/gen_pcb_3Dstrips.py:22-28 | the chessboard's mirrored cells come from the quarter's column `Y-1-c` |
| PcbStrips.StripLayersOnly | pochoir/gen_pcb_3Dstrips.py:24-43 | whether or not it raises, `barr` changes only on the two strip layers, and `arr` only on the layer `plane` selects (none for other planes) |
| Values.Get | pochoir/util.py:23 | `d.get(k)` finds a value iff `k in d` |
| Values.GetUnique | pochoir/util.py:23 | in a dict, looking up the key at position `i` finds the value at position `i` |
| Values.DictOfSpec | pochoir/util.py:23 | `dict(xs)` has unique keys, exactly the keys of `xs`, and each key maps to its last value |
| Values.DictOfUnique | pochoir/util.py:23 | `dict(xs)` with distinct keys keeps every item, in order |
| Values.FoldDictOf | pochoir/util.py:20-23 | extending with the items of a built dict is the same as extending with the pairs it was built from |
| Util.Flatten | pochoir/util.py:9-23 | `flatten(d, sep, parent)` for a dict: `dict` of the collected items; its keys and values are stated by the `Util.Flatten*` lemmas below |
| Util.FlattenValue | pochoir/util.py:9-23 | a value that is not a dict raises `AttributeError` |
| Util.FlattenIsDictOfLeaves | pochoir/util.py:9-23 | `flatten(d)` is `dict` of the depth-first leaves under their joined keys |
| Util.FlattenValues | pochoir/util.py:9-23 | no key appears twice, and each key's value is that of the last leaf with that key |
| Util.FlattenKeys | pochoir/util.py:17-22 | a key is present iff some key path leads to a non-dict value and joins to `parent+sep+k1+...+sep+kn` |
| Util.FlattenLeaves | pochoir/util.py:17-22 | no value is a dict; under a non-empty parent, every key starts with `parent + sep` |
| Util.TopLevelKept | pochoir/util.py:17 | with an empty parent, a top-level non-dict entry keeps its key |
| Persist.Backend | pochoir/persist.py:12-18 | an explicit format is returned unchanged; otherwise "hdf" iff the name contains ".hdf", else "npz" |
| Persist.Store | pochoir/persist.py:26-31 | HDF iff the format contains "hdf"; otherwise npz iff it contains "npz" or "json"; otherwise `ValueError` |
| Persist.StoreDefault | pochoir/persist.py:13-31 | without an explicit format a store always opens: HDF for a ".hdf" name, npz otherwise |
| Persist.Todict | pochoir/persist.py:63-78 | `todict` with numpy imported: named tuples to `{class: {field: value}}`, arrays to their shape and elements, lists item by item, anything else as it is; `Persist.RoundTrip` states what it preserves |
| Persist.TodictAsWritten | pochoir/persist.py:63-78 | `todict` as written, failing on the unimported `numpy`; stated by `Persist.TodictAsWrittenFails` |
| Persist.TodictAsWrittenFails | pochoir/persist.py:63-78 | as written, `todict` raises `NameError` on every well-formed value |
| Persist.ShapeOf | pochoir/persist.py:89 | the dimensions `reshape` accepts: a list or tuple of naturals, or one natural for a single axis; nothing else |
| Persist.FromArrayDict | pochoir/persist.py:88-89 | the array comes back iff the payload is a dict whose elements are a list or tuple of numbers and whose shape is a list or tuple of naturals, or one natural `n` meaning `(n,)`, with product the element count; its shape is those dimensions and its elements those numbers; otherwise the matching error (other element types: see Left out) |
| Persist.FromdictWith | pochoir/persist.py:81-99 | `fromdict` with or without the numpy import: arrays, then the three schema classes in order, then plain dicts; lists item by item; anything else as it is; stated by `Persist.RoundTrip`, `Persist.RecordDispatch`, `Persist.PassThrough` and `Persist.ArrayAsWritten` |
| Persist.Rebuild | pochoir/persist.py:91-94 | `typ(**kwargs)` from a named tuple's body: `AttributeError` without `items`, `TypeError` unless the keywords are exactly the fields; stated by `Persist.RebuildRoundTrip` and `Persist.DroppedIgnored` |
| Persist.Fromdict | pochoir/persist.py:81-99 | `fromdict` with numpy imported; `Persist.RoundTrip` states it undoes `Persist.Todict` |
| Persist.FromdictAsWritten | pochoir/persist.py:81-99 | `fromdict` as written; stated by `Persist.ArrayAsWritten` |
| Persist.FromdictItems | pochoir/persist.py:96-97 | the list converts iff every item converts; the results are elementwise, otherwise the first error |
| Persist.Kwargs | pochoir/persist.py:94 | the keyword items never include "pitchdir" or "wiredir" |
| Persist.ArrayRoundTrip | pochoir/persist.py:71-89 | an encoded array decodes to itself |
| Persist.RoundTrip | pochoir/persist.py:63-99 | `fromdict(todict(v)) == v` for every encodable value: named tuples, arrays, lists, tuples (left as they are, contents included) and plain values |
| Persist.RebuildRoundTrip | pochoir/persist.py:67-94 | an encoded named tuple's body rebuilds the named tuple |
| Persist.RecordDispatch | pochoir/persist.py:91-94 | a dict whose key is a schema class name is rebuilt as that class |
| Persist.PassThrough | pochoir/persist.py:78-99 | other values, tuples included, and dicts without marker keys, pass through both ways unchanged |
| Persist.TupleUnconverted | pochoir/persist.py:63-99 | a tuple is not a list: an array inside it stays raw under `todict`, and an encoded array inside it is not decoded, with or without numpy, while inside a list it decodes |
| Persist.DroppedIgnored | pochoir/persist.py:94 | a "pitchdir" or "wiredir" item in a named tuple's body is ignored |
| Persist.ArrayAsWritten | pochoir/persist.py:71-88 | as written, both directions raise `NameError` on arrays; with numpy imported the array comes back |
| ShapeSchema.Truthy | pochoir/shape_schema.py:2 | Python truthiness; it raises iff the value is an array of more than one element |
| ShapeSchema.All | pochoir/shape_schema.py:2 | `all(xs)`: true iff every item is truthy; false at the first falsy item after truthy ones; an error only from an item whose truth raises after truthy ones |
| ShapeSchema.Rectangle | pochoir/shape_schema.py:1-5 | succeeds iff both points are truthy; a falsy first point, or a truthy first and falsy second, gives `ValueError('rectangle "name" lacks points')`; a point whose truth raises (a numpy array of several elements) gives that error instead; on success a dict with type "rectangle" and the name and points unchanged |
| Units.Lengths | pochoir/units.py:6-9 | um = mm/1000, cm = 10 mm, m = 1000 mm |
| Units.Times | pochoir/units.py:13-17 | s is second; ms, us and ns are 1e-3, 1e-6 and 1e-9 seconds |
| Units.Others | pochoir/units.py:10-26 | 180 deg is 3.141592 rad; K == Kelvin == 1, V == Volt == 1, kV == 1000 V |

## Left out

Whole areas of the source:
- **I/O and the command line.** The hdf/npz stores themselves, `tempstore`, JSON dumps, the CLI and jsonnet configuration are file-system and external-library plumbing. `Persist.Store` returns which store would open, not the store.
- **Printing and plotting.** The epoch and precision messages of `solve` and `plt`/PDF output are not modelled.
- **Accelerator back ends.** The torch, cupy, numba and CUDA variants of the solver, `arrays.module`, `to_numpy`, `to_torch` and `gradient` dispatch to foreign libraries.
- **Drift, interpolation and physics modules.** These are floating-point ODE integration through scipy and torch.
- **The unused generators** with broken imports, and the declaration-only modules.

Numerics:
- **Real arithmetic.** All grid values and coordinates are mathematical reals, so no floating-point rounding is modelled. The unit constants are exact (`Units.deg` is `3.141592/180`). Python's `int` and `float` share the single `Num(real)` case of a value.

Pieces of the core files:
- **Cylinder** in `pochoir/shapes.py` needs `sqrt` and a normalised direction, which are not representable on exact reals.
- **`unitify`** in `pochoir/util.py` evaluates strings with `eval`.
- **The `generator` of `gen_pcb_3Dstrips.py`** converts configuration values with float division and `int()` truncation. `draw_3Dstrips` is modelled; this caller is not.

Member by member:
- Shapes.Inside: points and shapes are assumed to have the same dimension. numpy broadcasting between mismatched lengths is not modelled.
- PcbQuarter.MirrorX, PcbQuarter.MirrorY: the parameters the source accepts and never reads (`x0`/`y0`, `r`) are dropped.
- PcbQuarter.Generator: the domain enters only through its shape, and `cfg` is unused as in the source.
- PcbStrips.Draw3DStrips: modelled for arrays of rank 3 whose value array, mask and quarter are distinct objects. Aliasing between them is not modelled.
- Util.Flatten: keys are strings. Non-string keys, and dict-like objects other than `dict`, are not modelled.
- Persist.FromArrayDict: malformed payloads raise simplified errors (their messages are not modelled). numpy's `-1` reshape dimension and nested element lists are not modelled; a shape that is one natural number is read as a single axis, as `reshape` does. `Values.Array` holds reals only, so elements that are not all numbers (strings, bools, `None`, dicts, or a scalar in place of the list) are reported as `ValueError`, where `numpy.asarray` builds a string, bool, object or 0-d array and `reshape` decides.
- Persist.Rebuild: the `TypeError` raised for wrong keyword arguments carries only the class name.
- ShapeSchema.Truthy: an empty numpy array is taken as false. numpy deprecates this case.
- ShapeSchema.Rectangle: the name is a string. The source formats any object with `str`.
- Domains.RoundHalfEven: rounding is exact on reals, so float tie-breaking differences are not modelled.
- FdmNumpy.Solve: the mask is given as the map of its boolean cells. `iarr[ifixed]` is read as a map from cell to value rather than a row-major vector, which has the same effect for the same mask. The `stencil` keyword is fixed to the generic stencil (`FdmGeneric.Stencil`); the accelerated stencil that other back ends pass in is not modelled.
- FdmGeneric.Stencil, FdmGeneric.EdgeCondition, FdmNumpy.SolveSpec, FdmNumpy.Solve: axes shorter than 2 are excluded by their preconditions, and rank-0 arrays are excluded from all but `EdgeCondition`. On them the source raises: `ZeroDivisionError` at `norm = 1/(2*nd)`, numpy's `ValueError` for a negative `zeros` dimension, and numpy's broadcast `ValueError` when `edge_condition` copies an empty slice. Every caller in the core passes padded arrays, which have rank at least 1 and every axis at least 2 long.
- Pochoir.EdgeConditions1d, Pochoir.EdgeConditions2d, Pochoir.EdgeConditions3d: the grid must have at least N axes, the first N at least 2 long; both are preconditions. On an axis of length 1 the source's "periodic" and "fixed" read `grid[-2]` or `grid[1]` and raise `IndexError`, while an unknown condition name writes nothing; on a grid of lower rank the N-th axis's indexing raises. The callers in `stencil2d.py` pass 2-D grids from `make_domain`.
- Pochoir.Stencil1d, Pochoir.Stencil2d, Pochoir.Stencil3d: the grid must have exactly the stencil's rank and every axis at least 2 long. On a shorter axis the source returns an empty array, and on a grid of higher rank it slices only the first N axes, returning an array that keeps the remaining axes whole. The callers in `stencil2d.py` pass 2-D grids from `make_domain`.
- FdmNumpy.SolveSpec: the rank-mismatch `ValueError` carries the text `dimension mismatch` without the two counts that `edge_condition` formats into its message.
- Domains.Elementwise: a zero divisor is reported as an error. numpy instead returns inf or nan with a `RuntimeWarning`, and `index` then casts that to an arbitrary integer without raising.

## Findings

| source | as written | input that shows it | evidently intended | confidence | as-written member | corrected member |
|---|---|---|---|---|---|---|
| pochoir/persist.py:71 | `todict` tests `isinstance(obj, numpy.ndarray)`, but the module never imports `numpy`, so every object that is not a schema named tuple raises `NameError` | `todict([1.0])` or `todict(None)` | arrays encode as `{array: {shape, elements}}`; lists map elementwise; other values pass through | not executed | Persist.TodictAsWrittenFails | Persist.RoundTrip |
| pochoir/persist.py:88 | `fromdict` on a dict with key "array" calls `numpy.asarray`, which raises `NameError` for the same reason | `fromdict({"array": {"shape": [1], "elements": [2.0]}})` | the encoded array decodes back to the array | not executed | Persist.ArrayAsWritten | Persist.ArrayRoundTrip |
| pochoir/fdm_numpy.py:73 | the final message reads `maxerr`, which is bound only inside the step loop | `solve(iarr, barr, periodic, prec, 0, 5)` or any call with `nepochs == 0` | return the input's core and the zero error array | not executed | FdmNumpy.ZeroBudget | FdmNumpy.Solve |

=== FILE: arrays.dfy ===
/**
 * Low-level array helpers: the one-cell core/pad of an N-D array, copying,
 * and parsing a comma-separated list of numbers.
 */
module Arrays {
  import opened NdArrays
  import opened Wrappers
  import opened PyStrings

  /** The shape of `core1(a)`: two cells fewer on every axis (an axis shorter than 2 becomes empty). */
  function CoreShape(shape: Shape): (r: Shape)
    ensures |r| == |shape|
    ensures forall d :: 0 <= d < |r| ==> r[d] == if shape[d] >= 2 then shape[d] - 2 else 0
  {
    seq(|shape|, d requires 0 <= d < |shape| => if shape[d] >= 2 then shape[d] - 2 else 0)
  }

  /** The shape of `pad1(a)`: two cells more on every axis. */
  function PadShape(shape: Shape): (r: Shape)
    ensures |r| == |shape|
    ensures forall d :: 0 <= d < |r| ==> r[d] == shape[d] + 2
  {
    seq(|shape|, d requires 0 <= d < |shape| => shape[d] + 2)
  }

  /** The index one cell further along every axis: where core cell `i` sits in the padded array. */
  function Lift(i: Index): (r: Index)
    ensures |r| == |i|
    ensures forall d :: 0 <= d < |i| ==> r[d] == i[d] + 1
  {
    seq(|i|, d requires 0 <= d < |i| => i[d] + 1)
  }

  /** The inverse of `Lift`. */
  function Lower(i: Index): (r: Index)
    ensures |r| == |i|
    ensures forall d :: 0 <= d < |i| ==> r[d] == i[d] - 1
  {
    seq(|i|, d requires 0 <= d < |i| => i[d] - 1)
  }

  /** Cell `k` of an array of `shape` is not on its one-cell halo. */
  predicate Interior(shape: Shape, k: Index)
    requires |k| == |shape|
  {
    forall d :: 0 <= d < |k| ==> 1 <= k[d] && k[d] + 1 < shape[d]
  }

  /** `core_slices1`: one slice per axis dropping the first and the last cell. */
  function CoreSlices1(shape: Shape): (r: seq<Slice>)
    ensures |r| == |shape|
    ensures SliceShape(r, shape) == CoreShape(shape)
    ensures forall d :: 0 <= d < |shape| && shape[d] >= 2 ==> Range(r[d], shape[d]) == (1, shape[d] - 1)
  {
    seq(|shape|, d requires 0 <= d < |shape| => Slice(1, shape[d] as int - 1))
  }

  /** Inside a non-empty core, the core region starts at index 1 on every axis. */
  lemma CoreStarts(shape: Shape, i: Index)
    requires InBounds(CoreShape(shape), i)
    ensures Plus(i, Starts(CoreSlices1(shape), shape)) == Lift(i)
  {
    var o := Starts(CoreSlices1(shape), shape);
    forall d | 0 <= d < |i| ensures o[d] == 1 {
      assert shape[d] >= 3;
    }
  }

  /** `core1(a)`: the array without its one-cell halo; its cell `i` is `a[i + 1]`. */
  function Core1<T>(m: map<Index, T>, shape: Shape): (r: map<Index, T>)
    requires Shaped(m, shape)
    ensures Shaped(r, CoreShape(shape))
    ensures forall i :: i in r ==> Lift(i) in m && r[i] == m[Lift(i)]
  {
    var r := SliceCells(m, shape, CoreSlices1(shape));
    forall i | i in r ensures Lift(i) in m && r[i] == m[Lift(i)] {
      CoreStarts(shape, i);
    }
    r
  }

  /** The core of a padded shape is the unpadded shape. */
  lemma CoreOfPad(shape: Shape)
    ensures CoreShape(PadShape(shape)) == shape
  {
  }

  /**
   * `pad1(a)` on cell values: a zero-filled array two cells larger on every
   * axis whose core slice was assigned `a`.
   */
  function PadCells<T>(m: map<Index, T>, shape: Shape, zero: T): (r: map<Index, T>)
    requires Shaped(m, shape)
    ensures Shaped(r, PadShape(shape))
    ensures forall i :: i in m ==> Lift(i) in r && r[Lift(i)] == m[i]
    ensures forall k :: k in r && !Interior(PadShape(shape), k) ==> r[k] == zero
  {
    var ps := PadShape(shape);
    CoreOfPad(shape);
    var r := AssignSlice(Full(ps, zero), ps, CoreSlices1(ps), m);
    forall i | i in m ensures Lift(i) in r && r[Lift(i)] == m[i] {
      PadCore(shape, i);
      ShiftedInRegion(ps, CoreSlices1(ps), i);
    }
    forall k | k in r && !Interior(ps, k) ensures r[k] == zero {
      HaloOutsideCore(ps, k);
    }
    r
  }

  lemma PadCore(shape: Shape, i: Index)
    requires InBounds(shape, i)
    ensures InBounds(SliceShape(CoreSlices1(PadShape(shape)), PadShape(shape)), i)
    ensures Plus(i, Starts(CoreSlices1(PadShape(shape)), PadShape(shape))) == Lift(i)
  {
    CoreOfPad(shape);
    CoreStarts(PadShape(shape), i);
  }

  lemma HaloOutsideCore(shape: Shape, k: Index)
    requires InBounds(shape, k) && !Interior(shape, k)
    ensures !InRegion(CoreSlices1(shape), shape, k)
  {
    var d :| 0 <= d < |k| && !(1 <= k[d] && k[d] + 1 < shape[d]);
    if shape[d] >= 2 {
      assert Range(CoreSlices1(shape)[d], shape[d]) == (1, shape[d] - 1);
    }
  }

  /** `core1(pad1(a)) == a` */
  lemma CorePad<T>(m: map<Index, T>, shape: Shape, zero: T)
    requires Shaped(m, shape)
    ensures Core1(PadCells(m, shape, zero), PadShape(shape)) == m
  {
    var c := Core1(PadCells(m, shape, zero), PadShape(shape));
    CoreOfPad(shape);
    SameKeys(c, m, shape);
    forall i | i in m ensures c[i] == m[i] {
      CorePadAt(m, shape, zero, i);
    }
  }

  lemma CorePadAt<T>(m: map<Index, T>, shape: Shape, zero: T, i: Index)
    requires Shaped(m, shape) && i in m
    ensures i in Core1(PadCells(m, shape, zero), PadShape(shape))
    ensures Core1(PadCells(m, shape, zero), PadShape(shape))[i] == m[i]
  {
    CoreOfPad(shape);
  }

  /** Every cell of `pad1(a)` off the halo holds a cell of `a`: the interior is exactly the lifted input. */
  lemma PadInterior<T>(m: map<Index, T>, shape: Shape, zero: T, k: Index)
    requires Shaped(m, shape) && InBounds(PadShape(shape), k) && Interior(PadShape(shape), k)
    ensures Lower(k) in m && Lift(Lower(k)) == k
    ensures PadCells(m, shape, zero)[k] == m[Lower(k)]
  {
    assert Lift(Lower(k)) == k;
  }

  /** `pad1`: a new array holding `a` inside a one-cell halo of zeros. */
  method Pad1(a: NdArray) returns (p: NdArray)
    requires a.Valid()
    ensures fresh(p) && p.Valid()
    ensures p.shape == PadShape(a.shape) && p.cells == PadCells(a.cells, a.shape, 0.0)
  {
    var shape := seq(|a.shape|, d requires 0 <= d < |a.shape| => a.shape[d] + 2);
    p := new NdArray.Zeros(shape);
    CoreOfPad(a.shape);
    p.cells := AssignSlice(p.cells, p.shape, CoreSlices1(p.shape), a.cells);
  }

  /** `dup`: a separate array with the same shape and contents. */
  method Dup(a: NdArray) returns (b: NdArray)
    requires a.Valid()
    ensures fresh(b) && b.Valid() && b.shape == a.shape && b.cells == a.cells
  {
    b := new NdArray.FromCells(a.shape, a.cells);
  }

  // ---------------------------------------------------------------------
  // fromstr1

  /** The fields `fromstr1` converts: each comma-separated piece stripped, blank pieces dropped. */
  function Fields(pieces: seq<string>): (r: seq<string>)
    ensures forall k :: 0 <= k < |r| ==> r[k] != "" && !IsSpace(r[k][0]) && !IsSpace(r[k][|r[k]| - 1])
  {
    if pieces == [] then []
    else
      var f := Strip(pieces[0]);
      var rest := Fields(pieces[1..]);
      if f == "" then rest
      else [f] + rest
  }

  /**
   * `fromstr1(string, dtype)`: parse a comma-separated list. `dtype` is the
   * caller's converter; its first failure is the failure of the whole parse.
   */
  function FromStr1<T>(s: string, dtype: string -> Result<T>): Result<seq<T>> {
    ConvertAll(Fields(Split(s, ',')), dtype)
  }

  /** `[dtype(f) for f in fields]`, stopping at the first exception. */
  function ConvertAll<T>(fields: seq<string>, dtype: string -> Result<T>): (r: Result<seq<T>>)
    ensures r.Ok? <==> forall k :: 0 <= k < |fields| ==> dtype(fields[k]).Ok?
    ensures r.Ok? ==> |r.value| == |fields| && forall k :: 0 <= k < |fields| ==> dtype(fields[k]) == Ok(r.value[k])
    ensures r.Err? ==> exists k :: 0 <= k < |fields| && dtype(fields[k]) == Err(r.error)
                                  && forall j :: 0 <= j < k ==> dtype(fields[j]).Ok?
  {
    if fields == [] then Ok([])
    else
      match dtype(fields[0])
      case Err(e) => Err(e)
      case Ok(v) =>
        var rest := ConvertAll(fields[1..], dtype);
        if rest.Err? then
          assert exists k :: 0 <= k < |fields| && dtype(fields[k]) == Err(rest.error)
                             && forall j :: 0 <= j < k ==> dtype(fields[j]).Ok? by {
            var k :| 0 <= k < |fields| - 1 && dtype(fields[1..][k]) == Err(rest.error)
                     && forall j :: 0 <= j < k ==> dtype(fields[1..][j]).Ok?;
            assert dtype(fields[k + 1]) == Err(rest.error);
            forall j | 0 <= j < k + 1 ensures dtype(fields[j]).Ok? {
              if j > 0 {
                assert fields[j] == fields[1..][j - 1];
              }
            }
          }
          assert !dtype(fields[1..][0]).Ok? || exists k :: 0 <= k < |fields| - 1 && !dtype(fields[1..][k]).Ok?;
          Err(rest.error)
        else
          Ok([v] + rest.value)
  }

  /** Each value `xs[k]` surrounded by the whitespace `pads[k]`. */
  function Padded(xs: seq<string>, pads: seq<(string, string)>): (r: seq<string>)
    requires |pads| == |xs|
    ensures |r| == |xs|
    ensures forall k :: 0 <= k < |r| ==> r[k] == pads[k].0 + xs[k] + pads[k].1
  {
    if xs == [] then [] else [pads[0].0 + xs[0] + pads[0].1] + Padded(xs[1..], pads[1..])
  }

  predicate AllSpace(s: string) {
    forall c :: c in s ==> IsSpace(c)
  }

  lemma {:induction false} TrimLeftSpaces(l: string, t: string)
    requires AllSpace(l) && t != [] && !IsSpace(t[0])
    ensures TrimLeft(l + t) == t
  {
    if l != [] {
      assert (l + t)[1..] == l[1..] + t;
      TrimLeftSpaces(l[1..], t);
    } else {
      assert l + t == t;
    }
  }

  lemma {:induction false} TrimRightSpaces(t: string, r: string)
    requires AllSpace(r) && t != [] && !IsSpace(t[|t| - 1])
    ensures TrimRight(t + r) == t
  {
    if r != [] {
      assert (t + r)[..|t + r| - 1] == t + r[..|r| - 1];
      assert r[|r| - 1] in r;
      TrimRightSpaces(t, r[..|r| - 1]);
    } else {
      assert t + r == t;
    }
  }

  /** Stripping removes exactly the whitespace put around a stripped, non-blank value. */
  lemma StripPadded(l: string, x: string, r: string)
    requires AllSpace(l) && AllSpace(r)
    requires x != "" && Strip(x) == x
    ensures Strip(l + x + r) == x
  {
    assert l + x + r == l + (x + r);
    TrimLeftSpaces(l, x + r);
    TrimRightSpaces(x, r);
  }

  lemma {:induction false} FieldsOfPadded(xs: seq<string>, pads: seq<(string, string)>)
    requires |pads| == |xs|
    requires forall k :: 0 <= k < |xs| ==> xs[k] != "" && Strip(xs[k]) == xs[k]
    requires forall k :: 0 <= k < |pads| ==> AllSpace(pads[k].0) && AllSpace(pads[k].1)
    ensures Fields(Padded(xs, pads)) == xs
  {
    if xs != [] {
      var head := pads[0].0 + xs[0] + pads[0].1;
      var rest := Padded(xs[1..], pads[1..]);
      assert Padded(xs, pads) == [head] + rest;
      FieldsOfPadded(xs[1..], pads[1..]);
      StripPadded(pads[0].0, xs[0], pads[0].1);
      FieldsCons(head, rest);
      HeadTail(xs);
    }
  }

  lemma HeadTail<T>(s: seq<T>)
    requires s != []
    ensures [s[0]] + s[1..] == s
  {
  }

  /**
   * `fromstr1` reads back a list of non-blank, comma-free values joined with
   * commas: every value is converted, in order, whatever whitespace surrounds it.
   */
  lemma FromStr1Join<T>(xs: seq<string>, pads: seq<(string, string)>, dtype: string -> Result<T>)
    requires |pads| == |xs|
    requires forall k :: 0 <= k < |xs| ==> xs[k] != "" && Strip(xs[k]) == xs[k] && ',' !in xs[k]
    requires forall k :: 0 <= k < |pads| ==> AllSpace(pads[k].0) && AllSpace(pads[k].1)
    ensures FromStr1(Join(Padded(xs, pads), ','), dtype) == ConvertAll(xs, dtype)
  {
    var p := Padded(xs, pads);
    if xs == [] {
      assert Fields([""]) == [];
    } else {
      forall k | 0 <= k < |p| ensures ',' !in p[k] {
        assert !IsSpace(',');
      }
      SplitJoin(p, ',');
      FieldsOfPadded(xs, pads);
    }
  }

  lemma FieldsCons(x: string, rest: seq<string>)
    ensures Fields([x] + rest) == if Strip(x) == "" then Fields(rest) else [Strip(x)] + Fields(rest)
  {
    assert ([x] + rest)[0] == x && ([x] + rest)[1..] == rest;
  }

  lemma SplitHead(pieces: seq<string>, more: seq<string>)
    requires pieces != []
    ensures pieces + more == [pieces[0]] + (pieces[1..] + more)
  {
  }

  /** A blank or all-whitespace field is skipped: `"1,,2"` and `"1, ,2"` read as `"1,2"`. */
  lemma {:induction false} FieldsSkipBlank(pieces: seq<string>, blank: string, more: seq<string>)
    requires AllSpace(blank)
    ensures Fields(pieces + ([blank] + more)) == Fields(pieces + more)
  {
    if pieces == [] {
      StripBlank(blank);
      FieldsCons(blank, more);
      assert pieces + ([blank] + more) == [blank] + more;
      assert pieces + more == more;
    } else {
      FieldsSkipBlank(pieces[1..], blank, more);
      SplitHead(pieces, [blank] + more);
      SplitHead(pieces, more);
      FieldsCons(pieces[0], pieces[1..] + ([blank] + more));
      FieldsCons(pieces[0], pieces[1..] + more);
    }
  }

  /** A no-break space is blank to `str.strip()`, and an ideographic or no-break space around a value is stripped. */
  lemma StripUnicodeSpaces(v: string)
    requires v != "" && Strip(v) == v
    ensures Strip("\U{00A0}") == ""
    ensures Strip("\U{3000}" + v + "\U{00A0}") == v
  {
    StripBlank("\U{00A0}");
    StripPadded("\U{3000}", v, "\U{00A0}");
  }
}

=== FILE: domain.dfy ===
/**
 * The problem domain: an N-dimensional grid aligned with the Cartesian axes,
 * where along each axis `coordinate = origin + index * spacing`.
 *
 * The domain's vectors are numpy 1-D arrays; element-wise arithmetic between
 * them follows numpy's broadcasting for one dimension (equal lengths, or one
 * side of length 1), and fails otherwise.
 */
module Domains {
  import opened Wrappers
  import opened NdArrays

  /** The `spacing` argument: one number for every axis, or a list with one per axis. */
  datatype Spacing = Uniform(h: real) | PerAxis(hs: seq<real>)

  datatype Domain = Domain(shape: seq<nat>, spacing: seq<real>, origin: seq<real>)

  /** `Domain(shape, spacing, origin)`: a scalar spacing is repeated on every axis, a missing origin is all zeros. */
  function NewDomain(shape: seq<nat>, spacing: Spacing, origin: Option<seq<real>>): (d: Domain)
    ensures d.shape == shape
    ensures spacing.PerAxis? ==> d.spacing == spacing.hs
    ensures origin.Some? ==> d.origin == origin.value
  {
    var sp := match spacing
      case Uniform(h) => seq(|shape|, _ => h)
      case PerAxis(hs) => hs;
    var o := match origin
      case None => seq(|shape|, _ => 0.0)
      case Some(v) => v;
    Domain(shape, sp, o)
  }

  /** Every vector of the domain has one entry per axis. */
  predicate WellFormed(d: Domain) {
    |d.spacing| == |d.shape| && |d.origin| == |d.shape|
  }

  /** A scalar spacing and a default origin give a well-formed domain with that spacing on every axis and origin zero. */
  lemma NewDomainDefaults(shape: seq<nat>, h: real)
    ensures var d := NewDomain(shape, Uniform(h), None);
            && WellFormed(d)
            && (forall k :: 0 <= k < |shape| ==> d.spacing[k] == h && d.origin[k] == 0.0)
  {
  }

  // ---------------------------------------------------------------------
  // numpy element-wise arithmetic on 1-D arrays

  datatype Op = Add | Sub | Mul | Div

  /** The length of the broadcast of two 1-D arrays of lengths `n` and `m`, if they broadcast. */
  function BroadcastLen(n: nat, m: nat): Option<nat> {
    if n == m then Some(n)
    else if n == 1 then Some(m)
    else if m == 1 then Some(n)
    else None
  }

  /** Element `k` of an array stretched by broadcasting: a length-1 array repeats its element. */
  function Stretch(x: seq<real>, k: nat): real
    requires |x| == 1 || k < |x|
  {
    if |x| == 1 then x[0] else x[k]
  }

  function Apply(op: Op, a: real, b: real): real
    requires op.Div? ==> b != 0.0
  {
    match op
    case Add => a + b
    case Sub => a - b
    case Mul => a * b
    case Div => a / b
  }

  /**
   * `x op y` on two 1-D arrays. Lengths that do not broadcast raise
   * `ValueError`; a division by a zero element is reported as an error.
   */
  function Elementwise(x: seq<real>, y: seq<real>, op: Op): (r: Result<seq<real>>)
    ensures r.Ok? <==> BroadcastLen(|x|, |y|).Some? && (op.Div? ==> forall k :: 0 <= k < |y| ==> y[k] != 0.0)
    ensures r.Ok? ==> |r.value| == BroadcastLen(|x|, |y|).value
  {
    match BroadcastLen(|x|, |y|)
    case None => Err(ValueError("operands could not be broadcast together"))
    case Some(n) =>
      if op.Div? && exists k :: 0 <= k < |y| && y[k] == 0.0 then Err(ZeroDivisionError)
      else Ok(seq(n, k requires 0 <= k < n => Apply(op, Stretch(x, k), Stretch(y, k))))
  }

  /** On arrays of equal length, element `k` of `x op y` is `x[k] op y[k]`. */
  lemma ElementwiseAt(x: seq<real>, y: seq<real>, op: Op, k: nat)
    requires |x| == |y| && k < |x| && (op.Div? ==> forall j :: 0 <= j < |y| ==> y[j] != 0.0)
    ensures Elementwise(x, y, op).Ok? && Elementwise(x, y, op).value[k] == Apply(op, x[k], y[k])
  {
  }

  /** With a length-1 operand, every element meets that one value. */
  lemma ElementwiseStretched(x: seq<real>, c: real, op: Op, k: nat)
    requires k < |x| && (op.Div? ==> c != 0.0)
    ensures Elementwise(x, [c], op).Ok? && Elementwise(x, [c], op).value[k] == Apply(op, x[k], c)
  {
    if |x| == 1 {
      ElementwiseAt(x, [c], op, k);
    }
  }

  function Reals(i: seq<int>): (r: seq<real>)
    ensures |r| == |i| && forall k :: 0 <= k < |i| ==> r[k] == i[k] as real
  {
    seq(|i|, k requires 0 <= k < |i| => i[k] as real)
  }

  /** `numpy.round`: to the nearest integer, halves to the even neighbour. */
  function RoundHalfEven(x: real): (r: int)
    ensures x - 0.5 <= r as real <= x + 0.5
    ensures x - 0.5 < r as real < x + 0.5 || r % 2 == 0
  {
    var f := x.Floor;
    var frac := x - f as real;
    if frac < 0.5 then f
    else if frac > 0.5 then f + 1
    else if f % 2 == 0 then f else f + 1
  }

  /** An integer rounds to itself. */
  lemma RoundWhole(k: int)
    ensures RoundHalfEven(k as real) == k
  {
  }

  function RoundAll(x: seq<real>): (r: seq<int>)
    ensures |r| == |x| && forall k :: 0 <= k < |x| ==> r[k] == RoundHalfEven(x[k])
  {
    seq(|x|, k requires 0 <= k < |x| => RoundHalfEven(x[k]))
  }

  // ---------------------------------------------------------------------
  // point and index

  /** `point(index)`: `origin + index * spacing`. */
  function Point(d: Domain, index: seq<int>): (r: Result<seq<real>>)
    ensures WellFormed(d) && |index| == |d.shape| ==> r.Ok?
    ensures r.Ok? && |index| != 1 ==> |r.value| == |index|
  {
    match Elementwise(Reals(index), d.spacing, Mul)
    case Err(e) => Err(e)
    case Ok(scaled) => Elementwise(d.origin, scaled, Add)
  }

  /** In a well-formed domain, coordinate `k` of `point(index)` is `origin[k] + index[k] * spacing[k]`. */
  lemma PointAt(d: Domain, index: seq<int>, k: nat)
    requires WellFormed(d) && |index| == |d.shape| && k < |index|
    ensures Point(d, index).Ok? && Point(d, index).value[k] == d.origin[k] + index[k] as real * d.spacing[k]
  {
    var scaled := Elementwise(Reals(index), d.spacing, Mul).value;
    ElementwiseAt(Reals(index), d.spacing, Mul, k);
    ElementwiseAt(d.origin, scaled, Add, k);
  }

  /** `index(point)`: the nearest grid index, `round((point - origin) / spacing)`. */
  function IndexOf(d: Domain, point: seq<real>): (r: Result<seq<int>>)
    ensures WellFormed(d) && |point| == |d.shape| ==>
              (r.Ok? <==> forall k :: 0 <= k < |d.spacing| ==> d.spacing[k] != 0.0)
  {
    match Elementwise(point, d.origin, Sub)
    case Err(e) => Err(e)
    case Ok(offset) =>
      (match Elementwise(offset, d.spacing, Div)
       case Err(e) => Err(e)
       case Ok(q) => Ok(RoundAll(q)))
  }

  /** The grid index of a grid point is that index, when no spacing is zero. */
  lemma IndexOfPoint(d: Domain, i: seq<int>)
    requires WellFormed(d) && |i| == |d.shape|
    requires forall k :: 0 <= k < |d.spacing| ==> d.spacing[k] != 0.0
    ensures Point(d, i).Ok? && IndexOf(d, Point(d, i).value) == Ok(i)
  {
    var p := Point(d, i).value;
    var r := IndexOf(d, p).value;
    forall k | 0 <= k < |i| ensures r[k] == i[k] {
      IndexOfPointAt(d, i, k);
    }
    assert r == i;
  }

  lemma IndexOfPointAt(d: Domain, i: seq<int>, k: nat)
    requires WellFormed(d) && |i| == |d.shape| && k < |i|
    requires forall j :: 0 <= j < |d.spacing| ==> d.spacing[j] != 0.0
    ensures Point(d, i).Ok? && IndexOf(d, Point(d, i).value).Ok?
    ensures |IndexOf(d, Point(d, i).value).value| == |i| && IndexOf(d, Point(d, i).value).value[k] == i[k]
  {
    PointAt(d, i, k);
    IndexOfGridPoint(d, Point(d, i).value, i[k], k);
  }

  /** A point whose coordinate `k` is that of grid index `ik` has index `ik` on axis `k`. */
  lemma IndexOfGridPoint(d: Domain, p: seq<real>, ik: int, k: nat)
    requires WellFormed(d) && |p| == |d.shape| && k < |p|
    requires forall j :: 0 <= j < |d.spacing| ==> d.spacing[j] != 0.0
    requires p[k] == d.origin[k] + ik as real * d.spacing[k]
    ensures IndexOf(d, p).Ok? && |IndexOf(d, p).value| == |p| && IndexOf(d, p).value[k] == ik
  {
    var offset := Elementwise(p, d.origin, Sub).value;
    var q := Elementwise(offset, d.spacing, Div).value;
    assert IndexOf(d, p) == Ok(RoundAll(q));
    ElementwiseAt(p, d.origin, Sub, k);
    ElementwiseAt(offset, d.spacing, Div, k);
    QuotientWhole(d.origin[k], ik, d.spacing[k], p[k], offset[k], q[k]);
    RoundWhole(ik);
  }

  lemma QuotientWhole(o: real, i: int, s: real, p: real, offset: real, q: real)
    requires s != 0.0 && p == o + i as real * s && offset == p - o && q == offset / s
    ensures q == i as real
  {
    assert offset == i as real * s;
  }

  /** `|s * t| <= |s| / 2` when `|t| <= 1/2`. */
  lemma HalfStep(s: real, t: real)
    requires -0.5 <= t <= 0.5
    ensures -Abs(s) / 2.0 <= s * t <= Abs(s) / 2.0
  {
    if s < 0.0 {
      assert s * t == (-s) * (-t);
      ScaledHalf(-s, -t);
    } else {
      ScaledHalf(s, t);
    }
  }

  lemma ScaledHalf(a: real, u: real)
    requires a >= 0.0 && -0.5 <= u <= 0.5
    ensures -a / 2.0 <= a * u <= a / 2.0
  {
    assert a * (0.5 - u) >= 0.0;
    assert a * (u + 0.5) >= 0.0;
  }

  /**
   * The index found for a point is a nearest grid index: along every axis the
   * point lies within half a spacing of the grid coordinate of that index.
   */
  lemma IndexIsNearest(d: Domain, point: seq<real>)
    requires WellFormed(d) && |point| == |d.shape|
    requires forall k :: 0 <= k < |d.spacing| ==> d.spacing[k] != 0.0
    ensures IndexOf(d, point).Ok?
    ensures var i := IndexOf(d, point).value;
            |i| == |d.shape| && forall k :: 0 <= k < |i| ==> WithinHalfStep(point[k], d.origin[k], d.spacing[k], i[k])
  {
    var i := IndexOf(d, point).value;
    forall k | 0 <= k < |i| ensures WithinHalfStep(point[k], d.origin[k], d.spacing[k], i[k]) {
      NearestAt(d, point, k);
    }
  }

  /** Coordinate `p` lies within half a spacing of grid coordinate `o + r * s`. */
  predicate WithinHalfStep(p: real, o: real, s: real, r: int) {
    -Abs(s) / 2.0 <= p - (o + r as real * s) <= Abs(s) / 2.0
  }

  lemma NearestAt(d: Domain, point: seq<real>, k: nat)
    requires WellFormed(d) && |point| == |d.shape| && k < |point|
    requires forall j :: 0 <= j < |d.spacing| ==> d.spacing[j] != 0.0
    ensures IndexOf(d, point).Ok? && |IndexOf(d, point).value| == |d.shape|
    ensures WithinHalfStep(point[k], d.origin[k], d.spacing[k], IndexOf(d, point).value[k])
  {
    var offset := Elementwise(point, d.origin, Sub).value;
    var q := Elementwise(offset, d.spacing, Div).value;
    var i := RoundAll(q);
    assert IndexOf(d, point) == Ok(i);
    ElementwiseAt(point, d.origin, Sub, k);
    ElementwiseAt(offset, d.spacing, Div, k);
    WithinHalf(d.origin[k], d.spacing[k], point[k], offset[k], q[k], i[k]);
  }

  /** A point whose quotient `q` rounds to `r` lies within half a spacing of grid coordinate `r`. */
  lemma WithinHalf(o: real, s: real, p: real, offset: real, q: real, r: int)
    requires s != 0.0 && offset == p - o && q == offset / s && q - 0.5 <= r as real <= q + 0.5
    ensures -Abs(s) / 2.0 <= p - (o + r as real * s) <= Abs(s) / 2.0
  {
    var t := q - r as real;
    assert offset == q * s;
    assert p - (o + r as real * s) == s * t;
    HalfStep(s, t);
  }

  // ---------------------------------------------------------------------
  // crop

  /**
   * `crop(slice(start, stop), axis)`: the slice clamped to `[0, shape[axis]]`,
   * or `slice(0, 0)` when nothing is left. A negative `axis` counts from the
   * end; one outside the rank raises `IndexError`.
   */
  function Crop(d: Domain, start: int, stop: int, axis: int): (r: Result<(int, int)>)
    ensures r.Ok? <==> -|d.shape| <= axis < |d.shape|
  {
    if axis < -|d.shape| || axis >= |d.shape| then Err(IndexError)
    else
      var n := d.shape[if axis < 0 then axis + |d.shape| else axis];
      var lo := if start > 0 then start else 0;
      var hi := if stop < n then stop else n;
      if lo < hi then Ok((lo, hi)) else Ok((0, 0))
  }

  /** Position `k` lies in the half-open range `[lo, hi)`. */
  predicate Within(k: int, lo: int, hi: int) {
    lo <= k < hi
  }

  /**
   * What `crop` returns: a non-empty range inside the axis, or `(0, 0)`; and
   * it selects exactly the positions that both the slice and the axis hold.
   */
  lemma CropBounds(d: Domain, start: int, stop: int, axis: int)
    requires -|d.shape| <= axis < |d.shape|
    ensures var r := Crop(d, start, stop, axis).value;
            var n := d.shape[if axis < 0 then axis + |d.shape| else axis];
            && ((0 <= r.0 < r.1 <= n) || r == (0, 0))
            && (forall k :: Within(k, r.0, r.1) <==> Within(k, start, stop) && Within(k, 0, n))
  {
  }

  /** Cropping a cropped slice changes nothing. */
  lemma CropIdempotent(d: Domain, start: int, stop: int, axis: int)
    requires -|d.shape| <= axis < |d.shape|
    ensures var r := Crop(d, start, stop, axis).value;
            Crop(d, r.0, r.1, axis) == Ok(r)
  {
  }

  // ---------------------------------------------------------------------
  // imshow_extent

  /** `imshow_extent(axis)`: `(left, right, bottom, top)` for `plt.imshow`. */
  function ImshowExtent(d: Domain, axis: Option<int>): (r: Result<(real, real, real, real)>)
    ensures axis.None? && |d.shape| != 2 ==> r == Err(ValueError("Must be 2D domain if not axis given"))
    ensures axis.Some? && |d.shape| != 3 ==> r == Err(ValueError("Must be 3D domain if axis given"))
  {
    match axis
    case None =>
      if |d.shape| != 2 then Err(ValueError("Must be 2D domain if not axis given"))
      else Corners(Point(d, [0, 0]), Point(d, LastIndex(d)), 0, 1)
    case Some(a) =>
      if |d.shape| != 3 then Err(ValueError("Must be 3D domain if axis given"))
      else Corners(Point(d, [0, 0, 0]), Point(d, LastIndex(d)), (a + 1) % 3, (a + 2) % 3)
  }

  /** The multi-index of the last grid point, `shape - 1` on every axis. */
  function LastIndex(d: Domain): (r: seq<int>)
    ensures |r| == |d.shape| && forall k :: 0 <= k < |r| ==> r[k] == d.shape[k] as int - 1
  {
    seq(|d.shape|, k requires 0 <= k < |d.shape| => d.shape[k] as int - 1)
  }

  /** `(p1[a1], p2[a1], p2[a2], p1[a2])`, passing on an error raised while computing either corner. */
  function Corners(p1: Result<seq<real>>, p2: Result<seq<real>>, a1: nat, a2: nat): Result<(real, real, real, real)>
    requires p1.Ok? ==> a1 < |p1.value| && a2 < |p1.value|
    requires p2.Ok? ==> a1 < |p2.value| && a2 < |p2.value|
  {
    if p1.Err? then Err(p1.error)
    else if p2.Err? then Err(p2.error)
    else Ok((p1.value[a1], p2.value[a1], p2.value[a2], p1.value[a2]))
  }

  /** The coordinate of the last grid point along axis `k`. */
  function Last(d: Domain, k: nat): real
    requires WellFormed(d) && k < |d.shape|
  {
    d.origin[k] + (d.shape[k] as int - 1) as real * d.spacing[k]
  }

  /** In a well-formed domain the two corners are the first and the last grid point. */
  lemma CornerPoints(d: Domain, first: seq<int>, k: nat)
    requires WellFormed(d) && |first| == |d.shape| && k < |d.shape| && first[k] == 0
    ensures Point(d, first).Ok? && Point(d, first).value[k] == d.origin[k]
    ensures Point(d, LastIndex(d)).Ok? && Point(d, LastIndex(d)).value[k] == Last(d, k)
  {
    PointAt(d, first, k);
    PointAt(d, LastIndex(d), k);
  }

  /** A well-formed 2-D domain spans from its first to its last grid coordinate on both axes. */
  lemma ImshowExtent2d(d: Domain)
    requires WellFormed(d) && |d.shape| == 2
    ensures ImshowExtent(d, None) == Ok((d.origin[0], Last(d, 0), Last(d, 1), d.origin[1]))
  {
    CornerPoints(d, [0, 0], 0);
    CornerPoints(d, [0, 0], 1);
  }

  /**
   * Looking along `axis` of a well-formed 3-D domain, the image spans the next
   * axis `(axis + 1) % 3` horizontally and the one after vertically.
   */
  lemma ImshowExtent3d(d: Domain, axis: int)
    requires WellFormed(d) && |d.shape| == 3
    ensures var a1 := (axis + 1) % 3;
            var a2 := (axis + 2) % 3;
            ImshowExtent(d, Some(axis)) == Ok((d.origin[a1], Last(d, a1), Last(d, a2), d.origin[a2]))
  {
    CornerPoints(d, [0, 0, 0], (axis + 1) % 3);
    CornerPoints(d, [0, 0, 0], (axis + 2) % 3);
  }

  // ---------------------------------------------------------------------
  // linspaces

  /** `numpy.linspace(first, last, num)`: `num` evenly spaced values from `first` to `last` inclusive. */
  function Linspace(first: real, last: real, num: nat): (r: seq<real>)
    ensures |r| == num
    ensures num >= 1 ==> r[0] == first
    ensures num >= 2 ==> r[num - 1] == last
  {
    if num == 1 then [first]
    else seq(num, k requires 0 <= k < num => first + k as real * ((last - first) / (num - 1) as real))
  }

  /** `linspaces`: for each axis (as far as the shortest of shape, spacing and origin goes), its grid coordinates. */
  function Linspaces(d: Domain): (r: seq<seq<real>>)
    ensures |r| <= |d.shape| && |r| <= |d.spacing| && |r| <= |d.origin|
  {
    var n := if |d.shape| <= |d.spacing| && |d.shape| <= |d.origin| then |d.shape|
             else if |d.spacing| <= |d.origin| then |d.spacing| else |d.origin|;
    seq(n, a requires 0 <= a < n => AxisLine(d, a))
  }

  /** The grid coordinates along axis `a`: `linspace(origin, origin + (num - 1) * spacing, num)`. */
  function AxisLine(d: Domain, a: nat): seq<real>
    requires a < |d.shape| && a < |d.spacing| && a < |d.origin|
  {
    Linspace(d.origin[a], d.origin[a] + (d.shape[a] as int - 1) as real * d.spacing[a], d.shape[a])
  }

  /** The evenly spaced values step by `(last - first) / (num - 1)`; from `o` to `o + (num - 1) * s` that step is `s`. */
  lemma LinspaceSteps(o: real, s: real, num: nat, k: nat)
    requires k < num
    ensures Linspace(o, o + (num as int - 1) as real * s, num)[k] == o + k as real * s
  {
    if num > 1 {
      var w := (num as int - 1) as real;
      assert ((o + w * s) - o) / w == s;
    }
  }

  lemma AxisLineAt(d: Domain, a: nat, k: nat)
    requires a < |d.shape| && a < |d.spacing| && a < |d.origin| && k < d.shape[a]
    ensures |AxisLine(d, a)| == d.shape[a] && AxisLine(d, a)[k] == d.origin[a] + k as real * d.spacing[a]
  {
    LinspaceSteps(d.origin[a], d.spacing[a], d.shape[a], k);
  }

  /**
   * In a well-formed domain, `linspaces` has one sequence per axis, of that
   * axis's length, whose entries are the coordinates `point` gives along it.
   */
  lemma LinspacesArePoints(d: Domain, i: seq<int>, a: nat)
    requires WellFormed(d) && |i| == |d.shape| && a < |d.shape| && 0 <= i[a] < d.shape[a]
    ensures |Linspaces(d)| == |d.shape| && |Linspaces(d)[a]| == d.shape[a]
    ensures Linspaces(d)[a][i[a]] == Point(d, i).value[a]
  {
    assert Linspaces(d)[a] == AxisLine(d, a);
    AxisLineAt(d, a, i[a]);
    PointAt(d, i, a);
  }
}

=== FILE: fdm_generic.dfy ===
/**
 * The rank-generic pieces of the finite-difference relaxation: the halo
 * (edge) condition and the Jacobi stencil.
 *
 * Arrays here are padded: every axis carries a one-cell halo at index 0 and
 * at index `n - 1` around the interior cells.
 */
module FdmGeneric {
  import opened NdArrays
  import opened Arrays

  /** Every axis is long enough to hold its two halo cells. */
  predicate Haloed(shape: Shape) {
    forall d :: 0 <= d < |shape| ==> shape[d] >= 2
  }

  // ---------------------------------------------------------------------
  // Plane copies

  /** The whole-array slices `slice(0, n)` on every axis, with `s` on axis `d` instead. */
  function AxisSlices(shape: Shape, d: nat, s: Slice): (r: seq<Slice>)
    requires d < |shape|
    ensures |r| == |shape| && r[d] == s
    ensures forall e :: 0 <= e < |shape| && e != d ==> r[e] == Slice(0, shape[e])
  {
    seq(|shape|, e requires 0 <= e < |shape| => if e == d then s else Slice(0, shape[e]))
  }

  /**
   * The plane `p` of axis `d` overwritten with a copy of plane `q`: cell `i`
   * with `i[d] == p` takes the value of the cell at the same place in plane `q`.
   */
  function CopyPlane(m: map<Index, real>, shape: Shape, d: nat, p: nat, q: nat): (r: map<Index, real>)
    requires Shaped(m, shape) && d < |shape| && p < shape[d] && q < shape[d]
    ensures Shaped(r, shape)
  {
    assert forall i :: i in m ==> i[d := q] in m by {
      forall i | i in m ensures i[d := q] in m {
        UpdateInBounds(shape, i, d, q);
      }
    }
    map i | i in m :: if i[d] == p then m[i[d := q]] else m[i]
  }

  /** A one-cell slice on axis `d` selects the plane `p`, and the region starts at `p` on that axis. */
  lemma PlaneRegion(shape: Shape, d: nat, p: nat, i: Index)
    requires d < |shape| && p < shape[d] && InBounds(shape, i)
    ensures InRegion(AxisSlices(shape, d, Slice(p, p + 1)), shape, i) <==> i[d] == p
    ensures Minus(i, Starts(AxisSlices(shape, d, Slice(p, p + 1)), shape)) == i[d := i[d] - p]
  {
    var s := AxisSlices(shape, d, Slice(p, p + 1));
    assert Range(s[d], shape[d]) == (p, p + 1);
    forall e | 0 <= e < |shape| && e != d ensures Range(s[e], shape[e]) == (0, shape[e]) {
    }
  }

  lemma PlanePlus(shape: Shape, d: nat, q: nat, j: Index)
    requires d < |shape| && q < shape[d]
    requires InBounds(SliceShape(AxisSlices(shape, d, Slice(q, q + 1)), shape), j)
    ensures j[d] == 0 && Plus(j, Starts(AxisSlices(shape, d, Slice(q, q + 1)), shape)) == j[d := q]
  {
    var s := AxisSlices(shape, d, Slice(q, q + 1));
    assert Range(s[d], shape[d]) == (q, q + 1);
    forall e | 0 <= e < |shape| && e != d ensures Range(s[e], shape[e]) == (0, shape[e]) {
    }
  }

  /** The view of plane `q` holds, at `j` (with `j[d] == 0`), the cell `j` moved to plane `q`. */
  lemma PlaneView(m: map<Index, real>, shape: Shape, d: nat, q: nat, j: Index)
    requires Shaped(m, shape) && d < |shape| && q < shape[d]
    requires j in SliceCells(m, shape, AxisSlices(shape, d, Slice(q, q + 1)))
    ensures j[d] == 0 && j[d := q] in m
    ensures SliceCells(m, shape, AxisSlices(shape, d, Slice(q, q + 1)))[j] == m[j[d := q]]
  {
    PlanePlus(shape, d, q, j);
  }

  lemma PlaneShape(shape: Shape, d: nat, p: nat)
    requires d < |shape| && p < shape[d]
    ensures SliceShape(AxisSlices(shape, d, Slice(p, p + 1)), shape) == shape[d := 1]
  {
    var s := AxisSlices(shape, d, Slice(p, p + 1));
    assert Range(s[d], shape[d]) == (p, p + 1);
  }

  lemma SliceCopyAt(m: map<Index, real>, shape: Shape, d: nat, p: nat, q: nat, i: Index)
    requires Shaped(m, shape) && d < |shape| && p < shape[d] && q < shape[d] && i in m
    requires SliceShape(AxisSlices(shape, d, Slice(p, p + 1)), shape) == SliceShape(AxisSlices(shape, d, Slice(q, q + 1)), shape)
    ensures AssignSlice(m, shape, AxisSlices(shape, d, Slice(p, p + 1)),
              SliceCells(m, shape, AxisSlices(shape, d, Slice(q, q + 1))))[i] == CopyPlane(m, shape, d, p, q)[i]
  {
    var dst := AxisSlices(shape, d, Slice(p, p + 1));
    var view := SliceCells(m, shape, AxisSlices(shape, d, Slice(q, q + 1)));
    PlaneRegion(shape, d, p, i);
    if i[d] == p {
      var j := Minus(i, Starts(dst, shape));
      assert j in view;
      PlaneView(m, shape, d, q, j);
      assert j[d := q] == i[d := q];
    }
  }

  /**
   * The numpy statement `arr[dst] = arr[src]` of `edge_condition`, with
   * one-cell slices on axis `d` and whole slices elsewhere, is the plane copy.
   */
  lemma SliceCopyIsPlaneCopy(m: map<Index, real>, shape: Shape, d: nat, p: nat, q: nat)
    requires Shaped(m, shape) && d < |shape| && p < shape[d] && q < shape[d]
    ensures SliceShape(AxisSlices(shape, d, Slice(p, p + 1)), shape) == SliceShape(AxisSlices(shape, d, Slice(q, q + 1)), shape)
    ensures AssignSlice(m, shape, AxisSlices(shape, d, Slice(p, p + 1)),
              SliceCells(m, shape, AxisSlices(shape, d, Slice(q, q + 1)))) == CopyPlane(m, shape, d, p, q)
  {
    PlaneShape(shape, d, p);
    PlaneShape(shape, d, q);
    var a := AssignSlice(m, shape, AxisSlices(shape, d, Slice(p, p + 1)),
               SliceCells(m, shape, AxisSlices(shape, d, Slice(q, q + 1))));
    var c := CopyPlane(m, shape, d, p, q);
    SameKeys(a, m, shape);
    assert c.Keys == m.Keys;
    forall i | i in m ensures a[i] == c[i] {
      SliceCopyAt(m, shape, d, p, q, i);
    }
  }

  /**
   * `arr[dst] = arr[src]` where `dst` and `src` are the one-cell slices
   * `slice(p, p + 1)` and `slice(q, q + 1)` on axis `d` and whole slices
   * elsewhere: plane `p` becomes a copy of plane `q`.
   */
  function SliceCopy(m: map<Index, real>, shape: Shape, d: nat, p: nat, q: nat): (r: map<Index, real>)
    requires Shaped(m, shape) && d < |shape| && p < shape[d] && q < shape[d]
    ensures r == CopyPlane(m, shape, d, p, q)
  {
    SliceCopyIsPlaneCopy(m, shape, d, p, q);
    AssignSlice(m, shape, AxisSlices(shape, d, Slice(p, p + 1)),
      SliceCells(m, shape, AxisSlices(shape, d, Slice(q, q + 1))))
  }

  // ---------------------------------------------------------------------
  // edge_condition

  /** The plane each halo plane of axis `d` copies: `(source of plane 0, source of plane n - 1)`. */
  function HaloSources(n: nat, periodic: bool): (r: (nat, nat))
    requires n >= 2
    ensures r.0 < n && r.1 < n
  {
    if periodic then (n - 2, 1) else (1, n - 2)
  }

  /** One axis of `edge_condition`: plane 0 is written first, then plane `n - 1`. */
  function AxisHalo(m: map<Index, real>, shape: Shape, d: nat, periodic: bool): (r: map<Index, real>)
    requires Shaped(m, shape) && d < |shape| && shape[d] >= 2
    ensures Shaped(r, shape)
  {
    var n := shape[d];
    var src := HaloSources(n, periodic);
    CopyPlane(CopyPlane(m, shape, d, 0, src.0), shape, d, n - 1, src.1)
  }

  /** The array after `edge_condition` has processed axes `0 .. k - 1`. */
  function HaloUpTo(m: map<Index, real>, shape: Shape, periodic: seq<bool>, k: nat): (r: map<Index, real>)
    requires Shaped(m, shape) && Haloed(shape) && |periodic| == |shape| && k <= |shape|
    ensures Shaped(r, shape)
  {
    if k == 0 then m else AxisHalo(HaloUpTo(m, shape, periodic, k - 1), shape, k - 1, periodic[k - 1])
  }

  /** The cells after `edge_condition(arr, *periodic)` when the flag count matches the rank. */
  function EdgeConditionOf(m: map<Index, real>, shape: Shape, periodic: seq<bool>): (r: map<Index, real>)
    requires Shaped(m, shape) && Haloed(shape) && |periodic| == |shape|
    ensures Shaped(r, shape)
  {
    HaloUpTo(m, shape, periodic, |shape|)
  }

  /** Plane `p` of axis `d` equals plane `q` cell by cell. */
  ghost predicate PlaneEquals(m: map<Index, real>, shape: Shape, d: nat, p: nat, q: nat)
    requires d < |shape|
  {
    forall i :: i in m && |i| == |shape| && i[d] == p ==> i[d := q] in m && m[i] == m[i[d := q]]
  }

  /**
   * The relation `edge_condition` establishes on axis `d`: each halo plane
   * equals the plane it copies (periodic: 0 = n-2 and n-1 = 1; fixed:
   * 0 = 1 and n-1 = n-2).
   */
  ghost predicate HaloHolds(m: map<Index, real>, shape: Shape, d: nat, periodic: bool)
    requires d < |shape| && shape[d] >= 2
  {
    var src := HaloSources(shape[d], periodic);
    PlaneEquals(m, shape, d, 0, src.0) && PlaneEquals(m, shape, d, shape[d] - 1, src.1)
  }

  /** Processing axis `d` establishes that axis's halo relation. */
  lemma AxisHaloEstablishes(m: map<Index, real>, shape: Shape, d: nat, periodic: bool)
    requires Shaped(m, shape) && d < |shape| && shape[d] >= 2
    ensures HaloHolds(AxisHalo(m, shape, d, periodic), shape, d, periodic)
  {
    var n := shape[d];
    var src := HaloSources(n, periodic);
    var m1 := CopyPlane(m, shape, d, 0, src.0);
    var r := CopyPlane(m1, shape, d, n - 1, src.1);
    forall i | i in r && |i| == |shape| && i[d] == 0 ensures i[d := src.0] in r && r[i] == r[i[d := src.0]] {
      var j := i[d := src.0];
      UpdateInBounds(shape, i, d, src.0);
      assert r[i] == m[j];
      if src.0 == n - 1 {
        // a fixed axis of length 2: plane 1 is rewritten from plane 0, which already holds plane 1
        assert j[d := src.1] == i;
      } else if src.0 == 0 {
        assert j == i;
      } else {
        assert j[d := src.0] == j;
      }
    }
    forall i | i in r && |i| == |shape| && i[d] == n - 1 ensures i[d := src.1] in r && r[i] == r[i[d := src.1]] {
      UpdateInBounds(shape, i, d, src.1);
      assert i[d := src.1][d := src.1] == i[d := src.1];
    }
  }

  /** A plane copy on axis `d` keeps any equality between two planes of another axis `e`. */
  lemma CopyPlaneKeepsPlanes(m: map<Index, real>, shape: Shape, d: nat, p: nat, q: nat, e: nat, a: nat, b: nat)
    requires Shaped(m, shape) && d < |shape| && p < shape[d] && q < shape[d]
    requires e < |shape| && e != d && b < shape[e] && PlaneEquals(m, shape, e, a, b)
    ensures PlaneEquals(CopyPlane(m, shape, d, p, q), shape, e, a, b)
  {
    var r := CopyPlane(m, shape, d, p, q);
    forall i | i in r && |i| == |shape| && i[e] == a ensures i[e := b] in r && r[i] == r[i[e := b]] {
      UpdateInBounds(shape, i, e, b);
      if i[d] == p {
        assert i[e := b][d := q] == i[d := q][e := b];
        UpdateInBounds(shape, i, d, q);
      }
    }
  }

  /** Processing axis `d` keeps the halo relation of every other axis. */
  lemma AxisHaloKeepsHalo(m: map<Index, real>, shape: Shape, d: nat, periodic: bool, e: nat, pe: bool)
    requires Shaped(m, shape) && d < |shape| && shape[d] >= 2
    requires e < |shape| && e != d && shape[e] >= 2 && HaloHolds(m, shape, e, pe)
    ensures HaloHolds(AxisHalo(m, shape, d, periodic), shape, e, pe)
  {
    var n := shape[d];
    var src := HaloSources(n, periodic);
    var se := HaloSources(shape[e], pe);
    var m1 := CopyPlane(m, shape, d, 0, src.0);
    CopyPlaneKeepsPlanes(m, shape, d, 0, src.0, e, 0, se.0);
    CopyPlaneKeepsPlanes(m, shape, d, 0, src.0, e, shape[e] - 1, se.1);
    CopyPlaneKeepsPlanes(m1, shape, d, n - 1, src.1, e, 0, se.0);
    CopyPlaneKeepsPlanes(m1, shape, d, n - 1, src.1, e, shape[e] - 1, se.1);
  }

  /** After axes `0 .. k - 1` are processed, each of their halo relations holds. */
  lemma {:induction false} HaloUpToHolds(m: map<Index, real>, shape: Shape, periodic: seq<bool>, k: nat, e: nat)
    requires Shaped(m, shape) && Haloed(shape) && |periodic| == |shape| && k <= |shape|
    requires e < k
    ensures HaloHolds(HaloUpTo(m, shape, periodic, k), shape, e, periodic[e])
  {
    var prev := HaloUpTo(m, shape, periodic, k - 1);
    assert HaloUpTo(m, shape, periodic, k) == AxisHalo(prev, shape, k - 1, periodic[k - 1]);
    if e == k - 1 {
      AxisHaloEstablishes(prev, shape, k - 1, periodic[k - 1]);
    } else {
      HaloUpToHolds(m, shape, periodic, k - 1, e);
      AxisHaloKeepsHalo(prev, shape, k - 1, periodic[k - 1], e, periodic[e]);
    }
  }

  /**
   * After `edge_condition` every axis's relation holds at once: the axes are
   * processed in order and a later axis's full-slice copies keep the earlier ones.
   */
  lemma EdgeConditionHalo(m: map<Index, real>, shape: Shape, periodic: seq<bool>)
    requires Shaped(m, shape) && Haloed(shape) && |periodic| == |shape|
    ensures forall e :: 0 <= e < |shape| ==> HaloHolds(EdgeConditionOf(m, shape, periodic), shape, e, periodic[e])
  {
    forall e | 0 <= e < |shape| ensures HaloHolds(EdgeConditionOf(m, shape, periodic), shape, e, periodic[e]) {
      HaloUpToHolds(m, shape, periodic, |shape|, e);
    }
  }

  /** Cells that lie on no halo keep their values through `HaloUpTo`. */
  lemma {:induction false} HaloUpToKeepsInterior(m: map<Index, real>, shape: Shape, periodic: seq<bool>, k: nat, i: Index)
    requires Shaped(m, shape) && Haloed(shape) && |periodic| == |shape| && k <= |shape|
    requires i in m && Interior(shape, i)
    ensures HaloUpTo(m, shape, periodic, k)[i] == m[i]
  {
    if k > 0 {
      HaloUpToKeepsInterior(m, shape, periodic, k - 1, i);
      assert 1 <= i[k - 1] && i[k - 1] + 1 < shape[k - 1];
    }
  }

  /** `edge_condition` writes only halo cells: every interior cell is unchanged. */
  lemma EdgeConditionKeepsInterior(m: map<Index, real>, shape: Shape, periodic: seq<bool>)
    requires Shaped(m, shape) && Haloed(shape) && |periodic| == |shape|
    ensures forall i :: i in m && Interior(shape, i) ==> EdgeConditionOf(m, shape, periodic)[i] == m[i]
  {
    forall i | i in m && Interior(shape, i) ensures EdgeConditionOf(m, shape, periodic)[i] == m[i] {
      HaloUpToKeepsInterior(m, shape, periodic, |shape|, i);
    }
  }

  lemma HaloUpToNext(m: map<Index, real>, shape: Shape, periodic: seq<bool>, k: nat)
    requires Shaped(m, shape) && Haloed(shape) && |periodic| == |shape| && k < |shape|
    ensures HaloUpTo(m, shape, periodic, k + 1) == AxisHalo(HaloUpTo(m, shape, periodic, k), shape, k, periodic[k])
  {
  }

  /** The body of `edge_condition`'s loop for axis `dim`: the two halo-plane copies. */
  method AxisCondition(arr: NdArray, dim: nat, periodic: bool)
    requires arr.Valid() && dim < |arr.shape| && arr.shape[dim] >= 2
    modifies arr
    ensures arr.Valid()
    ensures arr.cells == AxisHalo(old(arr.cells), arr.shape, dim, periodic)
  {
    var n := arr.shape[dim];
    if periodic {
      arr.cells := SliceCopy(arr.cells, arr.shape, dim, 0, n - 2);
      arr.cells := SliceCopy(arr.cells, arr.shape, dim, n - 1, 1);
    } else {
      arr.cells := SliceCopy(arr.cells, arr.shape, dim, 0, 1);
      arr.cells := SliceCopy(arr.cells, arr.shape, dim, n - 1, n - 2);
    }
  }

  /**
   * `edge_condition(arr, *periodic)`. Returns false, having written nothing,
   * when the number of flags is not the rank of `arr` (the source raises
   * `ValueError` there); otherwise applies each axis's halo copies in order.
   */
  method EdgeCondition(arr: NdArray, periodic: seq<bool>) returns (ok: bool)
    requires arr.Valid() && Haloed(arr.shape)
    modifies arr
    ensures arr.Valid()
    ensures ok <==> |periodic| == |arr.shape|
    ensures arr.cells == if ok then EdgeConditionOf(old(arr.cells), arr.shape, periodic) else old(arr.cells)
  {
    if |periodic| != |arr.shape| {
      return false;
    }
    for dim := 0 to |periodic|
      invariant arr.Valid()
      invariant arr.cells == HaloUpTo(old(arr.cells), arr.shape, periodic, dim)
    {
      HaloUpToNext(old(arr.cells), arr.shape, periodic, dim);
      AxisCondition(arr, dim, periodic[dim]);
    }
    return true;
  }

  // ---------------------------------------------------------------------
  // stencil

  /** Both neighbours along axis `d` of core cell `i` lie in the padded array. */
  lemma NeighboursInBounds(shape: Shape, i: Index, d: nat)
    requires InBounds(CoreShape(shape), i) && d < |shape|
    ensures InBounds(shape, Lift(i)[d := i[d] + 2]) && InBounds(shape, Lift(i)[d := i[d]])
  {
  }

  /**
   * `sum over axes e < k of a[i + 1 + e_e] + a[i + 1 - e_e]`: the two
   * neighbours of core cell `i` (at `i + 1` in the padded array) along each of the first `k` axes.
   */
  function NeighbourSum(m: map<Index, real>, shape: Shape, i: Index, k: nat): real
    requires Shaped(m, shape) && InBounds(CoreShape(shape), i) && k <= |shape|
  {
    if k == 0 then 0.0
    else
      NeighboursInBounds(shape, i, k - 1);
      NeighbourSum(m, shape, i, k - 1) + m[Lift(i)[k - 1 := i[k - 1] + 2]] + m[Lift(i)[k - 1 := i[k - 1]]]
  }

  /** The accumulator of `stencil` after the first `k` axes: each core cell's neighbour sum so far. */
  function PartialSums(m: map<Index, real>, shape: Shape, k: nat): (r: map<Index, real>)
    requires Shaped(m, shape) && k <= |shape|
    ensures Shaped(r, CoreShape(shape))
  {
    map i | i in Indices(CoreShape(shape)) :: NeighbourSum(m, shape, i, k)
  }

  /** Before any axis is visited, the accumulator is all zeros (`res[:] = 0`). */
  lemma PartialSumsZero(m: map<Index, real>, shape: Shape)
    requires Shaped(m, shape)
    ensures PartialSums(m, shape, 0) == Full(CoreShape(shape), 0.0)
  {
  }

  /** `1/(2*nd)` */
  function Norm(nd: nat): real
    requires nd >= 1
  {
    1.0 / (2 * nd) as real
  }

  /**
   * The result of `stencil(a)`: for core cell `i`, the mean of the `2N`
   * neighbours `a[i + 1 + e_d]` and `a[i + 1 - e_d]` over all axes `d`.
   */
  function StencilCells(m: map<Index, real>, shape: Shape): (r: map<Index, real>)
    requires Shaped(m, shape) && |shape| >= 1
    ensures Shaped(r, CoreShape(shape))
  {
    ScaleCells(PartialSums(m, shape, |shape|), Norm(|shape|))
  }

  /** The slices `pos` of `stencil`: core slices, with `slice(2, n)` on axis `d`. */
  function PosSlices(shape: Shape, d: nat): seq<Slice>
    requires d < |shape|
  {
    CoreSlices1(shape)[d := Slice(2, shape[d])]
  }

  /** The slices `neg` of `stencil`: core slices, with `slice(0, n - 2)` on axis `d`. */
  function NegSlices(shape: Shape, d: nat): seq<Slice>
    requires d < |shape|
  {
    CoreSlices1(shape)[d := Slice(0, shape[d] as int - 2)]
  }

  /** The shifted views of axis `d` have the core shape. */
  lemma ShiftedShapes(shape: Shape, d: nat)
    requires Haloed(shape) && d < |shape|
    ensures SliceShape(PosSlices(shape, d), shape) == CoreShape(shape)
    ensures SliceShape(NegSlices(shape, d), shape) == CoreShape(shape)
  {
    var cs := CoreSlices1(shape);
    var pos, neg := PosSlices(shape, d), NegSlices(shape, d);
    forall e | 0 <= e < |shape| && e != d ensures Range(pos[e], shape[e]) == (1, shape[e] - 1) && Range(neg[e], shape[e]) == (1, shape[e] - 1) {
      assert pos[e] == cs[e] && neg[e] == cs[e];
    }
    assert Range(pos[d], shape[d]) == (2, shape[d]);
    assert Range(neg[d], shape[d]) == (0, shape[d] - 2);
  }

  /** The view `array[pos]` for axis `d`. */
  function PosView(m: map<Index, real>, shape: Shape, d: nat): (r: map<Index, real>)
    requires Shaped(m, shape) && Haloed(shape) && d < |shape|
    ensures Shaped(r, CoreShape(shape))
  {
    ShiftedShapes(shape, d);
    SliceCells(m, shape, PosSlices(shape, d))
  }

  /** The view `array[neg]` for axis `d`. */
  function NegView(m: map<Index, real>, shape: Shape, d: nat): (r: map<Index, real>)
    requires Shaped(m, shape) && Haloed(shape) && d < |shape|
    ensures Shaped(r, CoreShape(shape))
  {
    ShiftedShapes(shape, d);
    SliceCells(m, shape, NegSlices(shape, d))
  }

  /** `acc + array[pos] + array[neg]`: the accumulator after the pass over axis `d`. */
  function AxisSum(acc: map<Index, real>, m: map<Index, real>, shape: Shape, d: nat): (r: map<Index, real>)
    requires Shaped(m, shape) && Haloed(shape) && d < |shape| && Shaped(acc, CoreShape(shape))
    ensures Shaped(r, CoreShape(shape))
    ensures forall i :: i in r ==> r[i] == acc[i] + PosView(m, shape, d)[i] + NegView(m, shape, d)[i]
  {
    ViewKeys(acc, m, shape, d);
    AddCells(AddCells(acc, PosView(m, shape, d)), NegView(m, shape, d))
  }

  lemma ViewKeys(acc: map<Index, real>, m: map<Index, real>, shape: Shape, d: nat)
    requires Shaped(m, shape) && Haloed(shape) && d < |shape| && Shaped(acc, CoreShape(shape))
    ensures acc.Keys == PosView(m, shape, d).Keys == NegView(m, shape, d).Keys
  {
    SameKeys(acc, PosView(m, shape, d), CoreShape(shape));
    SameKeys(acc, NegView(m, shape, d), CoreShape(shape));
  }

  /** Cell `i` of the views `array[pos]` and `array[neg]` of axis `d` is the `+1` / `-1` neighbour of core cell `i`. */
  lemma ShiftedViewsAt(m: map<Index, real>, shape: Shape, d: nat, i: Index)
    requires Shaped(m, shape) && Haloed(shape) && d < |shape| && InBounds(CoreShape(shape), i)
    ensures Lift(i)[d := i[d] + 2] in m && Lift(i)[d := i[d]] in m
    ensures PosView(m, shape, d)[i] == m[Lift(i)[d := i[d] + 2]]
    ensures NegView(m, shape, d)[i] == m[Lift(i)[d := i[d]]]
  {
    ShiftedShapes(shape, d);
    var pos, neg := PosSlices(shape, d), NegSlices(shape, d);
    assert Range(pos[d], shape[d]) == (2, shape[d]);
    assert Range(neg[d], shape[d]) == (0, shape[d] - 2);
    forall e | 0 <= e < |shape| && e != d ensures Range(pos[e], shape[e]) == (1, shape[e] - 1) && Range(neg[e], shape[e]) == (1, shape[e] - 1) {
      assert pos[e] == CoreSlices1(shape)[e] && neg[e] == CoreSlices1(shape)[e];
    }
    assert Plus(i, Starts(pos, shape)) == Lift(i)[d := i[d] + 2];
    assert Plus(i, Starts(neg, shape)) == Lift(i)[d := i[d]];
  }

  /** Adding the two shifted views of axis `k` to the sums over axes `< k` gives the sums over axes `<= k`. */
  lemma AccumulateAxis(m: map<Index, real>, shape: Shape, k: nat)
    requires Shaped(m, shape) && Haloed(shape) && k < |shape|
    ensures AxisSum(PartialSums(m, shape, k), m, shape, k) == PartialSums(m, shape, k + 1)
  {
    var lhs := AxisSum(PartialSums(m, shape, k), m, shape, k);
    var rhs := PartialSums(m, shape, k + 1);
    SameKeys(lhs, rhs, CoreShape(shape));
    forall i | i in lhs ensures lhs[i] == rhs[i] {
      AccumulateAt(m, shape, k, i);
    }
  }

  lemma AccumulateAt(m: map<Index, real>, shape: Shape, k: nat, i: Index)
    requires Shaped(m, shape) && Haloed(shape) && k < |shape| && i in AxisSum(PartialSums(m, shape, k), m, shape, k)
    ensures i in PartialSums(m, shape, k + 1)
    ensures AxisSum(PartialSums(m, shape, k), m, shape, k)[i] == PartialSums(m, shape, k + 1)[i]
  {
    assert InBounds(CoreShape(shape), i);
    ShiftedViewsAt(m, shape, k, i);
    NeighbourSumNext(m, shape, i, k);
    PartialSumAt(m, shape, k, i);
    PartialSumAt(m, shape, k + 1, i);
    AxisSumAt(PartialSums(m, shape, k), m, shape, k, i);
    AccumulateStep(m, shape, k, i);
  }

  lemma AccumulateStep(m: map<Index, real>, shape: Shape, k: nat, i: Index)
    requires Shaped(m, shape) && Haloed(shape) && k < |shape| && i in AxisSum(PartialSums(m, shape, k), m, shape, k)
    requires InBounds(CoreShape(shape), i)
    requires Lift(i)[k := i[k] + 2] in m && Lift(i)[k := i[k]] in m
    requires PosView(m, shape, k)[i] == m[Lift(i)[k := i[k] + 2]]
    requires NegView(m, shape, k)[i] == m[Lift(i)[k := i[k]]]
    requires NeighbourSum(m, shape, i, k + 1)
             == NeighbourSum(m, shape, i, k) + m[Lift(i)[k := i[k] + 2]] + m[Lift(i)[k := i[k]]]
    requires PartialSums(m, shape, k)[i] == NeighbourSum(m, shape, i, k)
    requires PartialSums(m, shape, k + 1)[i] == NeighbourSum(m, shape, i, k + 1)
    requires AxisSum(PartialSums(m, shape, k), m, shape, k)[i]
             == PartialSums(m, shape, k)[i] + PosView(m, shape, k)[i] + NegView(m, shape, k)[i]
    ensures AxisSum(PartialSums(m, shape, k), m, shape, k)[i] == PartialSums(m, shape, k + 1)[i]
  {
  }

  lemma AxisSumAt(acc: map<Index, real>, m: map<Index, real>, shape: Shape, k: nat, i: Index)
    requires Shaped(m, shape) && Haloed(shape) && k < |shape| && Shaped(acc, CoreShape(shape))
    requires i in AxisSum(acc, m, shape, k)
    ensures i in acc && i in PosView(m, shape, k) && i in NegView(m, shape, k)
    ensures AxisSum(acc, m, shape, k)[i] == acc[i] + PosView(m, shape, k)[i] + NegView(m, shape, k)[i]
  {
  }

  /**
   * One pass of `stencil`'s loop: `res += array[pos]` then `res += array[neg]`
   * for axis `dim`, taking the neighbour sums over axes `< dim` to those over axes `<= dim`.
   */
  method AddShifted(r: NdArray, m: map<Index, real>, shape: Shape, dim: nat)
    requires Shaped(m, shape) && Haloed(shape) && dim < |shape|
    requires r.shape == CoreShape(shape) && r.cells == PartialSums(m, shape, dim)
    modifies r
    ensures r.cells == PartialSums(m, shape, dim + 1)
  {
    var pv := PosView(m, shape, dim);
    var nv := NegView(m, shape, dim);
    AxisSumIsAddition(r.cells, m, shape, dim);
    AccumulateAxis(m, shape, dim);
    r.cells := AddCells(r.cells, pv);
    r.cells := AddCells(r.cells, nv);
  }

  lemma AxisSumIsAddition(acc: map<Index, real>, m: map<Index, real>, shape: Shape, d: nat)
    requires Shaped(m, shape) && Haloed(shape) && d < |shape| && Shaped(acc, CoreShape(shape))
    ensures acc.Keys == PosView(m, shape, d).Keys == NegView(m, shape, d).Keys
    ensures AxisSum(acc, m, shape, d) == AddCells(AddCells(acc, PosView(m, shape, d)), NegView(m, shape, d))
  {
    ViewKeys(acc, m, shape, d);
    var lhs, rhs := AxisSum(acc, m, shape, d), AddCells(AddCells(acc, PosView(m, shape, d)), NegView(m, shape, d));
    assert lhs.Keys == rhs.Keys;
    forall i | i in lhs ensures lhs[i] == rhs[i] {
      AxisSumAt(acc, m, shape, d, i);
    }
  }

  /** `stencil`'s output buffer: a fresh zero array, or the supplied `res` set to zero. */
  method ZeroedTarget(a: NdArray, res: NdArray?) returns (r: NdArray)
    requires a.Valid() && |a.shape| >= 1 && Haloed(a.shape)
    requires res != null ==> res.shape == CoreShape(a.shape)
    modifies res
    ensures a.cells == old(a.cells)
    ensures r.Valid() && r.shape == CoreShape(a.shape) && r != a
    ensures r.cells == Full(CoreShape(a.shape), 0.0)
    ensures res == null ==> fresh(r)
    ensures res != null ==> r == res
  {
    if res == null {
      r := new NdArray.Zeros(CoreShape(a.shape));
    } else {
      assert res.shape[0] != a.shape[0];
      r := res;
      r.cells := Full(r.shape, 0.0);
    }
  }

  /** `stencil`'s loop over the axes: afterwards `res` holds every core cell's neighbour sum. */
  method AddAllShifted(r: NdArray, m: map<Index, real>, shape: Shape)
    requires Shaped(m, shape) && Haloed(shape)
    requires r.shape == CoreShape(shape) && r.cells == Full(CoreShape(shape), 0.0)
    modifies r
    ensures r.cells == PartialSums(m, shape, |shape|)
  {
    PartialSumsZero(m, shape);
    for dim := 0 to |shape|
      invariant r.cells == PartialSums(m, shape, dim)
    {
      AddShifted(r, m, shape, dim);
    }
  }

  /**
   * `stencil(array, res)`: the Jacobi average of the `2N` one-cell shifted
   * views of `array`, written into a new array or into the supplied `res`
   * (zeroed first). The input is only read.
   */
  method Stencil(a: NdArray, res: NdArray?) returns (r: NdArray)
    requires a.Valid() && |a.shape| >= 1 && Haloed(a.shape)
    requires res != null ==> res.shape == CoreShape(a.shape)
    modifies res
    ensures a.cells == old(a.cells)
    ensures r.Valid() && r.shape == CoreShape(a.shape)
    ensures r.cells == StencilCells(a.cells, a.shape)
    ensures res == null ==> fresh(r)
    ensures res != null ==> r == res
  {
    var nd := |a.shape|;
    var norm := 1.0 / (2 * nd) as real;
    r := ZeroedTarget(a, res);
    AddAllShifted(r, a.cells, a.shape);
    r.cells := ScaleCells(r.cells, norm);
  }


  /** `n * x` as `n` repeated additions, which keeps the induction below linear. */
  function Times(n: nat, x: real): real {
    if n == 0 then 0.0 else Times(n - 1, x) + x
  }

  lemma {:induction false} TimesIsProduct(n: nat, x: real)
    ensures Times(n, x) == n as real * x
  {
    if n > 0 {
      TimesIsProduct(n - 1, x);
      assert n as real * x == (n - 1) as real * x + x;
    }
  }

  /** Each neighbour sum over `k` axes adds `2k` cells, so it lies between `2k` times the array's bounds. */
  lemma {:induction false} NeighbourSumBounds(m: map<Index, real>, shape: Shape, i: Index, k: nat, lo: real, hi: real)
    requires Shaped(m, shape) && InBounds(CoreShape(shape), i) && k <= |shape|
    requires forall j :: j in m ==> lo <= m[j] <= hi
    ensures Times(2 * k, lo) <= NeighbourSum(m, shape, i, k) <= Times(2 * k, hi)
  {
    if k > 0 {
      NeighbourSumBounds(m, shape, i, k - 1, lo, hi);
      NeighbourSumNext(m, shape, i, k - 1);
      var p, q := m[Lift(i)[k - 1 := i[k - 1] + 2]], m[Lift(i)[k - 1 := i[k - 1]]];
      AddTwoBounds(NeighbourSum(m, shape, i, k - 1), p, q, k, lo, hi);
    }
  }

  lemma AddTwoBounds(s: real, p: real, q: real, k: nat, lo: real, hi: real)
    requires k >= 1 && Times(2 * (k - 1), lo) <= s <= Times(2 * (k - 1), hi)
    requires lo <= p <= hi && lo <= q <= hi
    ensures Times(2 * k, lo) <= s + p + q <= Times(2 * k, hi)
  {
    assert Times(2 * k, lo) == Times(2 * (k - 1), lo) + lo + lo;
    assert Times(2 * k, hi) == Times(2 * (k - 1), hi) + hi + hi;
  }

  lemma NeighbourSumNext(m: map<Index, real>, shape: Shape, i: Index, k: nat)
    requires Shaped(m, shape) && InBounds(CoreShape(shape), i) && k < |shape|
    ensures Lift(i)[k := i[k] + 2] in m && Lift(i)[k := i[k]] in m
    ensures NeighbourSum(m, shape, i, k + 1)
            == NeighbourSum(m, shape, i, k) + m[Lift(i)[k := i[k] + 2]] + m[Lift(i)[k := i[k]]]
  {
    NeighboursInBounds(shape, i, k);
  }

  /** The stencil never leaves the range of its input: each core value lies between the array's bounds. */
  lemma StencilBounds(m: map<Index, real>, shape: Shape, lo: real, hi: real)
    requires Shaped(m, shape) && |shape| >= 1
    requires forall j :: j in m ==> lo <= m[j] <= hi
    ensures forall i :: i in StencilCells(m, shape) ==> lo <= StencilCells(m, shape)[i] <= hi
  {
    var n := |shape|;
    var ps := PartialSums(m, shape, n);
    forall i | i in ps ensures Times(2 * n, lo) <= ps[i] <= Times(2 * n, hi) {
      PartialSumBounds(m, shape, i, lo, hi);
    }
    MeanCellsBounds(ps, n, lo, hi);
  }

  /** Scaling sums of `2n` values in `[lo, hi]` by `1/(2n)` lands in `[lo, hi]`. */
  lemma MeanCellsBounds(a: map<Index, real>, n: nat, lo: real, hi: real)
    requires n >= 1
    requires forall i :: i in a ==> Times(2 * n, lo) <= a[i] <= Times(2 * n, hi)
    ensures forall i :: i in ScaleCells(a, Norm(n)) ==> lo <= ScaleCells(a, Norm(n))[i] <= hi
  {
    forall i | i in ScaleCells(a, Norm(n)) ensures lo <= ScaleCells(a, Norm(n))[i] <= hi {
      MeanBounds(ScaleCells(a, Norm(n))[i], a[i], n, lo, hi);
    }
  }

  lemma PartialSumBounds(m: map<Index, real>, shape: Shape, i: Index, lo: real, hi: real)
    requires Shaped(m, shape) && |shape| >= 1 && i in PartialSums(m, shape, |shape|)
    requires forall j :: j in m ==> lo <= m[j] <= hi
    ensures Times(2 * |shape|, lo) <= PartialSums(m, shape, |shape|)[i] <= Times(2 * |shape|, hi)
  {
    PartialSumAt(m, shape, |shape|, i);
    NeighbourSumBounds(m, shape, i, |shape|, lo, hi);
  }

  lemma PartialSumAt(m: map<Index, real>, shape: Shape, k: nat, i: Index)
    requires Shaped(m, shape) && k <= |shape| && InBounds(CoreShape(shape), i)
    ensures i in PartialSums(m, shape, k)
    ensures PartialSums(m, shape, k)[i] == NeighbourSum(m, shape, i, k)
  {
  }

  /** A sum of `2n` values in `[lo, hi]`, divided by `2n`, is in `[lo, hi]`. */
  lemma MeanBounds(v: real, s: real, n: nat, lo: real, hi: real)
    requires n >= 1 && v == s * Norm(n) && Times(2 * n, lo) <= s <= Times(2 * n, hi)
    ensures lo <= v <= hi
  {
    TimesIsProduct(2 * n, lo);
    TimesIsProduct(2 * n, hi);
    DivideBounds(s, (2 * n) as real, lo, hi);
  }

  lemma DivideBounds(s: real, w: real, lo: real, hi: real)
    requires w > 0.0 && w * lo <= s <= w * hi
    ensures lo <= s * (1.0 / w) <= hi
  {
    assert s * (1.0 / w) == s / w;
  }

  /** A constant array is a fixed point of the stencil: every core value is that constant. */
  lemma StencilConstant(m: map<Index, real>, shape: Shape, c: real)
    requires Shaped(m, shape) && |shape| >= 1
    requires forall j :: j in m ==> m[j] == c
    ensures forall i :: i in StencilCells(m, shape) ==> StencilCells(m, shape)[i] == c
  {
    StencilBounds(m, shape, c, c);
  }
}

=== FILE: fdm_numpy.dfy ===
/**
 * The relaxation driver `solve`: pad the initial values and the boundary
 * mask, then repeat Jacobi steps (stencil, core assignment, re-imposed
 * boundary values, edge condition) epoch by epoch, checking the change over
 * the last step of every epoch against the requested precision.
 */
module FdmNumpy {
  import opened Wrappers
  import opened NdArrays
  import opened Arrays
  import opened FdmGeneric

  /** Padding gives every axis room for its two halo cells. */
  lemma PadHaloed(shape: Shape)
    ensures Haloed(PadShape(shape))
  {
  }

  // ---------------------------------------------------------------------
  // Pinned boundary values

  /** `iarr[ifixed]`: the values at the cells the mask marks, keyed by their cell. */
  function Pinned(m: map<Index, real>, mask: map<Index, bool>): (r: map<Index, real>)
    ensures forall i :: i in r <==> i in m && i in mask && mask[i]
    ensures forall i :: i in r ==> r[i] == m[i]
  {
    map i | i in m && i in mask && mask[i] :: m[i]
  }

  /** `dst[ifixed] = fixed`: the marked cells take their pinned values, every other cell keeps its own. */
  function Reimpose(m: map<Index, real>, fixed: map<Index, real>): (r: map<Index, real>)
    ensures r.Keys == m.Keys
    ensures forall i :: i in r ==> r[i] == if i in fixed then fixed[i] else m[i]
  {
    map i | i in m :: if i in fixed then fixed[i] else m[i]
  }

  /** `pad(barr, 1)` adds only unmarked cells, so every pinned cell of the padded arrays lies off the halo
      and holds the input value one cell down. */
  lemma PinnedInterior(a: map<Index, real>, mask: map<Index, bool>, shape: Shape)
    requires Shaped(a, shape) && Shaped(mask, shape)
    ensures forall k :: k in Pinned(PadCells(a, shape, 0.0), PadCells(mask, shape, false)) ==>
              Interior(PadShape(shape), k) && Lower(k) in mask && mask[Lower(k)] &&
              Pinned(PadCells(a, shape, 0.0), PadCells(mask, shape, false))[k] == a[Lower(k)]
  {
    var pm := PadCells(mask, shape, false);
    forall k | k in Pinned(PadCells(a, shape, 0.0), pm)
      ensures Interior(PadShape(shape), k) && Lower(k) in mask && mask[Lower(k)]
      ensures Pinned(PadCells(a, shape, 0.0), pm)[k] == a[Lower(k)]
    {
      assert pm[k];
      PadInterior(mask, shape, false, k);
      PadInterior(a, shape, 0.0, k);
    }
  }

  // ---------------------------------------------------------------------
  // One relaxation step

  /**
   * One pass of the inner loop of `solve` on the padded cells: the stencil
   * of the current values goes into the core, the pinned values are written
   * back, then the edge condition fills the halo.
   */
  function Step(m: map<Index, real>, shape: Shape, fixed: map<Index, real>, periodic: seq<bool>): (r: map<Index, real>)
    requires Shaped(m, shape) && Haloed(shape) && |shape| >= 1 && |periodic| == |shape|
    ensures Shaped(r, shape)
  {
    var cored := AssignSlice(m, shape, CoreSlices1(shape), StencilCells(m, shape));
    var pinned := Reimpose(cored, fixed);
    assert Shaped(pinned, shape) by { SameKeysShaped(cored, pinned, shape); }
    EdgeConditionOf(pinned, shape, periodic)
  }

  lemma SameKeysShaped<T>(a: map<Index, T>, b: map<Index, T>, shape: Shape)
    requires Shaped(a, shape) && a.Keys == b.Keys
    ensures Shaped(b, shape)
  {
    assert forall i :: i in b <==> i in a.Keys;
  }


  /** The start of the message `edge_condition` raises when the flag count is not the array's rank (the two counts are left out). */
  const DimensionMismatch := "dimension mismatch"
  /** The message numpy raises when asked for the maximum of an empty array. */
  const EmptyMaximum := "zero-size array to reduction operation maximum which has no identity"

  /** What one run of `solve` works on: the padded cells, their shape, the pinned values and the periodicity flags. */
  datatype Problem = Problem(init: map<Index, real>, shape: Shape, fixed: map<Index, real>, periodic: seq<bool>)

  ghost predicate WellPosed(p: Problem) {
    Shaped(p.init, p.shape) && Haloed(p.shape) && |p.shape| >= 1 && |p.periodic| == |p.shape|
  }

  /** The padded cells after `n` steps. */
  function Relaxed(p: Problem, n: nat): (r: map<Index, real>)
    requires WellPosed(p)
    ensures Shaped(r, p.shape)
  {
    if n == 0 then p.init else Step(Relaxed(p, n - 1), p.shape, p.fixed, p.periodic)
  }

  /** An interior cell of a padded array lies in the core region, at its own index one cell down. */
  lemma InteriorInCore(shape: Shape, k: Index)
    requires InBounds(shape, k) && Interior(shape, k)
    ensures InRegion(CoreSlices1(shape), shape, k)
    ensures Minus(k, Starts(CoreSlices1(shape), shape)) == Lower(k)
  {
    var c := CoreSlices1(shape);
    forall d | 0 <= d < |k| ensures Range(c[d], shape[d]) == (1, shape[d] - 1) {
    }
    assert Minus(k, Starts(c, shape)) == Lower(k);
  }

  /**
   * The step is a Jacobi step: an interior cell that is not pinned takes the
   * stencil of the cells BEFORE the step, and a pinned cell takes its pinned value.
   */
  lemma StepAt(m: map<Index, real>, shape: Shape, fixed: map<Index, real>, periodic: seq<bool>, k: Index)
    requires Shaped(m, shape) && Haloed(shape) && |shape| >= 1 && |periodic| == |shape|
    requires k in m && Interior(shape, k)
    ensures Lower(k) in StencilCells(m, shape)
    ensures Step(m, shape, fixed, periodic)[k] == if k in fixed then fixed[k] else StencilCells(m, shape)[Lower(k)]
  {
    var cored := AssignSlice(m, shape, CoreSlices1(shape), StencilCells(m, shape));
    var pinned := Reimpose(cored, fixed);
    SameKeysShaped(cored, pinned, shape);
    InteriorInCore(shape, k);
    EdgeConditionKeepsInterior(pinned, shape, periodic);
  }

  /** After a step the halo satisfies every axis's edge condition: the edge condition comes last. */
  lemma StepHalo(m: map<Index, real>, shape: Shape, fixed: map<Index, real>, periodic: seq<bool>)
    requires Shaped(m, shape) && Haloed(shape) && |shape| >= 1 && |periodic| == |shape|
    ensures forall e :: 0 <= e < |shape| ==> HaloHolds(Step(m, shape, fixed, periodic), shape, e, periodic[e])
  {
    var cored := AssignSlice(m, shape, CoreSlices1(shape), StencilCells(m, shape));
    var pinned := Reimpose(cored, fixed);
    SameKeysShaped(cored, pinned, shape);
    EdgeConditionHalo(pinned, shape, periodic);
  }


  /** Pinned cells off the halo hold their pinned values after any number of steps. */
  lemma {:induction false} RelaxedKeepsPinned(p: Problem, n: nat)
    requires WellPosed(p)
    requires forall k :: k in p.fixed ==> k in p.init && Interior(p.shape, k) && p.init[k] == p.fixed[k]
    ensures forall k :: k in p.fixed ==> Relaxed(p, n)[k] == p.fixed[k]
  {
    if n > 0 {
      RelaxedKeepsPinned(p, n - 1);
      var before := Relaxed(p, n - 1);
      forall k | k in p.fixed ensures Relaxed(p, n)[k] == p.fixed[k] {
        StepAt(before, p.shape, p.fixed, p.periodic, k);
      }
    }
  }

  // ---------------------------------------------------------------------
  // The epochs of `solve`

  /** `max(abs(err)) < prec` for a non-empty `err`: every change is smaller than `prec` in magnitude. */
  predicate WithinPrec(err: map<Index, real>, prec: real) {
    forall i :: i in err ==> Abs(err[i]) < prec
  }

  /**
   * What `solve` returns: the core of the padded array and the change over
   * the last step, with the number of steps taken and whether the precision
   * check ended the run early.
   */
  datatype Outcome = Outcome(arr: map<Index, real>, err: map<Index, real>, steps: nat, early: bool)

  /** `iarr[core] - prev`: the change of the core from the state `before` to the state `now`. */
  function Change(now: map<Index, real>, before: map<Index, real>, shape: Shape): (r: map<Index, real>)
    requires Shaped(now, shape) && Shaped(before, shape)
    ensures Shaped(r, CoreShape(shape))
    ensures forall i :: i in r ==> Lift(i) in now && Lift(i) in before && r[i] == now[Lift(i)] - before[Lift(i)]
  {
    var arr := Core1(now, shape);
    var prev := Core1(before, shape);
    SameKeys(arr, prev, CoreShape(shape));
    var r := SubCells(arr, prev);
    KeysOfShaped(arr, r, CoreShape(shape));
    forall i | i in r ensures Lift(i) in now && Lift(i) in before && r[i] == now[Lift(i)] - before[Lift(i)] {
      assert i in arr && i in prev && r[i] == arr[i] - prev[i];
    }
    r
  }

  /** The change of the core over step `n`. */
  function Delta(p: Problem, n: nat): (r: map<Index, real>)
    requires WellPosed(p) && n >= 1
    ensures Shaped(r, CoreShape(p.shape))
  {
    Change(Relaxed(p, n), Relaxed(p, n - 1), p.shape)
  }

  /** The step that ends the epoch `left` epochs after the one ending at step `n`. */
  function EpochStep(n: nat, left: nat, epoch: nat): (r: nat)
    ensures r >= n
    decreases left
  {
    if left == 0 then n else EpochStep(n + epoch, left - 1, epoch)
  }

  lemma {:induction false} EpochStepIsProduct(n: nat, left: nat, epoch: nat)
    ensures EpochStep(n, left, epoch) == n + left * epoch
    decreases left
  {
    if left > 0 {
      EpochStepIsProduct(n + epoch, left - 1, epoch);
      assert (n + epoch) + (left - 1) * epoch == n + left * epoch;
    }
  }

  /** The epochs end at the multiples of `epoch`. */
  lemma EpochEnds(left: nat, epoch: nat)
    ensures EpochStep(epoch, left, epoch) == (left + 1) * epoch
  {
    EpochStepIsProduct(epoch, left, epoch);
  }

  /** Where a run stops: after how many steps, and whether the precision check stopped it. */
  datatype Stop = Stop(steps: nat, early: bool)

  /** The precision check after step `n`, at the end of an epoch: `prec and maxerr < prec`. */
  predicate Converged(p: Problem, prec: real, n: nat)
    requires WellPosed(p) && 1 <= n
  {
    prec != 0.0 && WithinPrec(Delta(p, n), prec)
  }

  /** `Converged` as the test applied at the end of each epoch; it never passes before the first step. */
  function ConvergedAt(p: Problem, prec: real): nat -> bool
    requires WellPosed(p)
  {
    (n: nat) => n >= 1 && Converged(p, prec, n)
  }

  lemma ConvergedAtIs(p: Problem, prec: real, n: nat)
    requires WellPosed(p) && n >= 1
    ensures ConvergedAt(p, prec)(n) <==> prec != 0.0 && WithinPrec(Delta(p, n), prec)
  {
  }

  /**
   * Where a run stops, once the epoch ending at step `n` has been stepped
   * through with `left` epochs still to go after it: at the first epoch end
   * that passes the test `done`, or else at the last epoch's end.
   */
  function RunFrom(done: nat -> bool, epoch: nat, left: nat, n: nat): (r: Stop)
    ensures n <= r.steps <= EpochStep(n, left, epoch)
    decreases left
  {
    if done(n) then Stop(n, true)
    else if left == 0 then Stop(n, false)
    else RunFrom(done, epoch, left - 1, n + epoch)
  }

  /** A run stops at an epoch end that passes the test. */
  lemma RunFromDone(done: nat -> bool, epoch: nat, left: nat, n: nat)
    requires done(n)
    ensures RunFrom(done, epoch, left, n) == Stop(n, true)
  {
  }

  /** A run whose last epoch end fails the test stops there, not early. */
  lemma RunFromLast(done: nat -> bool, epoch: nat, n: nat)
    requires !done(n)
    ensures RunFrom(done, epoch, 0, n) == Stop(n, false)
  {
  }

  /** An epoch end that fails the test, with epochs left, passes the run on to the next epoch end. */
  lemma RunFromNext(done: nat -> bool, epoch: nat, left: nat, n: nat) returns (left': nat, n': nat)
    requires !done(n) && left > 0
    ensures left' == left - 1 && n' == n + epoch
    ensures RunFrom(done, epoch, left, n) == RunFrom(done, epoch, left', n')
  {
    left', n' := left - 1, n + epoch;
  }

  /** What `solve` relaxes: the input padded by one zero cell on every side, and the padded cells `barr` marks
      pinned to their padded values. */
  function SolveProblem(a: map<Index, real>, mask: map<Index, bool>, shape: Shape, periodic: seq<bool>): (p: Problem)
    requires Shaped(a, shape) && Shaped(mask, shape) && |shape| >= 1
    ensures p.shape == PadShape(shape) && Shaped(p.init, p.shape) && Haloed(p.shape) && |p.shape| >= 1
    ensures WellPosed(p) <==> |periodic| == |shape|
    ensures forall k :: k in p.fixed ==> k in p.init && Interior(p.shape, k) && p.init[k] == p.fixed[k]
  {
    PadHaloed(shape);
    PinnedInterior(a, mask, shape);
    var m := PadCells(a, shape, 0.0);
    Problem(m, PadShape(shape), Pinned(m, PadCells(mask, shape, false)), periodic)
  }

  /**
   * `solve(iarr, barr, periodic, prec, epoch, nepochs)` with `a` the cells
   * of `iarr` and `mask` those of `barr == True`. With no step to take it
   * returns the input and a zero error (see `SolveAsWritten` for the source's
   * behaviour there); a flag count that is not the rank fails at the first
   * edge condition, and an empty array at the first maximum.
   */
  function SolveSpec(a: map<Index, real>, mask: map<Index, bool>, shape: Shape, periodic: seq<bool>,
                     prec: real, epoch: nat, nepochs: nat): Result<Outcome>
    requires Shaped(a, shape) && Shaped(mask, shape) && |shape| >= 1
  {
    if epoch == 0 || nepochs == 0 then Ok(Outcome(a, Full(shape, 0.0), 0, false))
    else if |periodic| != |shape| then Err(ValueError(DimensionMismatch))
    else if 0 in shape then Err(ValueError(EmptyMaximum))
    else
      Ok(Run(SolveProblem(a, mask, shape, periodic), prec, epoch, nepochs))
  }

  /** Where the epochs of a run of `solve` stop. */
  function Stopping(p: Problem, prec: real, epoch: nat, nepochs: nat): Stop
    requires WellPosed(p) && epoch >= 1 && nepochs >= 1
  {
    RunFrom(ConvergedAt(p, prec), epoch, nepochs - 1, epoch)
  }

  /** The nested loops of `solve`: `nepochs` epochs of `epoch` steps, stopping at the first epoch end whose
      change passes the precision check, returning the core and its change over the last step. */
  function Run(p: Problem, prec: real, epoch: nat, nepochs: nat): Outcome
    requires WellPosed(p) && epoch >= 1 && nepochs >= 1
  {
    var stop := Stopping(p, prec, epoch, nepochs);
    Outcome(Core1(Relaxed(p, stop.steps), p.shape), Delta(p, stop.steps), stop.steps, stop.early)
  }

  /**
   * Where a whole run of `nepochs` epochs of `epoch` steps stops: at the end
   * of some epoch; early only at an epoch end that passes the test, and
   * otherwise after all `epoch * nepochs` steps, at an end that fails it; and
   * no epoch end before the stop passes the test (the end of epoch `j + 1`
   * is `EpochStep(epoch, j, epoch)`, see `EpochEnds`).
   */
  lemma RunStops(done: nat -> bool, epoch: nat, nepochs: nat)
    requires epoch >= 1 && nepochs >= 1
    ensures var s := RunFrom(done, epoch, nepochs - 1, epoch);
            && 1 <= s.steps <= epoch * nepochs
            && (exists j :: 1 <= j <= nepochs && s.steps == j * epoch)
            && (s.early ==> done(s.steps))
            && (!s.early ==> s.steps == epoch * nepochs && !done(s.steps))
            && (forall j :: 0 <= j && EpochStep(epoch, j, epoch) < s.steps ==> !done(EpochStep(epoch, j, epoch)))
  {
    var s := RunFrom(done, epoch, nepochs - 1, epoch);
    RunFromFacts(done, epoch, nepochs - 1, epoch);
    EpochsTotal(nepochs, epoch);
    var j :| 0 <= j <= nepochs - 1 && s.steps == EpochStep(epoch, j, epoch);
    EpochEnds(j, epoch);
    EpochBound(j, nepochs, epoch);
    assert 1 <= j + 1 <= nepochs && s.steps == (j + 1) * epoch;
  }

  /** The last of `nepochs` epochs ends after `epoch * nepochs` steps. */
  lemma EpochsTotal(nepochs: nat, epoch: nat)
    requires nepochs >= 1
    ensures EpochStep(epoch, nepochs - 1, epoch) == epoch * nepochs
  {
    EpochStepIsProduct(epoch, nepochs - 1, epoch);
  }

  /**
   * What the run returns: the core of the state where it stopped and that
   * core minus the core one step earlier. It stops early exactly when `prec`
   * is non-zero and every change over that step is below it.
   */
  lemma RunResult(p: Problem, prec: real, epoch: nat, nepochs: nat)
    requires WellPosed(p) && epoch >= 1 && nepochs >= 1
    ensures var o := Run(p, prec, epoch, nepochs);
            && o.steps == Stopping(p, prec, epoch, nepochs).steps
            && o.arr == Core1(Relaxed(p, o.steps), p.shape)
            && o.err == Delta(p, o.steps)
            && (o.early <==> prec != 0.0 && WithinPrec(o.err, prec))
            && forall j :: 0 <= j && EpochStep(epoch, j, epoch) < o.steps ==>
                 !(prec != 0.0 && WithinPrec(Delta(p, EpochStep(epoch, j, epoch)), prec))
  {
    var stop := Stopping(p, prec, epoch, nepochs);
    RunStops(ConvergedAt(p, prec), epoch, nepochs);
    ConvergedAtIs(p, prec, stop.steps);
    forall j | 0 <= j && EpochStep(epoch, j, epoch) < stop.steps
      ensures !(prec != 0.0 && WithinPrec(Delta(p, EpochStep(epoch, j, epoch)), prec))
    {
      ConvergedAtIs(p, prec, EpochStep(epoch, j, epoch));
    }
  }

  /** An array is empty exactly when one of its axes has length zero. */
  lemma EmptyIffZeroAxis<T>(m: map<Index, T>, shape: Shape)
    requires Shaped(m, shape)
    ensures m == map[] <==> 0 in shape
  {
    if 0 !in shape {
      var z := seq(|shape|, d => 0);
      assert InBounds(shape, z);
      assert z in m;
    } else {
      var d :| 0 <= d < |shape| && shape[d] == 0;
      assert forall i: Index :: !InBounds(shape, i);
    }
  }

  /**
   * Where the rest of a run stops: at the end of some whole number of further
   * epochs; early only at an epoch end that passes the test, and otherwise
   * after every epoch, at an end that fails it.
   */
  lemma {:induction false} RunFromFacts(done: nat -> bool, epoch: nat, left: nat, n: nat)
    ensures var r := RunFrom(done, epoch, left, n);
            && (exists j :: 0 <= j <= left && r.steps == EpochStep(n, j, epoch))
            && (r.early ==> done(r.steps))
            && (!r.early ==> r.steps == EpochStep(n, left, epoch) && !done(r.steps))
            && (forall j :: 0 <= j && EpochStep(n, j, epoch) < r.steps ==> !done(EpochStep(n, j, epoch)))
    decreases left
  {
    var r := RunFrom(done, epoch, left, n);
    if done(n) || left == 0 {
      assert r.steps == EpochStep(n, 0, epoch);
    } else {
      RunFromFacts(done, epoch, left - 1, n + epoch);
      var j :| 0 <= j <= left - 1 && r.steps == EpochStep(n + epoch, j, epoch);
      assert r.steps == EpochStep(n, j + 1, epoch);
      forall j | 0 <= j && EpochStep(n, j, epoch) < r.steps ensures !done(EpochStep(n, j, epoch)) {
        if j > 0 {
          assert EpochStep(n, j, epoch) == EpochStep(n + epoch, j - 1, epoch);
        }
      }
    }
  }

  /** `solve` fails exactly when it has steps to take and either the flag count is not the rank or the array is empty. */
  lemma SolveErrors(a: map<Index, real>, mask: map<Index, bool>, shape: Shape, periodic: seq<bool>,
                    prec: real, epoch: nat, nepochs: nat)
    requires Shaped(a, shape) && Shaped(mask, shape) && |shape| >= 1
    ensures SolveSpec(a, mask, shape, periodic, prec, epoch, nepochs).Err? <==>
              epoch > 0 && nepochs > 0 && (|periodic| != |shape| || a == map[])
  {
    EmptyIffZeroAxis(a, shape);
  }

  lemma EpochBound(j: nat, nepochs: nat, epoch: nat)
    requires j < nepochs
    ensures (j + 1) * epoch <= epoch * nepochs
  {
  }

  /** Both returned arrays have the input's shape. */
  lemma SolveShapes(a: map<Index, real>, mask: map<Index, bool>, shape: Shape, periodic: seq<bool>,
                    prec: real, epoch: nat, nepochs: nat)
    requires Shaped(a, shape) && Shaped(mask, shape) && |shape| >= 1
    requires SolveSpec(a, mask, shape, periodic, prec, epoch, nepochs).Ok?
    ensures Shaped(SolveSpec(a, mask, shape, periodic, prec, epoch, nepochs).value.arr, shape)
    ensures Shaped(SolveSpec(a, mask, shape, periodic, prec, epoch, nepochs).value.err, shape)
  {
    CoreOfPad(shape);
  }

  /** The cells `barr` marks are pinned, in the padded arrays, to their input values. */
  lemma PinnedAt(a: map<Index, real>, mask: map<Index, bool>, shape: Shape, j: Index)
    requires Shaped(a, shape) && Shaped(mask, shape) && j in mask && mask[j]
    ensures Lift(j) in Pinned(PadCells(a, shape, 0.0), PadCells(mask, shape, false))
    ensures Pinned(PadCells(a, shape, 0.0), PadCells(mask, shape, false))[Lift(j)] == a[j]
  {
  }

  /** A pinned cell of the core comes back from the run holding its pinned value. */
  lemma RunKeepsPinned(p: Problem, prec: real, epoch: nat, nepochs: nat)
    requires WellPosed(p) && epoch >= 1 && nepochs >= 1
    requires forall k :: k in p.fixed ==> k in p.init && Interior(p.shape, k) && p.init[k] == p.fixed[k]
    ensures var o := Run(p, prec, epoch, nepochs);
            forall i :: i in o.arr && Lift(i) in p.fixed ==> o.arr[i] == p.fixed[Lift(i)]
  {
    var stop := Stopping(p, prec, epoch, nepochs);
    RelaxedKeepsPinned(p, stop.steps);
  }

  /** Every cell `barr` marks comes back holding its input value, however many steps were taken. */
  lemma SolveKeepsPinned(a: map<Index, real>, mask: map<Index, bool>, shape: Shape, periodic: seq<bool>,
                         prec: real, epoch: nat, nepochs: nat)
    requires Shaped(a, shape) && Shaped(mask, shape) && |shape| >= 1
    requires SolveSpec(a, mask, shape, periodic, prec, epoch, nepochs).Ok?
    ensures var o := SolveSpec(a, mask, shape, periodic, prec, epoch, nepochs).value;
            forall j :: j in mask && mask[j] ==> j in o.arr && o.arr[j] == a[j]
  {
    if epoch > 0 && nepochs > 0 {
      SolveIsRun(a, mask, shape, periodic, prec, epoch, nepochs);
      var p := SolveProblem(a, mask, shape, periodic);
      RunKeepsPinned(p, prec, epoch, nepochs);
      CoreOfPad(shape);
      var o := Run(p, prec, epoch, nepochs);
      forall j | j in mask && mask[j] ensures j in o.arr && o.arr[j] == a[j] {
        PinnedAt(a, mask, shape, j);
      }
    }
  }

  /** With steps to take, a successful `solve` is the run of the padded problem. */
  lemma SolveIsRun(a: map<Index, real>, mask: map<Index, bool>, shape: Shape, periodic: seq<bool>,
                   prec: real, epoch: nat, nepochs: nat)
    requires Shaped(a, shape) && Shaped(mask, shape) && |shape| >= 1
    requires epoch > 0 && nepochs > 0 && SolveSpec(a, mask, shape, periodic, prec, epoch, nepochs).Ok?
    ensures |periodic| == |shape|
    ensures SolveSpec(a, mask, shape, periodic, prec, epoch, nepochs).value == Run(SolveProblem(a, mask, shape, periodic), prec, epoch, nepochs)
  {
    SolveSpecCases(a, mask, shape, periodic, prec, epoch, nepochs);
    var p := SolveProblem(a, mask, shape, periodic);
    assert WellPosed(p) && 0 !in shape;
  }

  /** The source as written: with no step to take (`epoch == 0` or `nepochs == 0`) the final message reads
      `maxerr`, which was never assigned, so the call raises instead of returning. */
  function SolveAsWritten(a: map<Index, real>, mask: map<Index, bool>, shape: Shape, periodic: seq<bool>,
                          prec: real, epoch: nat, nepochs: nat): (r: Result<Outcome>)
    requires Shaped(a, shape) && Shaped(mask, shape) && |shape| >= 1
    ensures epoch > 0 && nepochs > 0 ==> r == SolveSpec(a, mask, shape, periodic, prec, epoch, nepochs)
  {
    if epoch == 0 || nepochs == 0 then Err(NameError("maxerr"))
    else SolveSpec(a, mask, shape, periodic, prec, epoch, nepochs)
  }

  /** With no step to take, the source as written fails, where the corrected `solve` returns the input unchanged and a zero error. */
  lemma ZeroBudget(a: map<Index, real>, mask: map<Index, bool>, shape: Shape, periodic: seq<bool>, prec: real, epoch: nat, nepochs: nat)
    requires Shaped(a, shape) && Shaped(mask, shape) && |shape| >= 1
    requires epoch == 0 || nepochs == 0
    ensures SolveAsWritten(a, mask, shape, periodic, prec, epoch, nepochs) == Err(NameError("maxerr"))
    ensures SolveSpec(a, mask, shape, periodic, prec, epoch, nepochs).Ok?
    ensures var o := SolveSpec(a, mask, shape, periodic, prec, epoch, nepochs).value;
            o.arr == a && o.steps == 0 && forall i :: i in o.err <==> i in a
    ensures var o := SolveSpec(a, mask, shape, periodic, prec, epoch, nepochs).value;
            forall i :: i in o.err ==> o.err[i] == 0.0
  {
  }

  // ---------------------------------------------------------------------
  // The solver on arrays updated in place

  /** `set_core1(dst, src, core)`: `dst[core] = src`. */
  method SetCore1(dst: NdArray, src: NdArray, core: seq<Slice>)
    requires dst.Valid() && |core| == |dst.shape| && src.Valid() && src.shape == SliceShape(core, dst.shape)
    modifies dst
    ensures dst.Valid()
    ensures dst.cells == AssignSlice(old(dst.cells), dst.shape, core, old(src.cells))
  {
    dst.cells := AssignSlice(dst.cells, dst.shape, core, src.cells);
  }

  /** `set_core2(dst, fixed, ifixed)`: `dst[ifixed] = fixed`, with the boolean mask `ifixed` and the values it
      selected earlier, so each marked cell gets back the value it held then. */
  method SetCore2(dst: NdArray, fixed: map<Index, real>)
    requires dst.Valid()
    modifies dst
    ensures dst.Valid()
    ensures dst.cells == Reimpose(old(dst.cells), fixed)
  {
    dst.cells := Reimpose(dst.cells, fixed);
    SameKeysShaped(old(dst.cells), dst.cells, dst.shape);
  }

  /** The body of the inner loop of `solve`: stencil, core assignment, pinned values, edge condition. It fails,
      leaving the halo unset, when the flag count is not the rank. */
  method Relax(a: NdArray, fixed: map<Index, real>, core: seq<Slice>, periodic: seq<bool>) returns (ok: bool)
    requires a.Valid() && |a.shape| >= 1 && Haloed(a.shape) && core == CoreSlices1(a.shape)
    modifies a
    ensures a.Valid()
    ensures ok <==> |periodic| == |a.shape|
    ensures ok ==> a.cells == Step(old(a.cells), a.shape, fixed, periodic)
  {
    var tmp := Stencil(a, null);
    SetCore1(a, tmp, core);
    SetCore2(a, fixed);
    ok := EdgeCondition(a, periodic);
  }

  /** The state after step `k + 1` is the state after step `k`, stepped once. */
  lemma RelaxedSucc(p: Problem, k: nat)
    requires WellPosed(p)
    ensures Relaxed(p, k + 1) == Step(Relaxed(p, k), p.shape, p.fixed, p.periodic)
  {
  }

  /** `RelaxedSucc` with the later step count named `n`. */
  lemma RelaxedNext(p: Problem, k: nat, n: nat)
    requires WellPosed(p) && n == k + 1
    ensures Relaxed(p, n) == Step(Relaxed(p, k), p.shape, p.fixed, p.periodic)
  {
    RelaxedSucc(p, k);
  }

  /** The change over step `k + 1` is the change from the state after step `k`. */
  lemma DeltaSucc(p: Problem, k: nat)
    requires WellPosed(p)
    ensures Delta(p, k + 1) == Change(Relaxed(p, k + 1), Relaxed(p, k), p.shape)
  {
  }

  /** `DeltaSucc` with the later step count named `n`. */
  lemma DeltaNext(p: Problem, k: nat, n: nat)
    requires WellPosed(p) && n == k + 1
    ensures Delta(p, n) == Change(Relaxed(p, n), Relaxed(p, k), p.shape)
  {
    DeltaSucc(p, k);
  }

  /** `max(abs(err))` is `mx`. */
  ghost predicate IsMaxAbs(err: map<Index, real>, mx: real) {
    (exists i :: i in err && Abs(err[i]) == mx) && forall i :: i in err ==> Abs(err[i]) <= mx
  }

  /** The precision test on the maximum, `maxerr < prec`, is the test on every change. */
  lemma MaxBelow(err: map<Index, real>, mx: real, prec: real)
    requires IsMaxAbs(err, mx)
    ensures mx < prec <==> WithinPrec(err, prec)
  {
    var i :| i in err && Abs(err[i]) == mx;
  }

  /**
   * The end of an epoch: `err = iarr[core] - prev`, the change of the core
   * over step `n`, then the precision check `prec and maxerr < prec`, which
   * fails on an empty change.
   */
  method CheckEpoch(a: NdArray, prev: map<Index, real>, err: NdArray, prec: real, ghost p: Problem, ghost j: nat, ghost n: nat)
    returns (status: Result<bool>, errOut: NdArray)
    requires WellPosed(p) && a.Valid() && a.shape == p.shape && err.Valid() && err.shape == CoreShape(a.shape)
    requires n == j + 1 && a.cells == Relaxed(p, n) && prev == Core1(Relaxed(p, j), p.shape)
    ensures fresh(errOut) && errOut.Valid() && errOut.shape == err.shape
    ensures errOut.cells == Delta(p, n)
    ensures status == if errOut.cells == map[] then Err(ValueError(EmptyMaximum))
                      else Ok(ConvergedAt(p, prec)(n))
  {
    DeltaNext(p, j, n);
    ConvergedAtIs(p, prec, n);
    var now := Core1(a.cells, a.shape);
    SameKeys(now, prev, CoreShape(a.shape));
    var change := SubCells(now, prev);
    assert change == Delta(p, n);
    errOut := new NdArray.FromCells(err.shape, change);
    if errOut.cells == map[] {
      status := Err(ValueError(EmptyMaximum));
    } else {
      status := Ok(prec != 0.0 && WithinPrec(errOut.cells, prec));
    }
  }

  /**
   * One epoch of `solve`, the inner loop: `epoch` relaxation steps from the
   * state after step `start` to the state after step `end`, with the core
   * saved before the last one. After the last step `status` tells whether the
   * precision check passed (the caller then returns), and `errOut` holds the
   * change over that step; the step fails on a flag count that is not the
   * rank, and the maximum fails on an empty change.
   */
  method Epoch(a: NdArray, err: NdArray, fixed: map<Index, real>, core: seq<Slice>, periodic: seq<bool>,
               prec: real, epoch: nat, ghost p: Problem, ghost start: nat, ghost end: nat)
    returns (status: Result<bool>, errOut: NdArray)
    requires a.Valid() && err.Valid() && a != err && err.shape == CoreShape(a.shape)
    requires Shaped(p.init, p.shape) && Haloed(p.shape) && |p.shape| >= 1
    requires a.shape == p.shape && p.fixed == fixed && p.periodic == periodic && core == CoreSlices1(a.shape)
    requires end == start + epoch
    requires WellPosed(p) ==> a.cells == Relaxed(p, start)
    modifies a
    ensures a.Valid() && errOut.Valid() && errOut.shape == err.shape && (errOut == err || fresh(errOut))
    ensures epoch == 0 ==> status == Ok(false) && errOut == err && a.cells == old(a.cells)
    ensures epoch > 0 && !WellPosed(p) ==> status == Err(ValueError(DimensionMismatch))
    ensures epoch > 0 && WellPosed(p) ==>
              && a.cells == Relaxed(p, end)
              && errOut.cells == Delta(p, end)
              && status == if errOut.cells == map[] then Err(ValueError(EmptyMaximum))
                           else Ok(ConvergedAt(p, prec)(end))
  {
    errOut := err;
    status := Ok(false);
    ghost var k := start;
    var prev: map<Index, real> := map[];
    var istep := 0;
    while istep < epoch
      invariant 0 <= istep <= epoch && k == start + istep && (epoch == 0 || istep < epoch)
      invariant a.Valid() && a.shape == p.shape && errOut == err && status == Ok(false)
      invariant WellPosed(p) ==> a.cells == Relaxed(p, k)
      invariant epoch == 0 ==> a.cells == old(a.cells)
    {
      if epoch - istep == 1 {
        prev := Core1(a.cells, a.shape);
      }
      var ok := Relax(a, fixed, core, periodic);
      if !ok {
        status := Err(ValueError(DimensionMismatch));
        return;
      }
      ghost var next := k + 1;
      RelaxedNext(p, k, next);
      if epoch - istep == 1 {
        assert next == end;
        status, errOut := CheckEpoch(a, prev, err, prec, p, k, next);
        return;
      }
      k := next;
      istep := istep + 1;
    }
  }

  /** `SolveSpec` case by case, in terms of the padded problem: what `Solve` establishes on each of its paths. */
  lemma SolveSpecCases(a: map<Index, real>, mask: map<Index, bool>, shape: Shape, periodic: seq<bool>,
                       prec: real, epoch: nat, nepochs: nat)
    requires Shaped(a, shape) && Shaped(mask, shape) && |shape| >= 1
    ensures var p := SolveProblem(a, mask, shape, periodic);
            var spec := SolveSpec(a, mask, shape, periodic, prec, epoch, nepochs);
            && ((epoch == 0 || nepochs == 0) ==> spec == Ok(Outcome(Core1(p.init, p.shape), Full(shape, 0.0), 0, false)))
            && (epoch > 0 && nepochs > 0 && !WellPosed(p) ==> spec == Err(ValueError(DimensionMismatch)))
            && (epoch > 0 && nepochs > 0 && WellPosed(p) && 0 in shape ==>
                  spec == Err(ValueError(EmptyMaximum)))
            && (epoch > 0 && nepochs > 0 && WellPosed(p) && 0 !in shape ==>
                  var s := Stopping(p, prec, epoch, nepochs);
                  spec == Ok(Outcome(Core1(Relaxed(p, s.steps), p.shape), Delta(p, s.steps), s.steps, s.early)))
  {
    if epoch == 0 || nepochs == 0 {
      CorePad(a, shape, 0.0);
    }
  }

  /**
   * The epoch loop of `solve`: up to `nepochs` epochs of `epoch` steps on the
   * padded array `a`, stopping after the first epoch whose change is within
   * `prec`. On success it answers the array holding the change over the last
   * step, and `a` holds the relaxed array, both at the step count `RunFrom`
   * gives.
   */
  method Sweep(a: NdArray, err: NdArray, fixed: map<Index, real>, core: seq<Slice>, periodic: seq<bool>,
               prec: real, epoch: nat, nepochs: nat, ghost p: Problem)
    returns (res: Result<NdArray>)
    requires a.Valid() && err.Valid() && a != err && err.shape == CoreShape(a.shape)
    requires Shaped(p.init, p.shape) && Haloed(p.shape) && |p.shape| >= 1
    requires a.shape == p.shape && a.cells == p.init && p.fixed == fixed && p.periodic == periodic
    requires core == CoreSlices1(a.shape)
    modifies a
    ensures a.Valid() && (res.Ok? ==> res.value.Valid() && res.value.shape == err.shape)
    ensures (epoch == 0 || nepochs == 0) ==> res == Ok(err) && a.cells == old(a.cells)
    ensures epoch > 0 && nepochs > 0 && !WellPosed(p) ==> res == Err(ValueError(DimensionMismatch))
    ensures epoch > 0 && nepochs > 0 && WellPosed(p) && 0 in err.shape ==>
              res == Err(ValueError(EmptyMaximum))
    ensures epoch > 0 && nepochs > 0 && WellPosed(p) && 0 !in err.shape ==>
              var stop := Stopping(p, prec, epoch, nepochs);
              res.Ok? && a.cells == Relaxed(p, stop.steps) && res.value.cells == Delta(p, stop.steps)
  {
    var errOut := err;
    ghost var done := if WellPosed(p) then ConvergedAt(p, prec) else (n: nat) => false;
    ghost var stop := if nepochs >= 1 then RunFrom(done, epoch, nepochs - 1, epoch) else Stop(0, false);
    ghost var k: nat := 0;
    ghost var left: int := nepochs - 1;
    ghost var end: nat := epoch;
    var iepoch := 0;
    while iepoch < nepochs
      invariant 0 <= iepoch <= nepochs && left == nepochs - 1 - iepoch && end == k + epoch
      invariant a.Valid() && a.shape == p.shape && errOut.Valid() && errOut.shape == err.shape && a != errOut
      invariant WellPosed(p) ==> a.cells == Relaxed(p, k)
      invariant (iepoch == 0 || epoch == 0) ==> k == 0 && a.cells == old(a.cells) && errOut == err
      invariant iepoch > 0 && epoch > 0 ==> WellPosed(p) && k >= 1 && 0 !in err.shape && errOut.cells == Delta(p, k)
      invariant epoch > 0 && iepoch < nepochs ==> stop == RunFrom(done, epoch, left, end)
      invariant epoch > 0 && iepoch == nepochs ==> stop == Stop(k, false)
    {
      var status, e := Epoch(a, errOut, fixed, core, periodic, prec, epoch, p, k, end);
      if status.Err? {
        if WellPosed(p) {
          EmptyIffZeroAxis(e.cells, err.shape);
        }
        return Err(status.error);
      }
      errOut := e;
      if epoch > 0 {
        EmptyIffZeroAxis(e.cells, err.shape);
        assert status == Ok(done(end));
      }
      k := end;
      if status.value {
        if epoch > 0 {
          RunFromDone(done, epoch, left, end);
        }
        return Ok(errOut);
      }
      if epoch > 0 && left > 0 {
        left, end := RunFromNext(done, epoch, left, end);
      } else {
        if epoch > 0 {
          RunFromLast(done, epoch, end);
        }
        left, end := left - 1, end + epoch;
      }
      iepoch := iepoch + 1;
    }
    return Ok(errOut);
  }

  /**
   * The set-up of `solve`: the zero error array, the padded array, the
   * pinned values read off the padded mask and the core slices; together
   * they are the padded problem `SolveProblem` describes.
   */
  method Prepare(iarr: NdArray, barr: map<Index, bool>, periodic: seq<bool>)
    returns (err: NdArray, a: NdArray, fixed: map<Index, real>, core: seq<Slice>, ghost p: Problem)
    requires iarr.Valid() && Shaped(barr, iarr.shape) && |iarr.shape| >= 1
    ensures fresh(err) && fresh(a) && err.Valid() && a.Valid() && a != err
    ensures err.shape == iarr.shape && err.cells == Full(iarr.shape, 0.0)
    ensures p == SolveProblem(iarr.cells, barr, iarr.shape, periodic)
    ensures a.shape == p.shape && a.cells == p.init && p.fixed == fixed && p.periodic == periodic
    ensures core == CoreSlices1(a.shape) && err.shape == CoreShape(a.shape)
  {
    var shape := iarr.shape;
    err := new NdArray.Zeros(shape);
    var pmask := PadCells(barr, shape, false);
    a := Pad1(iarr);
    fixed := Pinned(a.cells, pmask);
    core := CoreSlices1(a.shape);
    CoreOfPad(shape);
    p := Problem(a.cells, a.shape, fixed, periodic);
  }

  /**
   * `solve(iarr, barr, periodic, prec, epoch, nepochs)`, with `barr` given as
   * the cells of `barr == True`. It returns the core of the relaxed array and
   * the change over the last step, as `SolveSpec` describes; `iarr` itself is
   * left as it was.
   */
  method Solve(iarr: NdArray, barr: map<Index, bool>, periodic: seq<bool>, prec: real, epoch: nat, nepochs: nat)
    returns (res: Result<(NdArray, NdArray)>)
    requires iarr.Valid() && Shaped(barr, iarr.shape) && |iarr.shape| >= 1
    ensures var spec := SolveSpec(iarr.cells, barr, iarr.shape, periodic, prec, epoch, nepochs);
            && (res.Ok? <==> spec.Ok?)
            && (res.Err? ==> res.error == spec.error)
            && (res.Ok? ==> res.value.0.cells == spec.value.arr && res.value.1.cells == spec.value.err)
  {
    var err, a, fixed, core, p := Prepare(iarr, barr, periodic);
    SolveSpecCases(iarr.cells, barr, iarr.shape, periodic, prec, epoch, nepochs);
    var r := Sweep(a, err, fixed, core, periodic, prec, epoch, nepochs, p);
    if r.Err? {
      return Err(r.error);
    }
    if epoch > 0 && nepochs > 0 {
      assert WellPosed(p) && 0 !in iarr.shape;
    }
    var arr := new NdArray.FromCells(iarr.shape, Core1(a.cells, a.shape));
    return Ok((arr, r.value));
  }
}

=== FILE: ndarrays.dfy ===
/**
 * Dense N-dimensional arrays of any rank, as the numpy arrays the solver works on.
 *
 * An array of shape `s` holds one value per multi-index `i` with
 * `0 <= i[d] < s[d]` on every axis `d`; its cells are a map from those
 * multi-indices to values. Slicing with step 1 follows Python's rules for
 * out-of-range and negative bounds.
 */
module NdArrays {

  type Shape = seq<nat>
  type Index = seq<int>

  predicate InBounds(shape: Shape, i: Index) {
    |i| == |shape| && forall d :: 0 <= d < |i| ==> 0 <= i[d] < shape[d]
  }

  /** The finite set of every in-bounds multi-index of `shape`, in no particular order. */
  function Indices(shape: Shape): (r: set<Index>)
    ensures forall i :: i in r <==> InBounds(shape, i)
    decreases |shape|
  {
    if shape == [] then {[]}
    else
      var rest := Indices(shape[1..]);
      var r := set k: int, t: Index | 0 <= k < shape[0] && t in rest :: [k] + t;
      assert forall i :: InBounds(shape, i) ==> i in r by {
        forall i | InBounds(shape, i) ensures i in r {
          assert InBounds(shape[1..], i[1..]);
          assert i == [i[0]] + i[1..];
        }
      }
      r
  }

  /** `m` holds exactly one value for each in-bounds multi-index of `shape`. */
  ghost predicate Shaped<T>(m: map<Index, T>, shape: Shape) {
    forall i :: i in m <==> InBounds(shape, i)
  }

  /** numpy's `zeros`/`ones`/`full`: every cell holds `v`. */
  function Full<T>(shape: Shape, v: T): (r: map<Index, T>)
    ensures Shaped(r, shape)
    ensures forall i :: i in r ==> r[i] == v
  {
    map i | i in Indices(shape) :: v
  }

  /** Two arrays of the same shape have the same multi-indices. */
  lemma SameKeys<T, U>(a: map<Index, T>, b: map<Index, U>, shape: Shape)
    requires Shaped(a, shape) && Shaped(b, shape)
    ensures a.Keys == b.Keys
  {
    assert forall i :: i in a.Keys <==> i in b.Keys;
  }

  /** A map whose keys are the indices of `shape` is an array of that shape. */
  lemma KeysShaped<T>(m: map<Index, T>, shape: Shape)
    requires m.Keys == Indices(shape)
    ensures Shaped(m, shape)
  {
    assert forall i :: i in m <==> i in Indices(shape);
  }

  /** A map with the keys of an array of `shape` is an array of `shape`. */
  lemma KeysOfShaped<T, U>(a: map<Index, T>, r: map<Index, U>, shape: Shape)
    requires Shaped(a, shape) && r.Keys == a.Keys
    ensures Shaped(r, shape)
  {
    assert forall i :: i in r <==> i in a;
  }

  /** The number of cells of `shape`, `numpy.prod(shape)`. */
  function Size(shape: Shape): nat {
    if shape == [] then 1 else shape[0] * Size(shape[1..])
  }

  /** Changing one coordinate to another in-range value keeps a multi-index in bounds. */
  lemma UpdateInBounds(shape: Shape, i: Index, d: int, v: int)
    requires InBounds(shape, i) && 0 <= d < |shape| && 0 <= v < shape[d]
    ensures InBounds(shape, i[d := v])
  {
  }

  // ---------------------------------------------------------------------
  // Python slices with step 1

  datatype Slice = Slice(start: int, stop: int)

  /** Where a slice bound lands on an axis of length `n`: negative bounds count from the end, and
      both ends are clamped to `[0, n]`. */
  function Clamp(b: int, n: nat): (r: nat)
    ensures r <= n
    ensures 0 <= b <= n ==> r == b
  {
    if b < 0 then (if b + n < 0 then 0 else b + n) else if b > n then n else b
  }

  /** The half-open range `[lo, hi)` of positions that slice `s` selects from an axis of length `n`. */
  function Range(s: Slice, n: nat): (r: (nat, nat))
    ensures r.0 <= r.1 <= n
    ensures 0 <= s.start <= s.stop <= n ==> r == (s.start, s.stop)
  {
    var lo := Clamp(s.start, n);
    var hi := Clamp(s.stop, n);
    (lo, if hi < lo then lo else hi)
  }

  /** The shape of `a[slices]`. */
  function SliceShape(slices: seq<Slice>, shape: Shape): (r: Shape)
    requires |slices| == |shape|
    ensures |r| == |shape|
    ensures forall d :: 0 <= d < |r| ==> r[d] == Range(slices[d], shape[d]).1 - Range(slices[d], shape[d]).0
  {
    seq(|shape|, d requires 0 <= d < |shape| => Range(slices[d], shape[d]).1 - Range(slices[d], shape[d]).0)
  }

  /** The multi-index at which the region `a[slices]` starts. */
  function Starts(slices: seq<Slice>, shape: Shape): (r: Index)
    requires |slices| == |shape|
    ensures |r| == |shape|
    ensures forall d :: 0 <= d < |r| ==> r[d] == Range(slices[d], shape[d]).0
  {
    seq(|shape|, d requires 0 <= d < |shape| => Range(slices[d], shape[d]).0 as int)
  }

  /** Cell `i` lies inside the region `a[slices]`. */
  predicate InRegion(slices: seq<Slice>, shape: Shape, i: Index)
    requires |slices| == |shape| == |i|
  {
    forall d :: 0 <= d < |i| ==> Range(slices[d], shape[d]).0 <= i[d] < Range(slices[d], shape[d]).1
  }

  function Plus(i: Index, o: Index): (r: Index)
    requires |i| == |o|
    ensures |r| == |i|
    ensures forall d :: 0 <= d < |i| ==> r[d] == i[d] + o[d]
  {
    seq(|i|, d requires 0 <= d < |i| => i[d] + o[d])
  }

  function Minus(i: Index, o: Index): (r: Index)
    requires |i| == |o|
    ensures |r| == |i|
    ensures forall d :: 0 <= d < |i| ==> r[d] == i[d] - o[d]
  {
    seq(|i|, d requires 0 <= d < |i| => i[d] - o[d])
  }

  /** The view `a[slices]`: its cell `j` is the cell of `a` at `j` plus the region's start. */
  function SliceCells<T>(m: map<Index, T>, shape: Shape, slices: seq<Slice>): (r: map<Index, T>)
    requires Shaped(m, shape) && |slices| == |shape|
    ensures Shaped(r, SliceShape(slices, shape))
    ensures forall j :: j in r ==>
              Plus(j, Starts(slices, shape)) in m && r[j] == m[Plus(j, Starts(slices, shape))]
  {
    var o := Starts(slices, shape);
    var vs := SliceShape(slices, shape);
    assert forall j :: InBounds(vs, j) ==> InBounds(shape, Plus(j, o)) by {
      forall j | InBounds(vs, j) ensures InBounds(shape, Plus(j, o)) {
        assert forall d :: 0 <= d < |j| ==> 0 <= Plus(j, o)[d] < shape[d];
      }
    }
    map j | j in Indices(vs) :: m[Plus(j, o)]
  }

  /** The assignment `a[slices] = src`: cells inside the region take `src`'s values, the rest keep theirs. */
  function AssignSlice<T>(m: map<Index, T>, shape: Shape, slices: seq<Slice>, src: map<Index, T>): (r: map<Index, T>)
    requires Shaped(m, shape) && |slices| == |shape| && Shaped(src, SliceShape(slices, shape))
    ensures Shaped(r, shape)
    ensures forall i :: i in r && InRegion(slices, shape, i) ==> Minus(i, Starts(slices, shape)) in src
    ensures forall i :: i in r ==>
              r[i] == if InRegion(slices, shape, i) then src[Minus(i, Starts(slices, shape))] else m[i]
  {
    var o := Starts(slices, shape);
    var vs := SliceShape(slices, shape);
    assert forall i :: i in m && InRegion(slices, shape, i) ==> InBounds(vs, Minus(i, o)) by {
      forall i | i in m && InRegion(slices, shape, i) ensures InBounds(vs, Minus(i, o)) {
        assert forall d :: 0 <= d < |i| ==> 0 <= Minus(i, o)[d] < vs[d];
      }
    }
    map i | i in m :: if InRegion(slices, shape, i) then src[Minus(i, o)] else m[i]
  }

  /** The cell `j` of a view sits inside the viewed region, at `j` plus the region's start. */
  lemma ShiftedInRegion(shape: Shape, slices: seq<Slice>, j: Index)
    requires |slices| == |shape| && InBounds(SliceShape(slices, shape), j)
    ensures InRegion(slices, shape, Plus(j, Starts(slices, shape)))
    ensures Minus(Plus(j, Starts(slices, shape)), Starts(slices, shape)) == j
  {
    var o := Starts(slices, shape);
    var k := Plus(j, o);
    forall d | 0 <= d < |k| ensures Range(slices[d], shape[d]).0 <= k[d] < Range(slices[d], shape[d]).1 {
      assert k[d] == j[d] + o[d];
    }
    assert Minus(k, o) == j;
  }

  lemma SliceOfAssignAt<T>(m: map<Index, T>, shape: Shape, slices: seq<Slice>, src: map<Index, T>, j: Index)
    requires Shaped(m, shape) && |slices| == |shape| && Shaped(src, SliceShape(slices, shape))
    requires j in src
    ensures j in SliceCells(AssignSlice(m, shape, slices, src), shape, slices)
    ensures SliceCells(AssignSlice(m, shape, slices, src), shape, slices)[j] == src[j]
  {
    ShiftedInRegion(shape, slices, j);
  }

  /** Reading back a region just assigned gives what was assigned. */
  lemma SliceOfAssign<T>(m: map<Index, T>, shape: Shape, slices: seq<Slice>, src: map<Index, T>)
    requires Shaped(m, shape) && |slices| == |shape| && Shaped(src, SliceShape(slices, shape))
    ensures SliceCells(AssignSlice(m, shape, slices, src), shape, slices) == src
  {
    var v := SliceCells(AssignSlice(m, shape, slices, src), shape, slices);
    SameKeys(v, src, SliceShape(slices, shape));
    forall j | j in src ensures v[j] == src[j] {
      SliceOfAssignAt(m, shape, slices, src, j);
    }
  }

  /** Element-wise sum of two arrays of the same shape (`a + b`). */
  function AddCells(a: map<Index, real>, b: map<Index, real>): (r: map<Index, real>)
    requires a.Keys == b.Keys
    ensures r.Keys == a.Keys
    ensures forall i :: i in r ==> r[i] == a[i] + b[i]
  {
    map i | i in a :: a[i] + b[i]
  }

  /** A sum depends only on its two summands. */
  lemma AddCongr(a: map<Index, real>, b: map<Index, real>, a2: map<Index, real>, b2: map<Index, real>)
    requires a == a2 && b == b2 && a2.Keys == b2.Keys
    ensures AddCells(a, b) == AddCells(a2, b2)
  {
  }

  /** Scaling a sum depends only on the two summands. */
  lemma ScaleAddCongr(a: map<Index, real>, b: map<Index, real>, a2: map<Index, real>, b2: map<Index, real>, k: real)
    requires a == a2 && b == b2 && a.Keys == b.Keys
    ensures ScaleCells(AddCells(a, b), k) == ScaleCells(AddCells(a2, b2), k)
  {
  }

  /** Scaling a sum of four depends only on the summands. */
  lemma ScaleAdd4Congr(a: map<Index, real>, b: map<Index, real>, c: map<Index, real>, d: map<Index, real>,
                       a2: map<Index, real>, b2: map<Index, real>, c2: map<Index, real>, d2: map<Index, real>, k: real)
    requires a == a2 && b == b2 && c == c2 && d == d2
    requires a2.Keys == b2.Keys == c2.Keys == d2.Keys
    ensures ScaleCells(AddCells(AddCells(AddCells(a, b), c), d), k)
            == ScaleCells(AddCells(AddCells(AddCells(a2, b2), c2), d2), k)
  {
  }

  /** Scaling a sum of six depends only on the summands. */
  lemma ScaleAdd6Congr(a: map<Index, real>, b: map<Index, real>, c: map<Index, real>,
                       d: map<Index, real>, e: map<Index, real>, f: map<Index, real>,
                       a2: map<Index, real>, b2: map<Index, real>, c2: map<Index, real>,
                       d2: map<Index, real>, e2: map<Index, real>, f2: map<Index, real>, k: real)
    requires a == a2 && b == b2 && c == c2 && d == d2 && e == e2 && f == f2
    requires a2.Keys == b2.Keys == c2.Keys == d2.Keys == e2.Keys == f2.Keys
    ensures ScaleCells(AddCells(AddCells(AddCells(AddCells(AddCells(a, b), c), d), e), f), k)
            == ScaleCells(AddCells(AddCells(AddCells(AddCells(AddCells(a2, b2), c2), d2), e2), f2), k)
  {
  }

  /** The last two terms of `acc + p + n` can be added in either order. */
  lemma AddSwap(acc: map<Index, real>, p: map<Index, real>, n: map<Index, real>)
    requires acc.Keys == p.Keys == n.Keys
    ensures AddCells(AddCells(acc, p), n) == AddCells(AddCells(acc, n), p)
  {
  }

  /** Adding an array to an array of zeros gives that array. */
  lemma AddToZero(z: map<Index, real>, a: map<Index, real>)
    requires z.Keys == a.Keys && forall i :: i in z ==> z[i] == 0.0
    ensures AddCells(z, a) == a
  {
  }

  /** Element-wise difference of two arrays of the same shape (`a - b`). */
  function SubCells(a: map<Index, real>, b: map<Index, real>): (r: map<Index, real>)
    requires a.Keys == b.Keys
    ensures r.Keys == a.Keys
    ensures forall i :: i in r ==> r[i] == a[i] - b[i]
  {
    map i | i in a :: a[i] - b[i]
  }

  /** Every element scaled by `k` (`a *= k`). */
  function ScaleCells(a: map<Index, real>, k: real): (r: map<Index, real>)
    ensures r.Keys == a.Keys
    ensures forall i :: i in r ==> r[i] == a[i] * k
  {
    map i | i in a :: a[i] * k
  }

  /** The magnitude of one element, as numpy's `abs` gives it element by element. */
  function Abs(x: real): real {
    if x < 0.0 then -x else x
  }

  /**
   * A numpy array of floats updated in place. Its shape never changes; `cells`
   * is reassigned by the operations that write into it.
   */
  class NdArray {
    const shape: Shape
    var cells: map<Index, real>

    ghost predicate Valid()
      reads this
    {
      Shaped(cells, shape)
    }

    /** `numpy.zeros(shape)` */
    constructor Zeros(shape: Shape)
      ensures Valid() && this.shape == shape && cells == Full(shape, 0.0)
    {
      this.shape := shape;
      cells := Full(shape, 0.0);
    }

    /** A fresh array holding the given cells (the result of `numpy.pad`, `numpy.array(x)`). */
    constructor FromCells(shape: Shape, cells: map<Index, real>)
      requires Shaped(cells, shape)
      ensures Valid() && this.shape == shape && this.cells == cells
    {
      this.shape := shape;
      this.cells := cells;
    }
  }
}

=== FILE: pcb_quarter.dfy ===
/**
 * The quarter-circle PCB geometry generator (`pochoir/gen_pcb_quarter.py`).
 *
 * A PCB plane is a slab of one potential pierced by two quarter-circle
 * holes: one around the corner (0, 0), one around the opposite corner. The
 * holes are rasterised with the integer midpoint circle algorithm,
 * mirrored into place, turned into column ranges and zeroed in the array.
 * Points are `(x, y)` pairs of grid indices.
 */
module PcbQuarter {
  import opened Wrappers
  import opened NdArrays
  import opened Writes

  type Pt = (int, int)

  function Swap(p: Pt): Pt {
    (p.1, p.0)
  }

  // draw_quarter_circle

  /**
   * One pass of the `while x <= y` loop from state `(x, y, d)`: the state after it
   * and the points it appends. The two `if`s are sequential, so both may run.
   */
  function Step(x: int, y: int, d: int): (r: (int, int, int, seq<Pt>))
    ensures r.0 >= x + 1 && r.1 <= y
    ensures SwappedPairs(r.3)
  {
    var (x1, d1, a) := if d < 0 then (x + 1, d + 4 * x + 6, [(x + 1, y), Swap((x + 1, y))]) else (x, d, []);
    if d1 >= 0 then
      (x1 + 1, y - 1, d1 + 4 * (x1 - y) + 6, a + [(x1 + 1, y - 1), Swap((x1 + 1, y - 1))])
    else
      (x1, y, d1, a)
  }

  /** `s` is made of pairs whose second point is the first with its coordinates swapped. */
  predicate SwappedPairs(s: seq<Pt>) {
    |s| % 2 == 0 && forall j :: 0 <= j < |s| && j % 2 == 1 ==> s[j] == Swap(s[j - 1])
  }

  /** The points the loop appends from state `(x, y, d)` until `x > y`. */
  function Arc(x: int, y: int, d: int): seq<Pt>
    decreases if x <= y then y - x + 1 else 0
  {
    if x > y then []
    else
      var (x2, y2, d2, a) := Step(x, y, d);
      a + Arc(x2, y2, d2)
  }

  /** One pass of the loop followed by the rest of it. */
  lemma ArcUnfold(x: int, y: int, d: int)
    requires x <= y
    ensures Arc(x, y, d) == Step(x, y, d).3 + Arc(Step(x, y, d).0, Step(x, y, d).1, Step(x, y, d).2)
  {
  }

  /** The unsorted points of a quarter circle of radius `r` about the origin: `(0, r)`, then the loop's points. */
  function Quarter(r: int): seq<Pt> {
    [(0, r)] + Arc(0, r, 3 - 2 * r)
  }

  lemma PairsConcat(a: seq<Pt>, b: seq<Pt>)
    requires SwappedPairs(a) && SwappedPairs(b)
    ensures SwappedPairs(a + b)
  {
    forall j | 0 <= j < |a + b| && j % 2 == 1 ensures (a + b)[j] == Swap((a + b)[j - 1]) {
      if j >= |a| {
        assert (a + b)[j] == b[j - |a|] && (a + b)[j - 1] == b[j - 1 - |a|];
      }
    }
  }

  lemma {:induction false} ArcPairs(x: int, y: int, d: int)
    ensures SwappedPairs(Arc(x, y, d))
    decreases if x <= y then y - x + 1 else 0
  {
    if x <= y {
      var (x2, y2, d2, a) := Step(x, y, d);
      ArcPairs(x2, y2, d2);
      PairsConcat(a, Arc(x2, y2, d2));
    }
  }

  /**
   * After the starting point `(0, r)` the quarter circle is a run of pairs
   * `(x, y), (y, x)`: the points of one octant and their mirror images.
   */
  lemma QuarterPairs(r: int)
    ensures |Quarter(r)| % 2 == 1 && Quarter(r)[0] == (0, r)
    ensures forall j :: 1 <= j < |Quarter(r)| && j % 2 == 0 ==> Quarter(r)[j] == Swap(Quarter(r)[j - 1])
  {
    var q, arc := Quarter(r), Arc(0, r, 3 - 2 * r);
    ArcPairs(0, r, 3 - 2 * r);
    forall j | 1 <= j < |q| && j % 2 == 0 ensures q[j] == Swap(q[j - 1]) {
      assert q[j] == arc[j - 1] && q[j - 1] == arc[j - 2];
    }
  }

  /** The loop runs at least once from `x = 0` exactly when `r >= 0`. */
  lemma QuarterLength(r: int)
    ensures r < 0 ==> Quarter(r) == [(0, r)]
    ensures r >= 0 ==> |Quarter(r)| >= 3
  {
  }

  /** The points are in non-decreasing order of `x`. */
  predicate SortedByX(s: seq<Pt>) {
    forall j, k :: 0 <= j < k < |s| ==> s[j].0 <= s[k].0
  }

  /**
   * `r` is `s` with `p` put in at position `k`: after every point whose `x`
   * is not greater than `p`'s and before every point whose `x` is greater.
   */
  predicate PlacedAt(s: seq<Pt>, p: Pt, r: seq<Pt>, k: int) {
    && 0 <= k <= |s| && r == s[..k] + [p] + s[k..]
    && (forall j :: 0 <= j < k ==> s[j].0 <= p.0)
    && (forall j :: k <= j < |s| ==> p.0 < s[j].0)
  }

  /** Inserts `p` after every point whose `x` is not greater than its own, keeping equal keys in arrival order. */
  function InsertByX(s: seq<Pt>, p: Pt): (r: seq<Pt>)
    requires SortedByX(s)
    ensures SortedByX(r) && multiset(r) == multiset(s) + multiset{p} && |r| == |s| + 1
    ensures exists k :: PlacedAt(s, p, r, k)
  {
    if s == [] || s[|s| - 1].0 <= p.0 then
      PlacedLast(s, p);
      s + [p]
    else
      var init, last := s[..|s| - 1], s[|s| - 1];
      var t := InsertByX(init, p);
      InsertBelowLast(s, init, last, p, t);
      t + [last]
  }

  /** A point no further left than the last point of `s` goes at the end. */
  lemma PlacedLast(s: seq<Pt>, p: Pt)
    requires SortedByX(s) && (s == [] || s[|s| - 1].0 <= p.0)
    ensures PlacedAt(s, p, s + [p], |s|)
  {
    assert s[..|s|] == s && s[|s|..] == [];
  }

  /** Putting the last point of `s` after a sorted insertion into the rest of `s` keeps the order, the points and the place of `p`. */
  lemma InsertBelowLast(s: seq<Pt>, init: seq<Pt>, last: Pt, p: Pt, t: seq<Pt>)
    requires s != [] && init == s[..|s| - 1] && last == s[|s| - 1]
    requires SortedByX(s) && p.0 < last.0
    requires SortedByX(t) && multiset(t) == multiset(init) + multiset{p}
    requires exists k :: PlacedAt(init, p, t, k)
    ensures SortedByX(t + [last]) && multiset(t + [last]) == multiset(s) + multiset{p}
    ensures exists k :: PlacedAt(s, p, t + [last], k)
  {
    SplitLast(s);
    SortedBelowLast(s, p, t);
    var k :| PlacedAt(init, p, t, k);
    PlacedBeforeLast(init, last, p, t, k);
  }

  /** Every point of a sorted insertion into the rest of `s` lies no further right than the last point of `s`, so appending it keeps the order. */
  lemma SortedBelowLast(s: seq<Pt>, p: Pt, t: seq<Pt>)
    requires s != [] && SortedByX(s) && p.0 < s[|s| - 1].0
    requires SortedByX(t) && multiset(t) == multiset(s[..|s| - 1]) + multiset{p}
    ensures SortedByX(t + [s[|s| - 1]])
  {
    var last := s[|s| - 1];
    forall k | 0 <= k < |t| ensures t[k].0 <= last.0 {
      MemberBelow(s, p, t[k]);
    }
    var r := t + [last];
    forall j, k | 0 <= j < k < |r| ensures r[j].0 <= r[k].0 {
      assert r[j] == t[j];
    }
  }

  /** A point placed in `init` keeps its place when a point further right is appended. */
  lemma PlacedBeforeLast(init: seq<Pt>, last: Pt, p: Pt, t: seq<Pt>, k: int)
    requires PlacedAt(init, p, t, k) && p.0 < last.0
    ensures PlacedAt(init + [last], p, t + [last], k)
  {
    var s := init + [last];
    assert s[..k] == init[..k];
    assert s[k..] == init[k..] + [last];
    assert t + [last] == s[..k] + [p] + s[k..];
  }

  /** A point of the rest of `s`, or `p`, lies no further right than the last point of `s`. */
  lemma MemberBelow(s: seq<Pt>, p: Pt, x: Pt)
    requires s != [] && SortedByX(s) && p.0 < s[|s| - 1].0
    requires x in multiset(s[..|s| - 1]) + multiset{p}
    ensures x.0 <= s[|s| - 1].0
  {
    if x != p {
      var init := s[..|s| - 1];
      assert x in multiset(init);
      var j :| 0 <= j < |init| && init[j] == x;
      assert init[j] == s[j];
    }
  }

  /** The points of `s` whose `x` is `x`, in their order in `s`. */
  function WithX(s: seq<Pt>, x: int): seq<Pt> {
    if s == [] then []
    else WithX(s[..|s| - 1], x) + (if s[|s| - 1].0 == x then [s[|s| - 1]] else [])
  }

  /** Taking the points with one `x` distributes over concatenation. */
  lemma {:induction false} WithXAppend(a: seq<Pt>, b: seq<Pt>, x: int)
    ensures WithX(a + b, x) == WithX(a, x) + WithX(b, x)
    decreases |b|
  {
    if b == [] {
      assert a + b == a;
    } else {
      assert (a + b)[..|a + b| - 1] == a + b[..|b| - 1];
      WithXAppend(a, b[..|b| - 1], x);
    }
  }

  /** Points whose `x` all differ from `x` contribute nothing to `WithX`. */
  lemma {:induction false} WithXNone(s: seq<Pt>, x: int)
    requires forall j :: 0 <= j < |s| ==> s[j].0 != x
    ensures WithX(s, x) == []
    decreases |s|
  {
    if s != [] {
      WithXNone(s[..|s| - 1], x);
    }
  }

  /** Inserting `p` appends it to the points of its own `x` and leaves every other `x`'s points as they were. */
  lemma InsertKeepsOrder(t: seq<Pt>, p: Pt, x: int)
    requires SortedByX(t)
    ensures WithX(InsertByX(t, p), x) == WithX(t, x) + WithX([p], x)
  {
    var k :| PlacedAt(t, p, InsertByX(t, p), k);
    PlacedKeepsOrder(t, p, InsertByX(t, p), k, x);
  }

  /** The points with one `x` after placing `p`: those of `t`, then `p` if it has that `x`. */
  lemma PlacedKeepsOrder(t: seq<Pt>, p: Pt, r: seq<Pt>, k: int, x: int)
    requires PlacedAt(t, p, r, k)
    ensures WithX(r, x) == WithX(t, x) + WithX([p], x)
  {
    var lo, hi := t[..k], t[k..];
    assert t == lo + hi;
    assert r == (lo + [p]) + hi;
    NoneRightOf(t, p, k);
    InsertBetween(lo, hi, p, x);
  }

  /** No point after the place of `p` shares its `x`. */
  lemma NoneRightOf(t: seq<Pt>, p: Pt, k: int)
    requires 0 <= k <= |t| && forall j :: k <= j < |t| ==> p.0 < t[j].0
    ensures WithX(t[k..], p.0) == []
  {
    var hi := t[k..];
    forall j | 0 <= j < |hi| ensures hi[j].0 != p.0 {
      assert hi[j] == t[k + j];
    }
    WithXNone(hi, p.0);
  }

  /** Putting `p` before points none of which shares its `x` adds it to the end of its own `x`'s points. */
  lemma InsertBetween(lo: seq<Pt>, hi: seq<Pt>, p: Pt, x: int)
    requires WithX(hi, p.0) == []
    ensures WithX((lo + [p]) + hi, x) == WithX(lo + hi, x) + WithX([p], x)
  {
    WithXAppend(lo, hi, x);
    WithXAppend(lo + [p], hi, x);
    WithXAppend(lo, [p], x);
    WithXOne(p, x);
    if x == p.0 {
      assert WithX(hi, x) == [];
    } else {
      assert WithX([p], x) == [];
    }
  }

  /** A single point contributes itself to its own `x` and nothing to any other. */
  lemma WithXOne(p: Pt, x: int)
    ensures WithX([p], x) == (if p.0 == x then [p] else [])
  {
    assert [p][..0] == [];
  }

  /** A non-empty sequence is its points but the last, then the last. */
  lemma SplitLast(s: seq<Pt>)
    requires s != []
    ensures s == s[..|s| - 1] + [s[|s| - 1]]
  {
  }

  /** Inserting the last point into the stably sorted rest keeps every `x`'s points in input order. */
  lemma InsertAfterSorted(init: seq<Pt>, last: Pt, t: seq<Pt>)
    requires SortedByX(t) && forall x :: WithX(t, x) == WithX(init, x)
    ensures forall x :: WithX(InsertByX(t, last), x) == WithX(init + [last], x)
  {
    forall x ensures WithX(InsertByX(t, last), x) == WithX(init + [last], x) {
      InsertKeepsOrder(t, last, x);
      WithXAppend(init, [last], x);
    }
  }

  /**
   * `list.sort(key=lambda p: p[0])`: sorted by `x`, a permutation of the
   * input, and stable: the points sharing an `x` keep their input order.
   */
  function SortByX(s: seq<Pt>): (r: seq<Pt>)
    ensures SortedByX(r) && multiset(r) == multiset(s) && |r| == |s|
    ensures forall x :: WithX(r, x) == WithX(s, x)
  {
    if s == [] then []
    else
      var init, last := s[..|s| - 1], s[|s| - 1];
      var t := SortByX(init);
      var r := InsertByX(t, last);
      SplitLast(s);
      InsertAfterSorted(init, last, t);
      r
  }

  function Shift(s: seq<Pt>, x0: int, y0: int): (r: seq<Pt>)
    ensures |r| == |s| && forall k :: 0 <= k < |s| ==> r[k] == (s[k].0 + x0, s[k].1 + y0)
  {
    seq(|s|, k requires 0 <= k < |s| => (s[k].0 + x0, s[k].1 + y0))
  }

  /** The value `draw_quarter_circle(x0, y0, r)` returns. */
  function Circle(x0: int, y0: int, r: int): seq<Pt> {
    Shift(SortByX(Quarter(r)), x0, y0)
  }

  /** The loop's invariant survives one pass. */
  lemma ArcAdvance(before: seq<Pt>, x: int, y: int, d: int, q: seq<Pt>)
    requires x <= y && before + Arc(x, y, d) == q
    ensures (before + Step(x, y, d).3) + Arc(Step(x, y, d).0, Step(x, y, d).1, Step(x, y, d).2) == q
  {
    var st := Step(x, y, d);
    ArcUnfold(x, y, d);
    assert (before + st.3) + Arc(st.0, st.1, st.2) == before + (st.3 + Arc(st.0, st.1, st.2));
  }

  lemma ShiftSnoc(s: seq<Pt>, k: nat, x0: int, y0: int)
    requires k < |s|
    ensures Shift(s[..k + 1], x0, y0) == Shift(s[..k], x0, y0) + [(s[k].0 + x0, s[k].1 + y0)]
  {
  }

  lemma CircleNonEmpty(x0: int, y0: int, r: int)
    ensures |Circle(x0, y0, r)| >= 1
  {
    QuarterLength(r);
  }

  /** `draw_quarter_circle(x0, y0, r)` */
  method DrawQuarterCircle(x0: int, y0: int, r: int) returns (shifted: seq<Pt>)
    ensures shifted == Circle(x0, y0, r)
  {
    ghost var q := Quarter(r);
    var x, y, d := 0, r, 3 - 2 * r;
    var idCirc := [(x, y)];
    while x <= y
      invariant idCirc + Arc(x, y, d) == q
      decreases if x <= y then y - x + 1 else 0
    {
      ghost var st := Step(x, y, d);
      ghost var before := idCirc;
      ArcAdvance(before, x, y, d, q);
      if d < 0 {
        d := d + 4 * x + 6;
        x := x + 1;
        idCirc := idCirc + [(x, y), (y, x)];
      }
      if d >= 0 {
        d := d + 4 * (x - y) + 6;
        x := x + 1;
        y := y - 1;
        idCirc := idCirc + [(x, y), (y, x)];
      }
      assert x == st.0 && y == st.1 && d == st.2 && idCirc == before + st.3;
    }
    assert idCirc == q;
    idCirc := SortByX(idCirc);
    shifted := ShiftPoints(idCirc, x0, y0);
  }

  /** The final loop of `draw_quarter_circle`: every point moved by `(x0, y0)`. */
  method ShiftPoints(pts: seq<Pt>, x0: int, y0: int) returns (shifted: seq<Pt>)
    ensures shifted == Shift(pts, x0, y0)
  {
    shifted := [];
    for k := 0 to |pts|
      invariant shifted == Shift(pts[..k], x0, y0)
    {
      ShiftSnoc(pts, k, x0, y0);
      shifted := shifted + [(pts[k].0 + x0, pts[k].1 + y0)];
    }
    assert pts[..|pts|] == pts;
  }

  /** `c` is sorted by `x`, as long as `q`, and made of the points of `q` shifted by `(x0, y0)`, every one of them. */
  predicate Redrawn(c: seq<Pt>, q: seq<Pt>, x0: int, y0: int) {
    && |c| == |q|
    && SortedByX(c)
    && (forall k :: 0 <= k < |c| ==> (c[k].0 - x0, c[k].1 - y0) in q)
    && (forall j :: 0 <= j < |q| ==> (q[j].0 + x0, q[j].1 + y0) in c)
  }

  /**
   * The drawn circle is sorted by `x`, has one point per raw point, and is
   * the raw quarter circle shifted by `(x0, y0)`, point for point.
   */
  lemma CircleOfQuarter(x0: int, y0: int, r: int)
    ensures Redrawn(Circle(x0, y0, r), Quarter(r), x0, y0)
  {
    SortedShift(Quarter(r), SortByX(Quarter(r)), x0, y0);
  }

  lemma ShiftSorted(s: seq<Pt>, x0: int, y0: int)
    requires SortedByX(s)
    ensures SortedByX(Shift(s, x0, y0))
  {
    var c := Shift(s, x0, y0);
    forall j, k | 0 <= j < k < |c| ensures c[j].0 <= c[k].0 {
      assert c[j].0 == s[j].0 + x0 && c[k].0 == s[k].0 + x0;
    }
  }

  /** Shifting a sorted rearrangement `s` of `q` gives sorted points, each a shifted point of `q` and back. */
  lemma SortedShift(q: seq<Pt>, s: seq<Pt>, x0: int, y0: int)
    requires SortedByX(s) && multiset(s) == multiset(q) && |s| == |q|
    ensures Redrawn(Shift(s, x0, y0), q, x0, y0)
  {
    ShiftSorted(s, x0, y0);
    ShiftedFromQ(q, s, x0, y0);
    ShiftedIntoC(q, s, x0, y0);
  }

  /** Each shifted point of a rearrangement `s` of `q` comes from a point of `q`. */
  lemma ShiftedFromQ(q: seq<Pt>, s: seq<Pt>, x0: int, y0: int)
    requires multiset(s) == multiset(q)
    ensures forall k :: 0 <= k < |s| ==> (Shift(s, x0, y0)[k].0 - x0, Shift(s, x0, y0)[k].1 - y0) in q
  {
    var c := Shift(s, x0, y0);
    forall k | 0 <= k < |c| ensures (c[k].0 - x0, c[k].1 - y0) in q {
      assert (c[k].0 - x0, c[k].1 - y0) == s[k];
      InMultiset(s, q, s[k]);
    }
  }

  /** Each point of `q`, shifted, is a point of the shifted rearrangement `s`. */
  lemma ShiftedIntoC(q: seq<Pt>, s: seq<Pt>, x0: int, y0: int)
    requires multiset(s) == multiset(q)
    ensures forall j :: 0 <= j < |q| ==> (q[j].0 + x0, q[j].1 + y0) in Shift(s, x0, y0)
  {
    var c := Shift(s, x0, y0);
    forall j | 0 <= j < |q| ensures (q[j].0 + x0, q[j].1 + y0) in c {
      InMultiset(q, s, q[j]);
      var k :| 0 <= k < |s| && s[k] == q[j];
      assert c[k] == (q[j].0 + x0, q[j].1 + y0);
    }
  }

  lemma InMultiset(s: seq<Pt>, q: seq<Pt>, p: Pt)
    requires p in s && multiset(s) == multiset(q)
    ensures p in q
  {
    assert p in multiset(s);
  }

  // mirror_xaxis, mirror_yaxis, mirror_center

  /** `mirror_xaxis(pts, x0, y0, r)`: reflects every point in the line `y = y0` (`x0` and `r` are not used). */
  function MirrorX(pts: seq<Pt>, y0: int): (r: seq<Pt>)
    ensures |r| == |pts| && forall k :: 0 <= k < |pts| ==> r[k] == (pts[k].0, y0 - (pts[k].1 - y0))
  {
    seq(|pts|, k requires 0 <= k < |pts| => (pts[k].0, y0 - (pts[k].1 - y0)))
  }

  /** `mirror_yaxis(pts, x0, y0, r)`: reflects every point in the line `x = x0` (`y0` and `r` are not used). */
  function MirrorY(pts: seq<Pt>, x0: int): (r: seq<Pt>)
    ensures |r| == |pts| && forall k :: 0 <= k < |pts| ==> r[k] == (x0 - (pts[k].0 - x0), pts[k].1)
  {
    seq(|pts|, k requires 0 <= k < |pts| => (x0 - (pts[k].0 - x0), pts[k].1))
  }

  /** `mirror_center(pts, x0, y0)`: reflects every point through `(x0, y0)`. */
  function MirrorCenter(pts: seq<Pt>, x0: int, y0: int): (r: seq<Pt>)
    ensures |r| == |pts| && forall k :: 0 <= k < |pts| ==> r[k] == (x0 - (pts[k].0 - x0), y0 - (pts[k].1 - y0))
  {
    seq(|pts|, k requires 0 <= k < |pts| => (x0 - (pts[k].0 - x0), y0 - (pts[k].1 - y0)))
  }

  /** Mirroring twice in the same line gives back the points. */
  lemma MirrorsInvolutive(pts: seq<Pt>, x0: int, y0: int)
    ensures MirrorX(MirrorX(pts, y0), y0) == pts
    ensures MirrorY(MirrorY(pts, x0), x0) == pts
    ensures MirrorCenter(MirrorCenter(pts, x0, y0), x0, y0) == pts
  {
  }

  /** Reflecting through the centre is reflecting in both axes, in either order. */
  lemma CenterIsBothAxes(pts: seq<Pt>, x0: int, y0: int)
    ensures MirrorCenter(pts, x0, y0) == MirrorX(MirrorY(pts, x0), y0)
    ensures MirrorCenter(pts, x0, y0) == MirrorY(MirrorX(pts, y0), x0)
  {
  }

  // form_quarter_boundary

  /** `[x, [y_start, y_stop]]`: fill row `x` of the array from `y_start` up to, not including, `y_stop`. */
  type Entry = (int, (int, int))

  /** Column ranges from `y0` up to each point. */
  function Rising(pts: seq<Pt>, y0: int): (r: seq<Entry>)
    ensures |r| == |pts| && forall k :: 0 <= k < |pts| ==> r[k] == (pts[k].0, (y0, pts[k].1))
  {
    seq(|pts|, k requires 0 <= k < |pts| => (pts[k].0, (y0, pts[k].1)))
  }

  /** Column ranges from each point up to `y0`. */
  function Falling(pts: seq<Pt>, y0: int): (r: seq<Entry>)
    ensures |r| == |pts| && forall k :: 0 <= k < |pts| ==> r[k] == (pts[k].0, (pts[k].1, y0))
  {
    seq(|pts|, k requires 0 <= k < |pts| => (pts[k].0, (pts[k].1, y0)))
  }

  /**
   * `form_quarter_boundary(indx, x0, y0)`: the case is chosen by the first
   * point's offset `(dx, dy)` from `(x0, y0)`; the four `if`s are sequential,
   * so when `dx < 0` and `dy == 0` two of them apply. An empty list raises `IndexError`.
   */
  function FormQuarterBoundary(indx: seq<Pt>, x0: int, y0: int): (r: Result<seq<Entry>>)
    ensures r.Err? <==> indx == []
  {
    if indx == [] then Err(IndexError)
    else
      var dx, dy := indx[0].0 - x0, indx[0].1 - y0;
      Ok((if dx >= 0 && dy > 0 then Rising(indx, y0) else [])
         + (if dx >= 0 && dy < 0 then Falling(indx, y0) else [])
         + (if dx < 0 && dy >= 0 then Rising(indx, y0) else [])
         + (if dx < 0 && dy <= 0 then Falling(indx, y0) else []))
  }

  /**
   * Above `y0` the columns run from `y0` to each point, below it from each
   * point to `y0`, whatever the side in `x`; on the line `y == y0` nothing is
   * produced when `dx >= 0`, and when `dx < 0` the rising ranges of every point come first, then the falling ones.
   */
  lemma BoundaryCases(indx: seq<Pt>, x0: int, y0: int)
    requires indx != []
    ensures indx[0].1 > y0 ==> FormQuarterBoundary(indx, x0, y0) == Ok(Rising(indx, y0))
    ensures indx[0].1 < y0 ==> FormQuarterBoundary(indx, x0, y0) == Ok(Falling(indx, y0))
    ensures indx[0].1 == y0 && indx[0].0 >= x0 ==> FormQuarterBoundary(indx, x0, y0) == Ok([])
    ensures indx[0].1 == y0 && indx[0].0 < x0 ==> FormQuarterBoundary(indx, x0, y0) == Ok(Rising(indx, y0) + Falling(indx, y0))
  {
    var dx, dy := indx[0].0 - x0, indx[0].1 - y0;
    var b := FormQuarterBoundary(indx, x0, y0).value;
    var up, down, e: seq<Entry> := Rising(indx, y0), Falling(indx, y0), [];
    if dy > 0 && dx >= 0 {
      assert b == up + e + e + e;
      assert up + e + e + e == up;
    } else if dy > 0 {
      assert b == e + e + up + e;
      assert e + e + up + e == up;
    } else if dy < 0 && dx >= 0 {
      assert b == e + down + e + e;
      assert e + down + e + e == down;
    } else if dy < 0 {
      assert b == e + e + e + down;
      assert e + e + e + down == down;
    } else if dx >= 0 {
      assert b == e + e + e + e;
      assert e + e + e + e == e;
    } else {
      assert b == e + e + up + down;
      assert e + e + up + down == up + down;
    }
  }

  // fill_area, draw_plane

  /** The selection `arr[x, y_start:y_stop]` of one entry. */
  function RowSel(e: Entry): seq<Sel> {
    [At(e.0), Span(Slice(e.1.0, e.1.1))]
  }

  /** The selection `arr[:, :, z]`. */
  function PlaneSel(z: int): seq<Sel> {
    [All, All, At(z)]
  }

  /** Cell `i` lies in the region of some entry of `barr` (the entries address the first two axes, every later axis whole). */
  predicate Covered(barr: seq<Entry>, shape: Shape, i: Index) {
    2 <= |shape| == |i| && exists k :: 0 <= k < |barr| && Selects(RowSel(barr[k]), shape, i)
  }

  /** `arr[sel] = v` as an outcome: the filled cells, or the unchanged cells and the `IndexError`. */
  function FillOutcome(m: map<Index, real>, shape: Shape, sel: seq<Sel>, v: real): (r: Outcome)
    requires Shaped(m, shape)
    ensures Shaped(r.cells, shape)
    ensures r.error.None? <==> Addressable(sel, shape)
    ensures r.error.None? ==> forall i :: i in m ==> r.cells[i] == if Selects(sel, shape, i) then v else m[i]
    ensures r.error.Some? ==> r.cells == m && r.error == Some(IndexError)
  {
    match Fill(m, shape, sel, v)
    case Err(e) => Outcome(m, Some(e))
    case Ok(m1) => FillShaped(m, shape, sel, v); Outcome(m1, None)
  }

  /** The outcome of `fill_area(arr, barr, v)` on cells `m`: entries are written in order until one raises. */
  function AreaFilled(m: map<Index, real>, shape: Shape, barr: seq<Entry>, v: real): (r: Outcome)
    requires Shaped(m, shape)
    ensures Shaped(r.cells, shape)
    decreases |barr|
  {
    if barr == [] then Outcome(m, None)
    else
      var o := FillOutcome(m, shape, RowSel(barr[0]), v);
      if o.error.Some? then o else AreaFilled(o.cells, shape, barr[1..], v)
  }

  /** `fill_area(arr, barr, val)` */
  method FillArea(arr: NdArray, barr: seq<Entry>, v: real) returns (err: Option<Error>)
    requires arr.Valid()
    modifies arr
    ensures arr.Valid()
    ensures Outcome(arr.cells, err) == AreaFilled(old(arr.cells), arr.shape, barr, v)
  {
    var k := 0;
    while k < |barr|
      invariant k <= |barr| && arr.Valid()
      invariant AreaFilled(arr.cells, arr.shape, barr[k..], v) == AreaFilled(old(arr.cells), arr.shape, barr, v)
    {
      var o := FillOutcome(arr.cells, arr.shape, RowSel(barr[k]), v);
      assert barr[k..][1..] == barr[k + 1..];
      if o.error.Some? {
        err := o.error;
        return;
      }
      arr.cells := o.cells;
      k := k + 1;
    }
    err := None;
  }

  /**
   * `fill_area` raises exactly when some entry's row is out of range (or the
   * array has fewer than two axes), and when it completes, the cells of the
   * entries' regions hold `v` and every other cell is unchanged.
   */
  lemma {:induction false} AreaFilledCells(m: map<Index, real>, shape: Shape, barr: seq<Entry>, v: real)
    requires Shaped(m, shape)
    ensures AreaFilled(m, shape, barr, v).error.Some? <==> exists k :: 0 <= k < |barr| && !Addressable(RowSel(barr[k]), shape)
    ensures AreaFilled(m, shape, barr, v).error.None? ==>
              forall i :: i in m ==> AreaFilled(m, shape, barr, v).cells[i] == if Covered(barr, shape, i) then v else m[i]
    decreases |barr|
  {
    if barr != [] {
      var o := FillOutcome(m, shape, RowSel(barr[0]), v);
      if o.error.None? {
        AreaFilledCells(o.cells, shape, barr[1..], v);
        assert forall k :: 1 <= k < |barr| ==> barr[k] == barr[1..][k - 1];
        assert forall k :: 0 <= k < |barr[1..]| ==> barr[1..][k] == barr[k + 1];
        var r := AreaFilled(m, shape, barr, v);
        if r.error.None? {
          forall i | i in m ensures r.cells[i] == if Covered(barr, shape, i) then v else m[i] {
            if Selects(RowSel(barr[0]), shape, i) {
              assert Covered(barr, shape, i);
            } else if Covered(barr[1..], shape, i) {
              var k :| 0 <= k < |barr[1..]| && Selects(RowSel(barr[1..][k]), shape, i);
              assert Selects(RowSel(barr[k + 1]), shape, i);
            }
          }
        }
      }
    }
  }

  /** `draw_plane(arr, z, val)` */
  method DrawPlane(arr: NdArray, z: int, v: real) returns (err: Option<Error>)
    requires arr.Valid()
    modifies arr
    ensures arr.Valid()
    ensures Outcome(arr.cells, err) == FillOutcome(old(arr.cells), arr.shape, PlaneSel(z), v)
  {
    var o := FillOutcome(arr.cells, arr.shape, PlaneSel(z), v);
    arr.cells, err := o.cells, o.error;
  }

  // draw_pcb_plane, draw_3D_pcb

  /** The hole around `(0, 0)`: the quarter circle of radius `r` about the origin, filled from each point down to row 0. */
  function NearHole(r: int): seq<Entry> {
    CircleNonEmpty(0, 0, r);
    FormQuarterBoundary(Circle(0, 0, r), 0, 0).value
  }

  /**
   * The hole around the far corner `(x1, y1)`: the quarter circle of radius
   * `r` about it, reflected through it, filled from each point up to column `y1 + 1`.
   */
  function FarHole(x1: int, y1: int, r: int): seq<Entry> {
    CircleNonEmpty(x1, y1, r);
    FormQuarterBoundary(MirrorCenter(Circle(x1, y1, r), x1, y1), x1, y1 + 1).value
  }

  /**
   * The two hole boundaries of a PCB plane of shape `shape` (none for fewer
   * than two axes, where the plane write has already raised).
   */
  function Holes(shape: Shape, r1: int, r2: int): (seq<Entry>, seq<Entry>) {
    if |shape| < 2 then ([], []) else (NearHole(r1), FarHole(shape[0] as int - 1, shape[1] as int - 1, r2))
  }

  /** The hole boundaries `draw_pcb_plane` computes for an array of shape `shape`. */
  method HoleBoundaries(shape: Shape, r1: int, r2: int) returns (barr1: seq<Entry>, barr2: seq<Entry>)
    requires |shape| >= 2
    ensures (barr1, barr2) == Holes(shape, r1, r2)
  {
    barr1 := NearBoundary(r1);
    barr2 := FarBoundary(shape[0] as int - 1, shape[1] as int - 1, r2);
  }

  method NearBoundary(r: int) returns (barr: seq<Entry>)
    ensures barr == NearHole(r)
  {
    var idCirc := DrawQuarterCircle(0, 0, r);
    CircleNonEmpty(0, 0, r);
    barr := FormQuarterBoundary(idCirc, 0, 0).value;
  }

  method FarBoundary(x1: int, y1: int, r: int) returns (barr: seq<Entry>)
    ensures barr == FarHole(x1, y1, r)
  {
    var idCirc := DrawQuarterCircle(x1, y1, r);
    var idCircM := MirrorCenter(idCirc, x1, y1);
    CircleNonEmpty(x1, y1, r);
    barr := FormQuarterBoundary(idCircM, x1, y1 + 1).value;
  }

  /** The outcome of `draw_pcb_plane(shape, arr, z, r1, r2, free, val)` on cells `m`. */
  function PcbPlane(m: map<Index, real>, shape: Shape, z: int, holes: (seq<Entry>, seq<Entry>), free: int, val: (real, real)): (r: Outcome)
    requires Shaped(m, shape)
    ensures Shaped(r.cells, shape)
  {
    if free == 1 then FillOutcome(m, shape, PlaneSel(z), val.0)
    else
      var o := FillOutcome(m, shape, PlaneSel(z), val.1);
      if o.error.Some? then o
      else
        var (b1, b2) := holes;
        var o1 := AreaFilled(o.cells, shape, b1, 0.0);
        if o1.error.Some? then o1 else AreaFilled(o1.cells, shape, b2, 0.0)
  }

  /** `draw_pcb_plane(arr.shape, arr, z, r1, r2, free, val)` */
  method DrawPcbPlane(arr: NdArray, z: int, r1: int, r2: int, free: int, val: (real, real)) returns (err: Option<Error>)
    requires arr.Valid()
    modifies arr
    ensures arr.Valid()
    ensures Outcome(arr.cells, err) == PcbPlane(old(arr.cells), arr.shape, z, Holes(arr.shape, r1, r2), free, val)
  {
    if free == 1 {
      err := DrawPlane(arr, z, val.0);
    } else {
      err := DrawPlane(arr, z, val.1);
      if err.Some? {
        return;
      }
      var barr1, barr2 := HoleBoundaries(arr.shape, r1, r2);
      err := FillArea(arr, barr1, 0.0);
      if err.Some? {
        return;
      }
      err := FillArea(arr, barr2, 0.0);
    }
  }

  /** The outcome of the planes `z`, `z + 1`, ... below `top` (PCB planes below `width`, cathode planes above), then the anode plane `top`. */
  function PcbFrom(m: map<Index, real>, shape: Shape, z: int, top: int, holes: (seq<Entry>, seq<Entry>),
                   vCath: real, vPcb: real, vAn: real, width: int): (r: Outcome)
    requires Shaped(m, shape)
    ensures Shaped(r.cells, shape)
    decreases top - z
  {
    if z >= top then PcbPlane(m, shape, top, holes, 1, (vAn, 0.0))
    else
      var o := PcbPlane(m, shape, z, holes, if z < width then 0 else 1, (vCath, vPcb));
      if o.error.Some? then o else PcbFrom(o.cells, shape, z + 1, top, holes, vCath, vPcb, vAn, width)
  }

  /** The outcome of `draw_3D_pcb(arr, arr.shape, r1, r2, v_cath, v_pcb, v_an, pcb_width)` on cells `m`. */
  function Pcb3D(m: map<Index, real>, shape: Shape, r1: int, r2: int, vCath: real, vPcb: real, vAn: real, width: int): (r: Outcome)
    requires Shaped(m, shape)
    ensures Shaped(r.cells, shape)
  {
    if |shape| < 3 then Outcome(m, Some(IndexError))
    else PcbFrom(m, shape, 0, shape[2] as int - 1, Holes(shape, r1, r2), vCath, vPcb, vAn, width)
  }

  /** `draw_3D_pcb(arr, arr.shape, r1, r2, v_cath, v_pcb, v_an, pcb_width)` */
  method Draw3DPcb(arr: NdArray, r1: int, r2: int, vCath: real, vPcb: real, vAn: real, width: int) returns (err: Option<Error>)
    requires arr.Valid()
    modifies arr
    ensures arr.Valid()
    ensures Outcome(arr.cells, err) == Pcb3D(old(arr.cells), arr.shape, r1, r2, vCath, vPcb, vAn, width)
  {
    if |arr.shape| < 3 {
      return Some(IndexError);
    }
    var top := arr.shape[2] as int - 1;
    ghost var holes := Holes(arr.shape, r1, r2);
    ghost var goal := PcbFrom(old(arr.cells), arr.shape, 0, top, holes, vCath, vPcb, vAn, width);
    for z := 0 to if top < 0 then 0 else top
      invariant arr.Valid()
      invariant PcbFrom(arr.cells, arr.shape, z, top, holes, vCath, vPcb, vAn, width) == goal
    {
      PcbFromNext(arr.cells, arr.shape, z, top, holes, vCath, vPcb, vAn, width);
      err := DrawPcbPlane(arr, z, r1, r2, if z < width then 0 else 1, (vCath, vPcb));
      if err.Some? {
        return;
      }
    }
    PcbFromLast(arr.cells, arr.shape, top, holes, vCath, vPcb, vAn, width);
    err := DrawPcbPlane(arr, top, r1, r2, 1, (vAn, 0.0));
  }

  lemma PcbFromNext(m: map<Index, real>, shape: Shape, z: int, top: int, holes: (seq<Entry>, seq<Entry>),
                    vCath: real, vPcb: real, vAn: real, width: int)
    requires Shaped(m, shape) && z < top
    ensures var o := PcbPlane(m, shape, z, holes, if z < width then 0 else 1, (vCath, vPcb));
            PcbFrom(m, shape, z, top, holes, vCath, vPcb, vAn, width)
              == if o.error.Some? then o else PcbFrom(o.cells, shape, z + 1, top, holes, vCath, vPcb, vAn, width)
  {
  }

  lemma PcbFromLast(m: map<Index, real>, shape: Shape, top: int, holes: (seq<Entry>, seq<Entry>),
                    vCath: real, vPcb: real, vAn: real, width: int)
    requires Shaped(m, shape)
    ensures PcbFrom(m, shape, top, top, holes, vCath, vPcb, vAn, width) == PcbPlane(m, shape, top, holes, 1, (vAn, 0.0))
  {
  }

  // The layers a PCB volume ends up with

  /** Cell `i` lies in one of the two holes `holes` that `draw_pcb_plane` cuts; the holes span every layer. */
  predicate InHole(holes: (seq<Entry>, seq<Entry>), shape: Shape, i: Index) {
    Covered(holes.0, shape, i) || Covered(holes.1, shape, i)
  }

  /** `arr[:, :, z]` picks exactly the cells of layer `z`, for a layer inside the array. */
  lemma PlaneSelects(shape: Shape, z: int, i: Index)
    requires |shape| >= 3 && 0 <= z < shape[2] && InBounds(shape, i)
    ensures Addressable(PlaneSel(z), shape)
    ensures Selects(PlaneSel(z), shape, i) <==> i[2] == z
  {
    assert Picks(PlaneSel(z)[2], shape[2], i[2]) <==> i[2] == z;
  }

  /**
   * One `draw_pcb_plane` that completes: a cathode plane (`free == 1`) sets
   * layer `z` to `val.0`; a PCB plane sets layer `z` to `val.1` and then
   * zeroes the holes in every layer. Nothing else changes.
   */
  lemma PcbPlaneCells(m: map<Index, real>, shape: Shape, z: int, holes: (seq<Entry>, seq<Entry>), free: int, val: (real, real))
    requires Shaped(m, shape) && |shape| >= 3 && 0 <= z < shape[2]
    requires PcbPlane(m, shape, z, holes, free, val).error.None?
    ensures forall i :: i in m ==>
              PcbPlane(m, shape, z, holes, free, val).cells[i] ==
                if free != 1 && InHole(holes, shape, i) then 0.0
                else if i[2] == z then (if free == 1 then val.0 else val.1)
                else m[i]
  {
    var r := PcbPlane(m, shape, z, holes, free, val);
    forall i | i in m ensures Selects(PlaneSel(z), shape, i) <==> i[2] == z {
      PlaneSelects(shape, z, i);
    }
    if free != 1 {
      var o := FillOutcome(m, shape, PlaneSel(z), val.1);
      var (b1, b2) := holes;
      AreaFilledCells(o.cells, shape, b1, 0.0);
      var o1 := AreaFilled(o.cells, shape, b1, 0.0);
      AreaFilledCells(o1.cells, shape, b2, 0.0);
      assert r == AreaFilled(o1.cells, shape, b2, 0.0);
    }
  }

  /** What a cell of layer `i[2]` holds once the whole volume is drawn. */
  function Final(shape: Shape, holes: (seq<Entry>, seq<Entry>), vCath: real, vPcb: real, vAn: real, width: int, i: Index): real
    requires |shape| >= 3 && |i| == |shape|
  {
    if i[2] == shape[2] as int - 1 then vAn
    else if i[2] >= width then vCath
    else if InHole(holes, shape, i) then 0.0
    else vPcb
  }

  /**
   * Drawing from plane `z` on, seen from one cell: a cell of a layer from `z`
   * up gets its final value; a cell of a lower layer keeps its value, except
   * that a hole cell is zeroed when a PCB plane is still to come.
   */
  lemma {:induction false} PcbFromCell(m: map<Index, real>, shape: Shape, z: int, top: int,
                                      holes: (seq<Entry>, seq<Entry>), vCath: real, vPcb: real, vAn: real, width: int, i: Index)
    requires Shaped(m, shape) && |shape| >= 3 && top == shape[2] as int - 1 && 0 <= z <= top && i in m
    requires PcbFrom(m, shape, z, top, holes, vCath, vPcb, vAn, width).error.None?
    ensures PcbFrom(m, shape, z, top, holes, vCath, vPcb, vAn, width).cells[i] ==
              if i[2] >= z then Final(shape, holes, vCath, vPcb, vAn, width, i)
              else if z < width && z < top && InHole(holes, shape, i) then 0.0
              else m[i]
    decreases top - z, 1
  {
    if z >= top {
      TopCell(m, shape, top, holes, vCath, vPcb, vAn, width, i);
    } else {
      PcbFromStep(m, shape, z, top, holes, vCath, vPcb, vAn, width, i);
    }
  }

  /** `PcbFromCell` below the top: plane `z`, then the planes above it. */
  lemma {:induction false} PcbFromStep(m: map<Index, real>, shape: Shape, z: int, top: int,
                                      holes: (seq<Entry>, seq<Entry>), vCath: real, vPcb: real, vAn: real, width: int, i: Index)
    requires Shaped(m, shape) && |shape| >= 3 && top == shape[2] as int - 1 && 0 <= z < top && i in m
    requires PcbFrom(m, shape, z, top, holes, vCath, vPcb, vAn, width).error.None?
    ensures PcbFrom(m, shape, z, top, holes, vCath, vPcb, vAn, width).cells[i] ==
              if i[2] >= z then Final(shape, holes, vCath, vPcb, vAn, width, i)
              else if z < width && z < top && InHole(holes, shape, i) then 0.0
              else m[i]
    decreases top - z, 0
  {
    var o := PcbPlane(m, shape, z, holes, if z < width then 0 else 1, (vCath, vPcb));
    PcbFromUnfold(m, shape, z, top, holes, vCath, vPcb, vAn, width);
    LowerPlaneCell(m, shape, z, holes, vCath, vPcb, width, i);
    PcbFromCell(o.cells, shape, z + 1, top, holes, vCath, vPcb, vAn, width, i);
    var r := PcbFrom(o.cells, shape, z + 1, top, holes, vCath, vPcb, vAn, width);
    CellStep(m[i], o.cells[i], r.cells[i], i[2], z, top, width, InHole(holes, shape, i),
             Final(shape, holes, vCath, vPcb, vAn, width, i), vCath, vPcb);
  }

  /** Below the top, drawing from plane `z` is plane `z` and then drawing from `z + 1`. */
  lemma PcbFromUnfold(m: map<Index, real>, shape: Shape, z: int, top: int,
                      holes: (seq<Entry>, seq<Entry>), vCath: real, vPcb: real, vAn: real, width: int)
    requires Shaped(m, shape) && z < top
    requires PcbFrom(m, shape, z, top, holes, vCath, vPcb, vAn, width).error.None?
    ensures var o := PcbPlane(m, shape, z, holes, if z < width then 0 else 1, (vCath, vPcb));
            && o.error.None?
            && PcbFrom(m, shape, z, top, holes, vCath, vPcb, vAn, width) == PcbFrom(o.cells, shape, z + 1, top, holes, vCath, vPcb, vAn, width)
  {
  }

  /** The value of one cell after plane `z` and after the planes above it combine into its value after plane `z` and above. */
  lemma CellStep(before: real, mid: real, after: real, layer: int, z: int, top: int, width: int, hole: bool,
                 final: real, vCath: real, vPcb: real)
    requires z < top
    requires mid == if z < width && hole then 0.0 else if layer == z then (if z < width then vPcb else vCath) else before
    requires after == if layer >= z + 1 then final else if z + 1 < width && z + 1 < top && hole then 0.0 else mid
    requires layer == z ==> final == if z >= width then vCath else if hole then 0.0 else vPcb
    ensures after == if layer >= z then final else if z < width && z < top && hole then 0.0 else before
  {
  }

  /** The anode plane on top, seen from one cell: the top layer takes its final value and the layers below keep theirs. */
  lemma TopCell(m: map<Index, real>, shape: Shape, top: int,
                holes: (seq<Entry>, seq<Entry>), vCath: real, vPcb: real, vAn: real, width: int, i: Index)
    requires Shaped(m, shape) && |shape| >= 3 && top == shape[2] as int - 1 && 0 <= top && i in m
    requires PcbPlane(m, shape, top, holes, 1, (vAn, 0.0)).error.None?
    ensures PcbPlane(m, shape, top, holes, 1, (vAn, 0.0)).cells[i] ==
              if i[2] >= top then Final(shape, holes, vCath, vPcb, vAn, width, i) else m[i]
  {
    PcbPlaneCells(m, shape, top, holes, 1, (vAn, 0.0));
    assert InBounds(shape, i);
  }

  /** A plane below the top, seen from one cell: a PCB plane below `width`, a cathode plane from `width` up. */
  lemma LowerPlaneCell(m: map<Index, real>, shape: Shape, z: int, holes: (seq<Entry>, seq<Entry>), vCath: real, vPcb: real,
                       width: int, i: Index)
    requires Shaped(m, shape) && |shape| >= 3 && 0 <= z < shape[2] && i in m
    requires PcbPlane(m, shape, z, holes, if z < width then 0 else 1, (vCath, vPcb)).error.None?
    ensures var o := PcbPlane(m, shape, z, holes, if z < width then 0 else 1, (vCath, vPcb));
            && i in o.cells
            && o.cells[i] == if z < width && InHole(holes, shape, i) then 0.0
                             else if i[2] == z then (if z < width then vPcb else vCath)
                             else m[i]
  {
    PcbPlaneCells(m, shape, z, holes, if z < width then 0 else 1, (vCath, vPcb));
  }

  /**
   * When `draw_3D_pcb` completes, the top layer holds the anode voltage, the
   * layers from `pcb_width` up the cathode voltage, and the layers below both
   * the PCB voltage outside the holes and 0 inside them. (With fewer layers
   * it raises: `PcbNeedsLayers`.)
   */
  lemma PcbLayers(m: map<Index, real>, shape: Shape, r1: int, r2: int, vCath: real, vPcb: real, vAn: real, width: int)
    requires Shaped(m, shape) && |shape| >= 3 && shape[2] >= 1
    requires Pcb3D(m, shape, r1, r2, vCath, vPcb, vAn, width).error.None?
    ensures forall i :: i in m ==>
              Pcb3D(m, shape, r1, r2, vCath, vPcb, vAn, width).cells[i] == Final(shape, Holes(shape, r1, r2), vCath, vPcb, vAn, width, i)
  {
    AllLayers(m, shape, Holes(shape, r1, r2), vCath, vPcb, vAn, width);
  }

  /** `PcbFromCell` from the first plane, where every layer is at or above it. */
  lemma AllLayers(m: map<Index, real>, shape: Shape, holes: (seq<Entry>, seq<Entry>), vCath: real, vPcb: real, vAn: real, width: int)
    requires Shaped(m, shape) && |shape| >= 3 && shape[2] >= 1
    requires PcbFrom(m, shape, 0, shape[2] as int - 1, holes, vCath, vPcb, vAn, width).error.None?
    ensures forall i :: i in m ==>
              PcbFrom(m, shape, 0, shape[2] as int - 1, holes, vCath, vPcb, vAn, width).cells[i] == Final(shape, holes, vCath, vPcb, vAn, width, i)
  {
    forall i | i in m
      ensures PcbFrom(m, shape, 0, shape[2] as int - 1, holes, vCath, vPcb, vAn, width).cells[i] == Final(shape, holes, vCath, vPcb, vAn, width, i)
    {
      PcbFromCell(m, shape, 0, shape[2] as int - 1, holes, vCath, vPcb, vAn, width, i);
      assert InBounds(shape, i);
    }
  }

  /** `draw_3D_pcb` raises `IndexError` on an array with fewer than three axes or an empty third axis. */
  lemma PcbNeedsLayers(m: map<Index, real>, shape: Shape, r1: int, r2: int, vCath: real, vPcb: real, vAn: real, width: int)
    requires Shaped(m, shape) && (|shape| < 3 || shape[2] == 0)
    ensures Pcb3D(m, shape, r1, r2, vCath, vPcb, vAn, width) == Outcome(m, Some(IndexError))
  {
    if |shape| >= 3 {
      NoLayers(m, shape, Holes(shape, r1, r2), vCath, vPcb, vAn, width);
    }
  }

  /** With no layer, the anode plane `-1` is out of range: drawing raises `IndexError` whatever the holes. */
  lemma NoLayers(m: map<Index, real>, shape: Shape, holes: (seq<Entry>, seq<Entry>), vCath: real, vPcb: real, vAn: real, width: int)
    requires Shaped(m, shape) && |shape| >= 3 && shape[2] == 0
    ensures PcbFrom(m, shape, 0, shape[2] as int - 1, holes, vCath, vPcb, vAn, width) == Outcome(m, Some(IndexError))
  {
    assert shape[2] as int - 1 == -1;
    assert !Addressable(PlaneSel(-1), shape);
  }

  // generator

  /** `barr[arr == 0] = 0`: the cells of `b` where `a` holds 0 become 0. */
  function ZeroWhereZero(b: map<Index, real>, a: map<Index, real>): (r: map<Index, real>)
    requires b.Keys == a.Keys
    ensures r.Keys == b.Keys
    ensures forall i :: i in r ==> r[i] == if a[i] == 0.0 then 0.0 else b[i]
  {
    map i | i in b :: if a[i] == 0.0 then 0.0 else b[i]
  }

  /** With nonzero voltages, the mask built from a drawn volume is 0 on the hole cells of the PCB layers and 1 everywhere else. */
  lemma MaskOfLayers(cells: map<Index, real>, mask: map<Index, real>, shape: Shape, holes: (seq<Entry>, seq<Entry>))
    requires Shaped(cells, shape) && |shape| >= 3 && mask.Keys == cells.Keys
    requires forall i :: i in cells ==> cells[i] == Final(shape, holes, GenCathode, GenPcb, GenAnode, GenWidth, i)
    requires forall i :: i in mask ==> mask[i] == if cells[i] == 0.0 then 0.0 else 1.0
    ensures forall i :: i in mask ==>
              mask[i] == if i[2] < GenWidth && i[2] < shape[2] as int - 1 && InHole(holes, shape, i) then 0.0 else 1.0
  {
  }

  /** The hole radius, the cathode, PCB and anode voltages and the PCB thickness `generator` uses. */
  const GenRadius: int := 41
  const GenCathode: real := 2000.0
  const GenPcb: real := -1.0
  const GenAnode: real := -15000.0
  const GenWidth: int := 10

  /**
   * `generator(dom, cfg)` for a domain of shape `shape`: a PCB volume with
   * holes of radius 41, cathode 2000, PCB -1, anode -15000 and a PCB
   * 10 layers thick, and the mask that is 0 exactly where the potential is 0
   * (which `GeneratedMask` locates).
   */
  method Generator(shape: Shape) returns (arr: NdArray, barr: NdArray, err: Option<Error>)
    requires |shape| == 3
    ensures arr.Valid() && barr.Valid() && arr.shape == shape && barr.shape == shape
    ensures Outcome(arr.cells, err) == Pcb3D(Full(shape, 0.0), shape, GenRadius, GenRadius, GenCathode, GenPcb, GenAnode, GenWidth)
    ensures err.None? ==> barr.cells.Keys == arr.cells.Keys
    ensures err.None? ==> forall i :: i in barr.cells ==> barr.cells[i] == if arr.cells[i] == 0.0 then 0.0 else 1.0
  {
    arr := new NdArray.Zeros(shape);
    barr := new NdArray.FromCells(shape, Full(shape, 1.0));
    err := Draw3DPcb(arr, GenRadius, GenRadius, GenCathode, GenPcb, GenAnode, GenWidth);
    if err.Some? {
      return;
    }
    SameKeys(barr.cells, arr.cells, shape);
    barr.cells := ZeroWhereZero(barr.cells, arr.cells);
  }

  /** The mask `generator` returns is 0 on the hole cells of the PCB layers below the top and 1 everywhere else. */
  lemma GeneratedMask(shape: Shape, cells: map<Index, real>, mask: map<Index, real>)
    requires |shape| == 3
    requires Pcb3D(Full(shape, 0.0), shape, GenRadius, GenRadius, GenCathode, GenPcb, GenAnode, GenWidth)
             == Outcome(cells, None)
    requires mask.Keys == cells.Keys && forall i :: i in mask ==> mask[i] == if cells[i] == 0.0 then 0.0 else 1.0
    ensures forall i :: i in mask ==>
              mask[i] == if i[2] < GenWidth && i[2] < shape[2] as int - 1 && InHole(Holes(shape, GenRadius, GenRadius), shape, i) then 0.0 else 1.0
  {
    var m := Full(shape, 0.0);
    if shape[2] == 0 {
      PcbNeedsLayers(m, shape, GenRadius, GenRadius, GenCathode, GenPcb, GenAnode, GenWidth);
      assert false;
    }
    PcbLayers(m, shape, GenRadius, GenRadius, GenCathode, GenPcb, GenAnode, GenWidth);
    MaskOfLayers(cells, mask, shape, Holes(shape, GenRadius, GenRadius));
  }
}

=== FILE: pcb_strips.dfy ===
/**
 * The strip-pattern generator: a quarter tile `q4` (one layer deep) and its
 * mirror image `q1` are laid out like a chessboard over two layers of the
 * boundary mask, `Nstrips` pairs of tile rows long, and one pair of tile rows
 * is also written into the value array on the layer that `plane` picks.
 *
 * Every write is numpy's `arr[rows, cols, z] = q[:, :, 0]`: the block is
 * clamped to the array, `z` may count from the end, and the source is
 * broadcast onto the block (or `ValueError` is raised).
 */
module PcbStrips {
  import opened Wrappers
  import opened NdArrays
  import opened Writes

  // ---------------------------------------------------------------------
  // Mirror images

  /** The multi-index `i` with its coordinate on `axis` counted from the far end of an axis of length `n`. */
  function Flip(i: Index, axis: nat, n: nat): Index
    requires axis < |i|
  {
    i[axis := n - 1 - i[axis]]
  }

  lemma FlipInBounds(shape: Shape, i: Index, axis: nat)
    requires InBounds(shape, i) && axis < |shape|
    ensures InBounds(shape, Flip(i, axis, shape[axis]))
    ensures Flip(Flip(i, axis, shape[axis]), axis, shape[axis]) == i
  {
    UpdateInBounds(shape, i, axis, shape[axis] - 1 - i[axis]);
  }

  lemma FlipsCommute(i: Index, n0: nat, n1: nat)
    requires 2 <= |i|
    ensures Flip(Flip(i, 1, n1), 0, n0) == Flip(Flip(i, 0, n0), 1, n1)
  {
    var a, b := Flip(Flip(i, 1, n1), 0, n0), Flip(Flip(i, 0, n0), 1, n1);
    assert forall d :: 0 <= d < |i| ==> a[d] == b[d];
  }

  /** `result[..., ::-1, ...] = arr`: the cells of `m` reversed along `axis`. */
  function Mirrored(m: map<Index, real>, shape: Shape, axis: nat): (r: map<Index, real>)
    requires Shaped(m, shape) && axis < |shape|
    ensures Shaped(r, shape)
  {
    assert forall i :: i in m ==> Flip(i, axis, shape[axis]) in m by {
      forall i | i in m ensures Flip(i, axis, shape[axis]) in m {
        FlipInBounds(shape, i, axis);
      }
    }
    map i | i in m :: m[Flip(i, axis, shape[axis])]
  }

  /** Cell `i` of the mirror image is the source's cell at `i` flipped. */
  lemma MirroredAt(m: map<Index, real>, shape: Shape, axis: nat, i: Index)
    requires Shaped(m, shape) && axis < |shape| && i in m
    ensures Flip(i, axis, shape[axis]) in m && i in Mirrored(m, shape, axis)
    ensures Mirrored(m, shape, axis)[i] == m[Flip(i, axis, shape[axis])]
  {
    FlipInBounds(shape, i, axis);
  }

  /** Each cell of the source reappears at its flipped position. */
  lemma MirroredMoves(m: map<Index, real>, shape: Shape, axis: nat, i: Index)
    requires Shaped(m, shape) && axis < |shape| && i in m
    ensures Flip(i, axis, shape[axis]) in Mirrored(m, shape, axis)
    ensures Mirrored(m, shape, axis)[Flip(i, axis, shape[axis])] == m[i]
  {
    FlipInBounds(shape, i, axis);
  }

  /** Mirroring twice along the same axis gives back the array. */
  lemma MirroredTwice(m: map<Index, real>, shape: Shape, axis: nat)
    requires Shaped(m, shape) && axis < |shape|
    ensures Mirrored(Mirrored(m, shape, axis), shape, axis) == m
  {
    var once := Mirrored(m, shape, axis);
    var twice := Mirrored(once, shape, axis);
    SameKeys(twice, m, shape);
    forall i | i in m ensures twice[i] == m[i] {
      MirroredAt(m, shape, axis, i);
      MirroredAt(m, shape, axis, Flip(i, axis, shape[axis]));
      FlipInBounds(shape, i, axis);
    }
  }

  /** Mirroring along the first axis and along the second can be done in either order. */
  lemma MirrorsCommute(m: map<Index, real>, shape: Shape)
    requires Shaped(m, shape) && 2 <= |shape|
    ensures Mirrored(Mirrored(m, shape, 0), shape, 1) == Mirrored(Mirrored(m, shape, 1), shape, 0)
  {
    var xy := Mirrored(Mirrored(m, shape, 0), shape, 1);
    var yx := Mirrored(Mirrored(m, shape, 1), shape, 0);
    SameKeys(xy, yx, shape);
    SameKeys(xy, m, shape);
    forall i | i in m ensures xy[i] == yx[i] {
      var a, b := Flip(i, 1, shape[1]), Flip(i, 0, shape[0]);
      MirroredAt(m, shape, 0, i);
      MirroredAt(m, shape, 1, i);
      MirroredAt(Mirrored(m, shape, 0), shape, 1, i);
      MirroredAt(Mirrored(m, shape, 1), shape, 0, i);
      MirroredAt(m, shape, 0, a);
      MirroredAt(m, shape, 1, b);
      FlipsCommute(i, shape[0], shape[1]);
    }
  }

  /** `mirror_arr_yaxis`: a new array holding `arr` reversed along its second axis; an array of rank below 2 raises `IndexError`. */
  method MirrorArrYAxis(arr: NdArray) returns (result: Result<NdArray>)
    requires arr.Valid()
    ensures result.Err? <==> |arr.shape| < 2
    ensures result.Err? ==> result.error == IndexError
    ensures result.Ok? ==> fresh(result.value) && result.value.Valid() && result.value.shape == arr.shape
                           && result.value.cells == Mirrored(arr.cells, arr.shape, 1)
  {
    if |arr.shape| < 2 {
      return Err(IndexError);
    }
    var mirrored := new NdArray.FromCells(arr.shape, Mirrored(arr.cells, arr.shape, 1));
    return Ok(mirrored);
  }

  /** `mirror_arr_xaxis`: a new array holding `arr` reversed along its first axis; an array of rank below 2 raises `IndexError`. */
  method MirrorArrXAxis(arr: NdArray) returns (result: Result<NdArray>)
    requires arr.Valid()
    ensures result.Err? <==> |arr.shape| < 2
    ensures result.Err? ==> result.error == IndexError
    ensures result.Ok? ==> fresh(result.value) && result.value.Valid() && result.value.shape == arr.shape
                           && result.value.cells == Mirrored(arr.cells, arr.shape, 0)
  {
    if |arr.shape| < 2 {
      return Err(IndexError);
    }
    var mirrored := new NdArray.FromCells(arr.shape, Mirrored(arr.cells, arr.shape, 0));
    return Ok(mirrored);
  }

  // ---------------------------------------------------------------------
  // One block write: arr[rows, cols, z] = q[:, :, 0]

  /** Cell `i` lies in the block `[rows, cols, z]` of an array of rank 3 and shape `shape`. */
  predicate InBlock(shape: Shape, rows: Slice, cols: Slice, z: int, i: Index) {
    |shape| == 3 && |i| == 3
    && Range(rows, shape[0]).0 <= i[0] < Range(rows, shape[0]).1
    && Range(cols, shape[1]).0 <= i[1] < Range(cols, shape[1]).1
    && Position(z, shape[2]) == Some(i[2])
  }

  /** The number of positions slice `s` selects on an axis of length `n`. */
  function Len(s: Slice, n: nat): nat {
    Range(s, n).1 - Range(s, n).0
  }

  /** `q[:, :, 0]`, of shape `(X, Y)`, broadcasts onto the block: each of its axes matches the block's or has length 1. */
  predicate Broadcasts(shape: Shape, rows: Slice, cols: Slice, qshape: Shape)
    requires 2 <= |shape| && 2 <= |qshape|
  {
    (qshape[0] == Len(rows, shape[0]) || qshape[0] == 1) && (qshape[1] == Len(cols, shape[1]) || qshape[1] == 1)
  }

  /** The position read from a source axis of length `len` at offset `k` into the block: a length-1 axis is stretched. */
  function Stretch(k: int, len: nat): int {
    if len == 1 then 0 else k
  }

  /** The cell of `q` that broadcasting copies to cell `i` of the block. */
  function Source(shape: Shape, rows: Slice, cols: Slice, qshape: Shape, i: Index): Index
    requires 2 <= |shape| && 2 <= |qshape| && 2 <= |i|
  {
    [Stretch(i[0] - Range(rows, shape[0]).0, qshape[0]), Stretch(i[1] - Range(cols, shape[1]).0, qshape[1]), 0]
  }

  lemma SourceInBounds(shape: Shape, rows: Slice, cols: Slice, z: int, qshape: Shape, i: Index)
    requires |shape| == 3 == |qshape| && 0 < qshape[2]
    requires Broadcasts(shape, rows, cols, qshape) && InBlock(shape, rows, cols, z, i)
    ensures InBounds(qshape, Source(shape, rows, cols, qshape, i))
  {
  }

  /**
   * `arr[rows, cols, z] = q[:, :, 0]`. Reading `q[:, :, 0]` raises
   * `IndexError` when `q` has no layer; a layer `z` outside the array raises
   * `IndexError`; a source that does not broadcast onto the block raises
   * `ValueError`. Each raises before any cell is written.
   */
  function Paste(m: map<Index, real>, shape: Shape, rows: Slice, cols: Slice, z: int,
                 q: map<Index, real>, qshape: Shape): (r: Outcome)
    requires |shape| == 3 && Shaped(q, qshape) && |qshape| == 3
    ensures r.cells.Keys == m.Keys
    ensures r.error.None? <==> 0 < qshape[2] && Position(z, shape[2]).Some? && Broadcasts(shape, rows, cols, qshape)
    ensures r.error.Some? ==> r.cells == m
    ensures r.error.Some? ==> r.error.value == if 0 < qshape[2] && Position(z, shape[2]).Some?
                                              then ValueError("could not broadcast input array") else IndexError
  {
    if qshape[2] == 0 || Position(z, shape[2]).None? then Outcome(m, Some(IndexError))
    else if !Broadcasts(shape, rows, cols, qshape) then Outcome(m, Some(ValueError("could not broadcast input array")))
    else
      assert forall i :: i in m && InBlock(shape, rows, cols, z, i) ==> Source(shape, rows, cols, qshape, i) in q by {
        forall i | i in m && InBlock(shape, rows, cols, z, i) ensures Source(shape, rows, cols, qshape, i) in q {
          SourceInBounds(shape, rows, cols, z, qshape, i);
        }
      }
      Outcome(map i | i in m :: if InBlock(shape, rows, cols, z, i) then q[Source(shape, rows, cols, qshape, i)] else m[i], None)
  }

  /** A successful write, seen from one cell: a cell of the block takes the source cell broadcasting maps to it, any other keeps its value. */
  lemma PasteAt(m: map<Index, real>, shape: Shape, rows: Slice, cols: Slice, z: int,
                q: map<Index, real>, qshape: Shape, i: Index)
    requires |shape| == 3 && Shaped(q, qshape) && |qshape| == 3 && i in m
    requires Paste(m, shape, rows, cols, z, q, qshape).error.None?
    ensures InBlock(shape, rows, cols, z, i) ==> Source(shape, rows, cols, qshape, i) in q
    ensures Paste(m, shape, rows, cols, z, q, qshape).cells[i]
            == if InBlock(shape, rows, cols, z, i) then q[Source(shape, rows, cols, qshape, i)] else m[i]
  {
    if InBlock(shape, rows, cols, z, i) {
      SourceInBounds(shape, rows, cols, z, qshape, i);
    }
  }

  // ---------------------------------------------------------------------
  // Sequences of writes

  /** One write `arr[rows, cols, z] = q[:, :, 0]`, from the mirrored quarter `q1` or from `q4`. */
  datatype Write = Write(rows: Slice, cols: Slice, z: int, mirrored: bool)

  /** Two quarters of the same shape. */
  ghost predicate Quarters(q1: map<Index, real>, q4: map<Index, real>, qshape: Shape) {
    |qshape| == 3 && Shaped(q1, qshape) && Shaped(q4, qshape)
  }

  /** Carrying out write `w`. */
  function RunOne(m: map<Index, real>, shape: Shape, w: Write, q1: map<Index, real>, q4: map<Index, real>, qshape: Shape): Outcome
    requires |shape| == 3 && Quarters(q1, q4, qshape)
  {
    Paste(m, shape, w.rows, w.cols, w.z, if w.mirrored then q1 else q4, qshape)
  }

  /** Carrying out the writes `ws` in order; the first that raises stops the rest. */
  function Run(m: map<Index, real>, shape: Shape, ws: seq<Write>, q1: map<Index, real>, q4: map<Index, real>, qshape: Shape): (r: Outcome)
    requires |shape| == 3 && Quarters(q1, q4, qshape)
    ensures r.cells.Keys == m.Keys
    decreases |ws|
  {
    if ws == [] then Outcome(m, None)
    else
      var o := RunOne(m, shape, ws[0], q1, q4, qshape);
      if o.error.Some? then o else Run(o.cells, shape, ws[1..], q1, q4, qshape)
  }

  /** The value cell `i` holds after write `w` when it held `v` before and the write does not raise. */
  function Step(shape: Shape, w: Write, q1: map<Index, real>, q4: map<Index, real>, qshape: Shape, i: Index, v: real): real
    requires |shape| == 3 && Quarters(q1, q4, qshape)
  {
    var q := if w.mirrored then q1 else q4;
    if InBlock(shape, w.rows, w.cols, w.z, i) && Source(shape, w.rows, w.cols, qshape, i) in q
    then q[Source(shape, w.rows, w.cols, qshape, i)] else v
  }

  /** The value cell `i` holds after the writes `ws` when it held `v` before and none of them raises. */
  function CellAfter(shape: Shape, ws: seq<Write>, q1: map<Index, real>, q4: map<Index, real>, qshape: Shape, i: Index, v: real): real
    requires |shape| == 3 && Quarters(q1, q4, qshape)
    decreases |ws|
  {
    if ws == [] then v else CellAfter(shape, ws[1..], q1, q4, qshape, i, Step(shape, ws[0], q1, q4, qshape, i, v))
  }

  /** A write that does not raise changes each cell as `Step` says. */
  lemma RunOneAt(m: map<Index, real>, shape: Shape, w: Write, q1: map<Index, real>, q4: map<Index, real>, qshape: Shape, i: Index)
    requires |shape| == 3 && Quarters(q1, q4, qshape) && i in m
    requires RunOne(m, shape, w, q1, q4, qshape).error.None?
    ensures RunOne(m, shape, w, q1, q4, qshape).cells[i] == Step(shape, w, q1, q4, qshape, i, m[i])
  {
    PasteAt(m, shape, w.rows, w.cols, w.z, if w.mirrored then q1 else q4, qshape, i);
  }

  /** Writes that do not raise leave each cell holding what `CellAfter` says. */
  lemma {:induction false} RunCell(m: map<Index, real>, shape: Shape, ws: seq<Write>,
                                   q1: map<Index, real>, q4: map<Index, real>, qshape: Shape, i: Index)
    requires |shape| == 3 && Quarters(q1, q4, qshape) && i in m
    requires Run(m, shape, ws, q1, q4, qshape).error.None?
    ensures Run(m, shape, ws, q1, q4, qshape).cells[i] == CellAfter(shape, ws, q1, q4, qshape, i, m[i])
    decreases |ws|
  {
    if ws != [] {
      var o := RunOne(m, shape, ws[0], q1, q4, qshape);
      RunOneAt(m, shape, ws[0], q1, q4, qshape, i);
      RunCell(o.cells, shape, ws[1..], q1, q4, qshape, i);
    }
  }

  /** Running two sequences of writes one after the other is running their concatenation. */
  lemma {:induction false} RunAppend(m: map<Index, real>, shape: Shape, ws1: seq<Write>, ws2: seq<Write>,
                                     q1: map<Index, real>, q4: map<Index, real>, qshape: Shape)
    requires |shape| == 3 && Quarters(q1, q4, qshape)
    ensures Run(m, shape, ws1 + ws2, q1, q4, qshape)
            == if Run(m, shape, ws1, q1, q4, qshape).error.Some? then Run(m, shape, ws1, q1, q4, qshape)
               else Run(Run(m, shape, ws1, q1, q4, qshape).cells, shape, ws2, q1, q4, qshape)
    decreases |ws1|
  {
    if ws1 == [] {
      assert ws1 + ws2 == ws2;
    } else {
      assert (ws1 + ws2)[0] == ws1[0];
      assert (ws1 + ws2)[1..] == ws1[1..] + ws2;
      var o := RunOne(m, shape, ws1[0], q1, q4, qshape);
      if o.error.None? {
        RunAppend(o.cells, shape, ws1[1..], ws2, q1, q4, qshape);
      }
    }
  }

  /** A cell's value after two sequences of writes is its value after the first, carried through the second. */
  lemma {:induction false} CellAfterAppend(shape: Shape, ws1: seq<Write>, ws2: seq<Write>,
                                           q1: map<Index, real>, q4: map<Index, real>, qshape: Shape, i: Index, v: real)
    requires |shape| == 3 && Quarters(q1, q4, qshape)
    ensures CellAfter(shape, ws1 + ws2, q1, q4, qshape, i, v)
            == CellAfter(shape, ws2, q1, q4, qshape, i, CellAfter(shape, ws1, q1, q4, qshape, i, v))
    decreases |ws1|
  {
    if ws1 == [] {
      assert ws1 + ws2 == ws2;
    } else {
      assert (ws1 + ws2)[0] == ws1[0];
      assert (ws1 + ws2)[1..] == ws1[1..] + ws2;
      CellAfterAppend(shape, ws1[1..], ws2, q1, q4, qshape, i, Step(shape, ws1[0], q1, q4, qshape, i, v));
    }
  }

  /** Writes none of which is on the layer of cell `i` leave that cell alone, whether or not one raises. */
  lemma {:induction false} RunMiss(m: map<Index, real>, shape: Shape, ws: seq<Write>,
                                   q1: map<Index, real>, q4: map<Index, real>, qshape: Shape, i: Index)
    requires |shape| == 3 && Quarters(q1, q4, qshape) && i in m && |i| == 3
    requires forall k :: 0 <= k < |ws| ==> Position(ws[k].z, shape[2]) != Some(i[2])
    ensures Run(m, shape, ws, q1, q4, qshape).cells[i] == m[i]
    decreases |ws|
  {
    if ws != [] {
      var o := RunOne(m, shape, ws[0], q1, q4, qshape);
      if o.error.None? {
        RunOneAt(m, shape, ws[0], q1, q4, qshape, i);
        RunMiss(o.cells, shape, ws[1..], q1, q4, qshape, i);
      }
    }
  }

  /** Writes that do not raise, at least one of them, have read `q[:, :, 0]`, so the quarters have a layer. */
  lemma RunNeedsLayer(m: map<Index, real>, shape: Shape, ws: seq<Write>, q1: map<Index, real>, q4: map<Index, real>, qshape: Shape)
    requires |shape| == 3 && Quarters(q1, q4, qshape) && ws != []
    requires Run(m, shape, ws, q1, q4, qshape).error.None?
    ensures 0 < qshape[2]
  {
  }

  // ---------------------------------------------------------------------
  // Tiles

  /**
   * The four writes of two rows of quarters starting at row `r0` on layer
   * `z`, in the order the generator makes them: the mirrored quarter and
   * then the quarter side by side, and below them the quarter and then the
   * mirrored quarter.
   */
  function TileWrites(r0: int, z: int, x: nat, y: nat): seq<Write> {
    [Write(Slice(r0, r0 + x), Slice(0, y), z, true),
     Write(Slice(r0, r0 + x), Slice(y, 2 * y), z, false),
     Write(Slice(r0 + x, r0 + 2 * x), Slice(0, y), z, false),
     Write(Slice(r0 + x, r0 + 2 * x), Slice(y, 2 * y), z, true)]
  }

  /** Cell `i` of an array of rank 3 and shape `shape`. */
  predicate Inside(shape: Shape, i: Index) {
    |shape| == 3 && |i| == 3 && 0 <= i[0] < shape[0] && 0 <= i[1] < shape[1] && 0 <= i[2] < shape[2]
  }

  /**
   * One quarter-sized write `w`, seen from a cell of the array: inside the
   * block on layer `w.z` the cell takes the quarter's cell at the same
   * offset, elsewhere it keeps its value.
   */
  lemma StepCell(shape: Shape, w: Write, q1: map<Index, real>, q4: map<Index, real>, qshape: Shape, i: Index, v: real)
    requires Quarters(q1, q4, qshape) && 0 < qshape[2] && Inside(shape, i)
    requires 0 <= w.rows.start && w.rows.stop == w.rows.start + qshape[0]
    requires 0 <= w.cols.start && w.cols.stop == w.cols.start + qshape[1]
    ensures Step(shape, w, q1, q4, qshape, i, v)
            == if Position(w.z, shape[2]) == Some(i[2]) && w.rows.start <= i[0] < w.rows.stop && w.cols.start <= i[1] < w.cols.stop
               then (if w.mirrored then q1 else q4)[[i[0] - w.rows.start, i[1] - w.cols.start, 0]] else v
  {
    var r0, c0 := w.rows.start, w.cols.start;
    assert InBounds(qshape, [i[0] - r0, i[1] - c0, 0]) <==> 0 <= i[0] - r0 < qshape[0] && 0 <= i[1] - c0 < qshape[1];
    if r0 <= i[0] < r0 + qshape[0] && c0 <= i[1] < c0 + qshape[1] {
      assert Range(w.rows, shape[0]).0 == r0 && Range(w.cols, shape[1]).0 == c0;
      assert Source(shape, w.rows, w.cols, qshape, i) == [i[0] - r0, i[1] - c0, 0];
    }
  }

  /**
   * The value a tile starting at row `r0` puts at cell `i` of its two rows
   * and two columns of quarters: the cell at the offset of `i` within its
   * quarter, read from the mirrored quarter `q1` on the upper left and lower
   * right and from `q4` elsewhere.
   */
  function TileValue(q1: map<Index, real>, q4: map<Index, real>, qshape: Shape, r0: int, i: Index): real
    requires Quarters(q1, q4, qshape)
    requires |i| >= 2 && r0 <= i[0] < r0 + 2 * qshape[0] && 0 <= i[1] < 2 * qshape[1] && 0 < qshape[2]
  {
    var x, y := qshape[0], qshape[1];
    var top, left := i[0] < r0 + x, i[1] < y;
    var src := [if top then i[0] - r0 else i[0] - r0 - x, if left then i[1] else i[1] - y, 0];
    assert InBounds(qshape, src);
    if top == left then q1[src] else q4[src]
  }

  lemma CellAfterTile(shape: Shape, r0: int, z: int, q1: map<Index, real>, q4: map<Index, real>, qshape: Shape, i: Index, v: real)
    requires |shape| == 3 && Quarters(q1, q4, qshape)
    ensures var ws := TileWrites(r0, z, qshape[0], qshape[1]);
            CellAfter(shape, ws, q1, q4, qshape, i, v)
            == Step(shape, ws[3], q1, q4, qshape, i, Step(shape, ws[2], q1, q4, qshape, i,
                 Step(shape, ws[1], q1, q4, qshape, i, Step(shape, ws[0], q1, q4, qshape, i, v))))
  {
    var ws := TileWrites(r0, z, qshape[0], qshape[1]);
    var v1 := Step(shape, ws[0], q1, q4, qshape, i, v);
    var v2 := Step(shape, ws[1], q1, q4, qshape, i, v1);
    var v3 := Step(shape, ws[2], q1, q4, qshape, i, v2);
    assert ws[1..][0] == ws[1] && ws[1..][1..] == ws[2..];
    assert ws[2..][0] == ws[2] && ws[2..][1..] == ws[3..];
    assert ws[3..][0] == ws[3] && ws[3..][1..] == [];
    assert CellAfter(shape, ws, q1, q4, qshape, i, v) == CellAfter(shape, ws[1..], q1, q4, qshape, i, v1);
    assert CellAfter(shape, ws[1..], q1, q4, qshape, i, v1) == CellAfter(shape, ws[2..], q1, q4, qshape, i, v2);
    assert CellAfter(shape, ws[2..], q1, q4, qshape, i, v2) == CellAfter(shape, ws[3..], q1, q4, qshape, i, v3);
  }

  /**
   * The writes of a tile starting at row `r0` on layer `z`, seen from one
   * cell: the cells of its two rows and two columns of quarters on layer `z`
   * take the tile's values; the rest keep theirs.
   */
  lemma TileCell(shape: Shape, r0: int, z: int, q1: map<Index, real>, q4: map<Index, real>, qshape: Shape, i: Index, v: real)
    requires Quarters(q1, q4, qshape) && 0 < qshape[2] && Inside(shape, i) && 0 <= r0
    ensures CellAfter(shape, TileWrites(r0, z, qshape[0], qshape[1]), q1, q4, qshape, i, v)
            == if Position(z, shape[2]) == Some(i[2]) && r0 <= i[0] < r0 + 2 * qshape[0] && 0 <= i[1] < 2 * qshape[1]
               then TileValue(q1, q4, qshape, r0, i) else v
  {
    var ws := TileWrites(r0, z, qshape[0], qshape[1]);
    CellAfterTile(shape, r0, z, q1, q4, qshape, i, v);
    var v1 := Step(shape, ws[0], q1, q4, qshape, i, v);
    var v2 := Step(shape, ws[1], q1, q4, qshape, i, v1);
    var v3 := Step(shape, ws[2], q1, q4, qshape, i, v2);
    StepCell(shape, ws[0], q1, q4, qshape, i, v);
    StepCell(shape, ws[1], q1, q4, qshape, i, v1);
    StepCell(shape, ws[2], q1, q4, qshape, i, v2);
    StepCell(shape, ws[3], q1, q4, qshape, i, v3);
  }

  /**
   * The chessboard the tiles make, on rows of quarters counted from `base`:
   * cell `i` lies in quarter row `i[0] / X` and quarter column `i[1] / Y`
   * (0 or 1), and holds the cell at the same offset of the mirrored quarter
   * `q1` when the quarter row (counted from `base`) and column have the same
   * parity, of `q4` otherwise.
   */
  function Pattern(q1: map<Index, real>, q4: map<Index, real>, qshape: Shape, base: int, i: Index): real
    requires Quarters(q1, q4, qshape) && 0 < qshape[0] && 0 < qshape[2]
    requires |i| >= 2 && 0 <= i[1] < 2 * qshape[1]
  {
    var x, y := qshape[0], qshape[1];
    var left := i[1] < y;
    var src := [i[0] % x, if left then i[1] else i[1] - y, 0];
    assert InBounds(qshape, src);
    if ((i[0] / x - base) % 2 == 0) == left then q1[src] else q4[src]
  }

  /** Row `a` lies in quarter row `s` of height `x` exactly when `a / x == s`, at offset `a % x`. */
  lemma QuarterRow(a: int, x: int, s: int)
    requires 0 < x
    ensures s * x <= a < s * x + x <==> a / x == s
    ensures s * x <= a < s * x + x ==> a % x == a - s * x
  {
    var q := a / x;
    assert a == q * x + a % x;
    if q < s {
      assert q * x <= (s - 1) * x;
    } else if q > s {
      assert (s + 1) * x <= q * x;
    }
  }

  /** Row `a` lies in the two quarter rows from `s` exactly when `s <= a / x < s + 2`. */
  lemma TileRows(a: int, x: int, s: int)
    requires 0 < x
    ensures s * x <= a < s * x + 2 * x <==> s <= a / x < s + 2
    ensures s * x + x <= a < s * x + 2 * x ==> a / x == s + 1 && a % x == a - s * x - x
    ensures s * x <= a < s * x + x ==> a / x == s && a % x == a - s * x
  {
    QuarterRow(a, x, s);
    QuarterRow(a, x, s + 1);
    assert (s + 1) * x == s * x + x;
  }

  /** A tile starting at quarter row `s` puts the chessboard counted from `s` on its cells. */
  lemma TileOnPattern(q1: map<Index, real>, q4: map<Index, real>, qshape: Shape, s: int, i: Index)
    requires Quarters(q1, q4, qshape) && 0 < qshape[0] && 0 < qshape[2]
    requires |i| >= 2 && s * qshape[0] <= i[0] < s * qshape[0] + 2 * qshape[0] && 0 <= i[1] < 2 * qshape[1]
    ensures TileValue(q1, q4, qshape, s * qshape[0], i) == Pattern(q1, q4, qshape, s, i)
  {
    var x, y := qshape[0], qshape[1];
    TileRows(i[0], x, s);
    var top := i[0] < s * x + x;
    var src := [if top then i[0] - s * x else i[0] - s * x - x, if i[1] < y then i[1] else i[1] - y, 0];
    assert [i[0] % x, if i[1] < y then i[1] else i[1] - y, 0] == src;
    assert (i[0] / x - s) % 2 == 0 <==> top;
  }

  /**
   * The writes of a tile starting at quarter row `s` on layer `z`, seen from
   * one cell: quarter rows `s` and `s + 1` of the first two quarter columns
   * on layer `z` hold the chessboard counted from `s`; the rest keep their
   * values.
   */
  lemma TilePattern(shape: Shape, s: int, z: int, q1: map<Index, real>, q4: map<Index, real>, qshape: Shape, i: Index, v: real)
    requires Quarters(q1, q4, qshape) && 0 < qshape[0] && 0 < qshape[2] && Inside(shape, i) && 0 <= s
    ensures CellAfter(shape, TileWrites(s * qshape[0], z, qshape[0], qshape[1]), q1, q4, qshape, i, v)
            == if Position(z, shape[2]) == Some(i[2]) && s <= i[0] / qshape[0] < s + 2 && 0 <= i[1] < 2 * qshape[1]
               then Pattern(q1, q4, qshape, s, i) else v
  {
    TileCell(shape, s * qshape[0], z, q1, q4, qshape, i, v);
    TileRows(i[0], qshape[0], s);
    if Position(z, shape[2]) == Some(i[2]) && s <= i[0] / qshape[0] < s + 2 && 0 <= i[1] < 2 * qshape[1] {
      TileOnPattern(q1, q4, qshape, s, i);
    }
  }

  // ---------------------------------------------------------------------
  // Strips

  /** Cell `i` lies on the lower or the upper layer of the strips. */
  predicate OnStripLayers(shape: Shape, low: int, width: int, i: Index)
    requires |shape| == 3 && |i| == 3
  {
    Position(low, shape[2]) == Some(i[2]) || Position(low + width, shape[2]) == Some(i[2])
  }

  /**
   * The writes of the loop over `s` in `s, s + 2, ..., 2 * n - 2`: a tile of
   * quarter rows `s` and `s + 1` on layer `low`, then the same on layer
   * `low + width`.
   */
  function StripWrites(s: int, n: int, low: int, width: int, x: nat, y: nat): (r: seq<Write>)
    ensures forall k :: 0 <= k < |r| ==> r[k].z == low || r[k].z == low + width
    decreases 2 * n - s
  {
    if s >= 2 * n then []
    else TileWrites(s * x, low, x, y) + TileWrites(s * x, low + width, x, y) + StripWrites(s + 2, n, low, width, x, y)
  }

  /**
   * The strip writes from quarter row `s` on, seen from one cell: the cells
   * of the two strip layers in quarter rows `s` to `2 * n - 1` and the first
   * two quarter columns hold the chessboard; the rest keep their values.
   */
  lemma {:induction false} StripsCell(shape: Shape, s: int, n: int, low: int, width: int,
                                      q1: map<Index, real>, q4: map<Index, real>, qshape: Shape, i: Index, v: real)
    requires Quarters(q1, q4, qshape) && 0 < qshape[0] && 0 < qshape[2] && Inside(shape, i)
    requires 0 <= s && s % 2 == 0
    ensures CellAfter(shape, StripWrites(s, n, low, width, qshape[0], qshape[1]), q1, q4, qshape, i, v)
            == if OnStripLayers(shape, low, width, i) && s <= i[0] / qshape[0] < 2 * n && 0 <= i[1] < 2 * qshape[1]
               then Pattern(q1, q4, qshape, 0, i) else v
    decreases 2 * n - s
  {
    if s < 2 * n {
      var x, y := qshape[0], qshape[1];
      var lower, upper, rest := TileWrites(s * x, low, x, y), TileWrites(s * x, low + width, x, y), StripWrites(s + 2, n, low, width, x, y);
      CellAfterAppend(shape, lower + upper, rest, q1, q4, qshape, i, v);
      CellAfterAppend(shape, lower, upper, q1, q4, qshape, i, v);
      var v1 := CellAfter(shape, lower, q1, q4, qshape, i, v);
      TilePattern(shape, s, low, q1, q4, qshape, i, v);
      TilePattern(shape, s, low + width, q1, q4, qshape, i, v1);
      StripsCell(shape, s + 2, n, low, width, q1, q4, qshape, i, CellAfter(shape, upper, q1, q4, qshape, i, v1));
      if s <= i[0] / x < s + 2 && 0 <= i[1] < 2 * y {
        assert (i[0] / x - s) % 2 == (i[0] / x) % 2;
      }
    }
  }

  // ---------------------------------------------------------------------
  // draw_3Dstrips

  /** The value array and the boundary mask after `draw_3Dstrips`, and the exception it raised, if any. */
  datatype StripsOutcome = StripsOutcome(arr: map<Index, real>, barr: map<Index, real>, error: Option<Error>)

  /** The layer of the value array that `plane` selects: 0 the upper strip layer, 1 the lower one, anything else none. */
  function PlaneLayer(plane: int, low: int, width: int): Option<int> {
    if plane == 0 then Some(low + width) else if plane == 1 then Some(low) else None
  }

  /**
   * The writes of `draw_3Dstrips` once the quarters `q1` (mirrored) and `q4`
   * are at hand: the strips go into the mask and, if `plane` selects a
   * layer, quarter rows `n - 1` and `n` go into the value array on that
   * layer.
   */
  function StripsWith(a: map<Index, real>, ashape: Shape, b: map<Index, real>, bshape: Shape,
                      q1: map<Index, real>, q4: map<Index, real>, qshape: Shape, n: int, low: int, width: int, plane: int): (r: StripsOutcome)
    requires |ashape| == 3 && |bshape| == 3 && Quarters(q1, q4, qshape)
    ensures r.arr.Keys == a.Keys && r.barr.Keys == b.Keys
  {
    var ob := Run(b, bshape, StripWrites(0, n, low, width, qshape[0], qshape[1]), q1, q4, qshape);
    if ob.error.Some? then StripsOutcome(a, ob.cells, ob.error)
    else match PlaneLayer(plane, low, width)
      case None => StripsOutcome(a, ob.cells, None)
      case Some(z) =>
        var oa := Run(a, ashape, TileWrites((n - 1) * qshape[0], z, qshape[0], qshape[1]), q1, q4, qshape);
        StripsOutcome(oa.cells, ob.cells, oa.error)
  }

  /**
   * `draw_3Dstrips(arr, barr, q4, n, low, width, plane)` on arrays of rank 3:
   * a quarter with no rows raises `IndexError` (`len(q4[0])`); otherwise the
   * writes of `StripsWith` with the quarter mirrored left to right.
   */
  function Strips3D(a: map<Index, real>, ashape: Shape, b: map<Index, real>, bshape: Shape,
                    q4: map<Index, real>, qshape: Shape, n: int, low: int, width: int, plane: int): (r: StripsOutcome)
    requires |ashape| == 3 && |bshape| == 3 && Shaped(q4, qshape) && |qshape| == 3
    ensures r.arr.Keys == a.Keys && r.barr.Keys == b.Keys
  {
    if qshape[0] == 0 then StripsOutcome(a, b, Some(IndexError))
    else StripsWith(a, ashape, b, bshape, Mirrored(q4, qshape, 1), q4, qshape, n, low, width, plane)
  }

  /** The mask after a successful `StripsWith` with at least one pair of strips holds the chessboard on the strips. */
  lemma MaskCell(a: map<Index, real>, ashape: Shape, b: map<Index, real>, bshape: Shape,
                 q1: map<Index, real>, q4: map<Index, real>, qshape: Shape, n: int, low: int, width: int, plane: int, i: Index)
    requires |ashape| == 3 && Shaped(b, bshape) && |bshape| == 3 && Quarters(q1, q4, qshape) && 0 < qshape[0]
    requires StripsWith(a, ashape, b, bshape, q1, q4, qshape, n, low, width, plane).error.None?
    requires 1 <= n && i in b
    ensures 0 < qshape[2]
    ensures StripsWith(a, ashape, b, bshape, q1, q4, qshape, n, low, width, plane).barr[i]
            == if OnStripLayers(bshape, low, width, i) && 0 <= i[0] / qshape[0] < 2 * n && 0 <= i[1] < 2 * qshape[1]
               then Pattern(q1, q4, qshape, 0, i) else b[i]
  {
    var ws := StripWrites(0, n, low, width, qshape[0], qshape[1]);
    assert ws != [];
    MaskRun(a, ashape, b, bshape, q1, q4, qshape, n, low, width, plane);
    RunNeedsLayer(b, bshape, ws, q1, q4, qshape);
    RunCell(b, bshape, ws, q1, q4, qshape, i);
    assert InBounds(bshape, i);
    assert Inside(bshape, i);
    StripsCell(bshape, 0, n, low, width, q1, q4, qshape, i, b[i]);
  }

  /** A successful `StripsWith` leaves the mask as its strip writes make it. */
  lemma MaskRun(a: map<Index, real>, ashape: Shape, b: map<Index, real>, bshape: Shape,
                q1: map<Index, real>, q4: map<Index, real>, qshape: Shape, n: int, low: int, width: int, plane: int)
    requires |ashape| == 3 && |bshape| == 3 && Quarters(q1, q4, qshape)
    requires StripsWith(a, ashape, b, bshape, q1, q4, qshape, n, low, width, plane).error.None?
    ensures Run(b, bshape, StripWrites(0, n, low, width, qshape[0], qshape[1]), q1, q4, qshape).error.None?
    ensures StripsWith(a, ashape, b, bshape, q1, q4, qshape, n, low, width, plane).barr
            == Run(b, bshape, StripWrites(0, n, low, width, qshape[0], qshape[1]), q1, q4, qshape).cells
  {
  }

  /** The value array after a successful `StripsWith` holds the last two quarter rows on the selected layer. */
  lemma ValueCell(a: map<Index, real>, ashape: Shape, b: map<Index, real>, bshape: Shape,
                  q1: map<Index, real>, q4: map<Index, real>, qshape: Shape, n: int, low: int, width: int, plane: int, i: Index)
    requires Shaped(a, ashape) && |ashape| == 3 && |bshape| == 3 && Quarters(q1, q4, qshape) && 0 < qshape[0]
    requires StripsWith(a, ashape, b, bshape, q1, q4, qshape, n, low, width, plane).error.None?
    requires 1 <= n && i in a
    ensures 0 < qshape[2]
    ensures StripsWith(a, ashape, b, bshape, q1, q4, qshape, n, low, width, plane).arr[i]
            == if PlaneLayer(plane, low, width).Some? && Position(PlaneLayer(plane, low, width).value, ashape[2]) == Some(i[2])
                  && n - 1 <= i[0] / qshape[0] < n + 1 && 0 <= i[1] < 2 * qshape[1]
               then Pattern(q1, q4, qshape, n - 1, i) else a[i]
  {
    var ws := StripWrites(0, n, low, width, qshape[0], qshape[1]);
    assert ws != [];
    MaskRun(a, ashape, b, bshape, q1, q4, qshape, n, low, width, plane);
    RunNeedsLayer(b, bshape, ws, q1, q4, qshape);
    ValueRun(a, ashape, b, bshape, q1, q4, qshape, n, low, width, plane);
    if PlaneLayer(plane, low, width).Some? {
      var z := PlaneLayer(plane, low, width).value;
      RunCell(a, ashape, TileWrites((n - 1) * qshape[0], z, qshape[0], qshape[1]), q1, q4, qshape, i);
      assert InBounds(ashape, i);
      assert Inside(ashape, i);
      TilePattern(ashape, n - 1, z, q1, q4, qshape, i, a[i]);
      assert n - 1 + 2 == n + 1;
    }
  }

  /** A successful `StripsWith` leaves the value array as the writes on the selected layer make it. */
  lemma ValueRun(a: map<Index, real>, ashape: Shape, b: map<Index, real>, bshape: Shape,
                 q1: map<Index, real>, q4: map<Index, real>, qshape: Shape, n: int, low: int, width: int, plane: int)
    requires |ashape| == 3 && |bshape| == 3 && Quarters(q1, q4, qshape)
    requires StripsWith(a, ashape, b, bshape, q1, q4, qshape, n, low, width, plane).error.None?
    ensures PlaneLayer(plane, low, width).None? ==> StripsWith(a, ashape, b, bshape, q1, q4, qshape, n, low, width, plane).arr == a
    ensures PlaneLayer(plane, low, width).Some? ==>
              var o := Run(a, ashape, TileWrites((n - 1) * qshape[0], PlaneLayer(plane, low, width).value, qshape[0], qshape[1]), q1, q4, qshape);
              o.error.None? && StripsWith(a, ashape, b, bshape, q1, q4, qshape, n, low, width, plane).arr == o.cells
  {
  }

  /**
   * After a successful run with at least one pair of strips, each mask cell
   * on the two strip layers within the first `2 * n` quarter rows and two
   * quarter columns holds the chessboard of quarters and mirrored quarters;
   * every other mask cell keeps its value.
   */
  lemma MaskPattern(a: map<Index, real>, ashape: Shape, b: map<Index, real>, bshape: Shape,
                    q4: map<Index, real>, qshape: Shape, n: int, low: int, width: int, plane: int, i: Index)
    requires |ashape| == 3 && Shaped(b, bshape) && |bshape| == 3 && Shaped(q4, qshape) && |qshape| == 3
    requires Strips3D(a, ashape, b, bshape, q4, qshape, n, low, width, plane).error.None?
    requires 1 <= n && i in b
    ensures 0 < qshape[0] && 0 < qshape[2]
    ensures Strips3D(a, ashape, b, bshape, q4, qshape, n, low, width, plane).barr[i]
            == if OnStripLayers(bshape, low, width, i) && 0 <= i[0] / qshape[0] < 2 * n && 0 <= i[1] < 2 * qshape[1]
               then Pattern(Mirrored(q4, qshape, 1), q4, qshape, 0, i) else b[i]
  {
    MaskCell(a, ashape, b, bshape, Mirrored(q4, qshape, 1), q4, qshape, n, low, width, plane, i);
  }

  /**
   * After a successful run with at least one pair of strips, the value array
   * holds quarter rows `n - 1` and `n` of the chessboard (counted from
   * quarter row `n - 1`) on the layer `plane` selects, and is otherwise
   * unchanged.
   */
  lemma ValuePattern(a: map<Index, real>, ashape: Shape, b: map<Index, real>, bshape: Shape,
                     q4: map<Index, real>, qshape: Shape, n: int, low: int, width: int, plane: int, i: Index)
    requires Shaped(a, ashape) && |ashape| == 3 && |bshape| == 3 && Shaped(q4, qshape) && |qshape| == 3
    requires Strips3D(a, ashape, b, bshape, q4, qshape, n, low, width, plane).error.None?
    requires 1 <= n && i in a
    ensures 0 < qshape[0] && 0 < qshape[2]
    ensures Strips3D(a, ashape, b, bshape, q4, qshape, n, low, width, plane).arr[i]
            == if PlaneLayer(plane, low, width).Some? && Position(PlaneLayer(plane, low, width).value, ashape[2]) == Some(i[2])
                  && n - 1 <= i[0] / qshape[0] < n + 1 && 0 <= i[1] < 2 * qshape[1]
               then Pattern(Mirrored(q4, qshape, 1), q4, qshape, n - 1, i) else a[i]
  {
    ValueCell(a, ashape, b, bshape, Mirrored(q4, qshape, 1), q4, qshape, n, low, width, plane, i);
  }

  /**
   * The chessboard read from a quarter and its mirror image: the mirrored
   * cells come from the quarter's column `Y - 1 - c`.
   */
  lemma PatternOfMirror(q4: map<Index, real>, qshape: Shape, base: int, i: Index)
    requires Shaped(q4, qshape) && |qshape| == 3 && 0 < qshape[0] && 0 < qshape[2]
    requires |i| >= 2 && 0 <= i[1] < 2 * qshape[1]
    ensures var x, y := qshape[0], qshape[1];
            var c := if i[1] < y then i[1] else i[1] - y;
            Pattern(Mirrored(q4, qshape, 1), q4, qshape, base, i)
            == if ((i[0] / x - base) % 2 == 0) == (i[1] < y) then q4[[i[0] % x, y - 1 - c, 0]] else q4[[i[0] % x, c, 0]]
  {
    var x, y := qshape[0], qshape[1];
    var c := if i[1] < y then i[1] else i[1] - y;
    var src := [i[0] % x, c, 0];
    assert InBounds(qshape, src);
    MirroredAt(q4, qshape, 1, src);
    assert Flip(src, 1, y) == [i[0] % x, y - 1 - c, 0];
  }

  /** Whether or not it raises, `StripsWith` writes the mask only on the strip layers and the value array only on the selected layer. */
  lemma LayersOnly(a: map<Index, real>, ashape: Shape, b: map<Index, real>, bshape: Shape,
                   q1: map<Index, real>, q4: map<Index, real>, qshape: Shape, n: int, low: int, width: int, plane: int, i: Index)
    requires |ashape| == 3 && |bshape| == 3 && Quarters(q1, q4, qshape)
    ensures i in b && |i| == 3 && !OnStripLayers(bshape, low, width, i)
            ==> StripsWith(a, ashape, b, bshape, q1, q4, qshape, n, low, width, plane).barr[i] == b[i]
    ensures i in a && |i| == 3 && (PlaneLayer(plane, low, width).None? || Position(PlaneLayer(plane, low, width).value, ashape[2]) != Some(i[2]))
            ==> StripsWith(a, ashape, b, bshape, q1, q4, qshape, n, low, width, plane).arr[i] == a[i]
  {
    var ws := StripWrites(0, n, low, width, qshape[0], qshape[1]);
    if i in b && |i| == 3 && !OnStripLayers(bshape, low, width, i) {
      RunMiss(b, bshape, ws, q1, q4, qshape, i);
    }
    if PlaneLayer(plane, low, width).Some? && i in a && |i| == 3 {
      var z := PlaneLayer(plane, low, width).value;
      if Position(z, ashape[2]) != Some(i[2]) {
        RunMiss(a, ashape, TileWrites((n - 1) * qshape[0], z, qshape[0], qshape[1]), q1, q4, qshape, i);
      }
    }
  }

  /**
   * Whether or not it raises, `draw_3Dstrips` writes the mask only on the two
   * strip layers and the value array only on the layer `plane` selects.
   */
  lemma StripLayersOnly(a: map<Index, real>, ashape: Shape, b: map<Index, real>, bshape: Shape,
                        q4: map<Index, real>, qshape: Shape, n: int, low: int, width: int, plane: int, i: Index)
    requires |ashape| == 3 && |bshape| == 3 && Shaped(q4, qshape) && |qshape| == 3
    ensures i in b && |i| == 3 && !OnStripLayers(bshape, low, width, i)
            ==> Strips3D(a, ashape, b, bshape, q4, qshape, n, low, width, plane).barr[i] == b[i]
    ensures i in a && |i| == 3 && (PlaneLayer(plane, low, width).None? || Position(PlaneLayer(plane, low, width).value, ashape[2]) != Some(i[2]))
            ==> Strips3D(a, ashape, b, bshape, q4, qshape, n, low, width, plane).arr[i] == a[i]
  {
    if qshape[0] != 0 {
      LayersOnly(a, ashape, b, bshape, Mirrored(q4, qshape, 1), q4, qshape, n, low, width, plane, i);
    }
  }

  // ---------------------------------------------------------------------
  // The writes on arrays

  /** `arr[w.rows, w.cols, w.z] = q[:, :, 0]`, where `q` is `q1` for a mirrored write and `q4` otherwise. */
  method PasteInto(arr: NdArray, w: Write, q1: NdArray, q4: NdArray) returns (err: Option<Error>)
    requires arr.Valid() && |arr.shape| == 3 && q1.Valid() && q4.Valid() && |q4.shape| == 3 && q1.shape == q4.shape
    requires q1 != arr && q4 != arr
    modifies arr
    ensures arr.Valid()
    ensures Outcome(arr.cells, err) == RunOne(old(arr.cells), arr.shape, w, q1.cells, q4.cells, q4.shape)
  {
    var q := if w.mirrored then q1 else q4;
    var o := Paste(arr.cells, arr.shape, w.rows, w.cols, w.z, q.cells, q.shape);
    KeysOfShaped(arr.cells, o.cells, arr.shape);
    arr.cells, err := o.cells, o.error;
  }

  /** The first write of a sequence either raises, ending the run, or leaves the rest to run from its result. */
  lemma RunHead(m: map<Index, real>, shape: Shape, w: Write, rest: seq<Write>, q1: map<Index, real>, q4: map<Index, real>, qshape: Shape)
    requires |shape| == 3 && Quarters(q1, q4, qshape)
    ensures Run(m, shape, [w] + rest, q1, q4, qshape)
            == if RunOne(m, shape, w, q1, q4, qshape).error.Some? then RunOne(m, shape, w, q1, q4, qshape)
               else Run(RunOne(m, shape, w, q1, q4, qshape).cells, shape, rest, q1, q4, qshape)
  {
    assert ([w] + rest)[0] == w && ([w] + rest)[1..] == rest;
  }

  /**
   * The four writes of one tile (quarter rows from row `r0`, layer `z`), in
   * the generator's order; the first that raises stops the rest.
   */
  method DrawTile(arr: NdArray, r0: int, z: int, q1: NdArray, q4: NdArray) returns (err: Option<Error>)
    requires arr.Valid() && |arr.shape| == 3 && q1.Valid() && q4.Valid() && |q4.shape| == 3 && q1.shape == q4.shape
    requires q1 != arr && q4 != arr
    modifies arr
    ensures arr.Valid()
    ensures Outcome(arr.cells, err) == Run(old(arr.cells), arr.shape, TileWrites(r0, z, q4.shape[0], q4.shape[1]), q1.cells, q4.cells, q4.shape)
  {
    var x, y := q4.shape[0], q4.shape[1];
    var w0 := Write(Slice(r0, r0 + x), Slice(0, y), z, true);
    var w1 := Write(Slice(r0, r0 + x), Slice(y, 2 * y), z, false);
    var w2 := Write(Slice(r0 + x, r0 + 2 * x), Slice(0, y), z, false);
    var w3 := Write(Slice(r0 + x, r0 + 2 * x), Slice(y, 2 * y), z, true);
    assert TileWrites(r0, z, x, y) == [w0] + ([w1] + ([w2] + ([w3] + [])));
    RunHead(arr.cells, arr.shape, w0, [w1] + ([w2] + ([w3] + [])), q1.cells, q4.cells, q4.shape);
    err := PasteInto(arr, w0, q1, q4);
    if err.Some? {
      return;
    }
    RunHead(arr.cells, arr.shape, w1, [w2] + ([w3] + []), q1.cells, q4.cells, q4.shape);
    err := PasteInto(arr, w1, q1, q4);
    if err.Some? {
      return;
    }
    RunHead(arr.cells, arr.shape, w2, [w3] + [], q1.cells, q4.cells, q4.shape);
    err := PasteInto(arr, w2, q1, q4);
    if err.Some? {
      return;
    }
    RunHead(arr.cells, arr.shape, w3, [], q1.cells, q4.cells, q4.shape);
    err := PasteInto(arr, w3, q1, q4);
  }

  /** One pass of the strips loop: the tile on the lower layer, then the tile on the upper layer, then the passes after it. */
  lemma StripsStep(m: map<Index, real>, shape: Shape, s: int, n: int, low: int, width: int,
                   q1: map<Index, real>, q4: map<Index, real>, qshape: Shape)
    requires |shape| == 3 && Quarters(q1, q4, qshape) && s < 2 * n
    ensures var x, y := qshape[0], qshape[1];
            var o1 := Run(m, shape, TileWrites(s * x, low, x, y), q1, q4, qshape);
            var o2 := Run(o1.cells, shape, TileWrites(s * x, low + width, x, y), q1, q4, qshape);
            Run(m, shape, StripWrites(s, n, low, width, x, y), q1, q4, qshape)
            == if o1.error.Some? then o1 else if o2.error.Some? then o2
               else Run(o2.cells, shape, StripWrites(s + 2, n, low, width, x, y), q1, q4, qshape)
  {
    var x, y := qshape[0], qshape[1];
    var lower, upper := TileWrites(s * x, low, x, y), TileWrites(s * x, low + width, x, y);
    RunAppend(m, shape, lower + upper, StripWrites(s + 2, n, low, width, x, y), q1, q4, qshape);
    RunAppend(m, shape, lower, upper, q1, q4, qshape);
  }

  /** Past the last quarter row pair there is nothing left to write. */
  lemma StripsDone(m: map<Index, real>, shape: Shape, s: int, n: int, low: int, width: int,
                   q1: map<Index, real>, q4: map<Index, real>, qshape: Shape)
    requires |shape| == 3 && Quarters(q1, q4, qshape) && |qshape| == 3 && s >= 2 * n
    ensures Run(m, shape, StripWrites(s, n, low, width, qshape[0], qshape[1]), q1, q4, qshape) == Outcome(m, None)
  {
  }

  /** One pass of the strips loop: the tile of quarter rows `s` and `s + 1` on layer `low`, then on `low + width`. */
  method DrawPair(barr: NdArray, q1: NdArray, q4: NdArray, s: int, n: int, low: int, width: int) returns (err: Option<Error>)
    requires barr.Valid() && |barr.shape| == 3 && q1.Valid() && q4.Valid() && |q4.shape| == 3 && q1.shape == q4.shape
    requires q1 != barr && q4 != barr && s < 2 * n
    modifies barr
    ensures barr.Valid()
    ensures var ws := StripWrites(s, n, low, width, q4.shape[0], q4.shape[1]);
            err.Some? ==> Outcome(barr.cells, err) == Run(old(barr.cells), barr.shape, ws, q1.cells, q4.cells, q4.shape)
    ensures var ws := StripWrites(s, n, low, width, q4.shape[0], q4.shape[1]);
            var rest := StripWrites(s + 2, n, low, width, q4.shape[0], q4.shape[1]);
            err.None? ==> Run(barr.cells, barr.shape, rest, q1.cells, q4.cells, q4.shape)
                          == Run(old(barr.cells), barr.shape, ws, q1.cells, q4.cells, q4.shape)
  {
    var x := q4.shape[0];
    StripsStep(barr.cells, barr.shape, s, n, low, width, q1.cells, q4.cells, q4.shape);
    err := DrawTile(barr, s * x, low, q1, q4);
    if err.Some? {
      return;
    }
    err := DrawTile(barr, s * x, low + width, q1, q4);
  }

  /** The loop of `draw_3Dstrips` over `s` in `0, 2, ..., 2 * n - 2`: two tiles of strips into the mask per pass. */
  method DrawStrips(barr: NdArray, q1: NdArray, q4: NdArray, n: int, low: int, width: int) returns (err: Option<Error>)
    requires barr.Valid() && |barr.shape| == 3 && q1.Valid() && q4.Valid() && |q4.shape| == 3 && q1.shape == q4.shape
    requires q1 != barr && q4 != barr
    modifies barr
    ensures barr.Valid()
    ensures Outcome(barr.cells, err)
            == Run(old(barr.cells), barr.shape, StripWrites(0, n, low, width, q4.shape[0], q4.shape[1]), q1.cells, q4.cells, q4.shape)
  {
    var x, y := q4.shape[0], q4.shape[1];
    ghost var c1, c4, shape := q1.cells, q4.cells, barr.shape;
    ghost var goal := Run(barr.cells, shape, StripWrites(0, n, low, width, x, y), c1, c4, q4.shape);
    var s := 0;
    while s < 2 * n
      invariant 0 <= s && s % 2 == 0 && barr.Valid() && q1.cells == c1 && q4.cells == c4
      invariant Run(barr.cells, shape, StripWrites(s, n, low, width, x, y), c1, c4, q4.shape) == goal
      decreases 2 * n - s
    {
      err := DrawPair(barr, q1, q4, s, n, low, width);
      if err.Some? {
        return;
      }
      s := s + 2;
    }
    StripsDone(barr.cells, shape, s, n, low, width, c1, c4, q4.shape);
    err := None;
  }

  /** `draw_3Dstrips(arr, barr, qbarr_4, Nstrips, pcb_low_edge, pcb_width, plane)` on arrays of rank 3. */
  method Draw3DStrips(arr: NdArray, barr: NdArray, q4: NdArray, n: int, low: int, width: int, plane: int)
    returns (err: Option<Error>)
    requires arr.Valid() && |arr.shape| == 3 && barr.Valid() && |barr.shape| == 3 && q4.Valid() && |q4.shape| == 3
    requires arr != barr && q4 != arr && q4 != barr
    modifies arr, barr
    ensures arr.Valid() && barr.Valid()
    ensures StripsOutcome(arr.cells, barr.cells, err)
            == Strips3D(old(arr.cells), arr.shape, old(barr.cells), barr.shape, q4.cells, q4.shape, n, low, width, plane)
  {
    if q4.shape[0] == 0 {
      return Some(IndexError);
    }
    var mirrored := MirrorArrYAxis(q4);
    var q1 := mirrored.value;
    err := DrawStrips(barr, q1, q4, n, low, width);
    if err.Some? {
      return;
    }
    if plane == 0 {
      err := DrawTile(arr, (n - 1) * q4.shape[0], low + width, q1, q4);
    } else if plane == 1 {
      err := DrawTile(arr, (n - 1) * q4.shape[0], low, q1, q4);
    }
  }
}

=== FILE: persist.dfy ===
/**
 * The format-neutral part of persistence: choosing a store format from a
 * file name, and the `todict`/`fromdict` pair that turns arrays and the
 * schema's named tuples into plain JSON-like dicts and back.
 */
module Persist {
  import opened Wrappers
  import opened Values
  import PyStrings

  // ---------------------------------------------------------------------
  // Format selection

  /** `backend(filename, fmt)`: an explicit format, else "hdf" for a name containing ".hdf", else "npz". */
  function Backend(filename: string, fmt: Option<string>): (r: string)
    ensures fmt.Some? ==> r == fmt.value
    ensures fmt.None? ==> (r == "hdf" <==> PyStrings.Contains(filename, ".hdf")) && (r == "hdf" || r == "npz")
  {
    match fmt
    case Some(f) => f
    case None => if PyStrings.Contains(filename, ".hdf") then "hdf" else "npz"
  }

  /** The two store implementations. */
  datatype StoreKind = HdfStore | NpzStore

  /**
   * The store `store(filename, mode, fmt)` opens: HDF when the format
   * mentions "hdf" (checked first), npz when it mentions "npz" or "json",
   * and `ValueError` otherwise.
   */
  function Store(filename: string, fmt: Option<string>): (r: Result<StoreKind>)
    ensures var f := Backend(filename, fmt);
      && (r == Ok(HdfStore) <==> PyStrings.Contains(f, "hdf"))
      && (r == Ok(NpzStore) <==> !PyStrings.Contains(f, "hdf") && (PyStrings.Contains(f, "npz") || PyStrings.Contains(f, "json")))
      && (r.Err? <==> !PyStrings.Contains(f, "hdf") && !PyStrings.Contains(f, "npz") && !PyStrings.Contains(f, "json"))
      && (r.Err? ==> r.error == ValueError("unsupported file fromat " + f))
  {
    var f := Backend(filename, fmt);
    if PyStrings.Contains(f, "hdf") then Ok(HdfStore)
    else if PyStrings.Contains(f, "npz") || PyStrings.Contains(f, "json") then Ok(NpzStore)
    else Err(ValueError("unsupported file fromat " + f))
  }

  /** Without an explicit format a store always opens: HDF for a ".hdf" name, npz for any other. */
  lemma StoreDefault(filename: string)
    ensures Store(filename, None) == Ok(if PyStrings.Contains(filename, ".hdf") then HdfStore else NpzStore)
  {
    assert PyStrings.Contains("hdf", "hdf");
    assert PyStrings.Contains("npz", "npz");
    PyStrings.ContainsShorter("npz"[1..], "hdf");
  }

  // ---------------------------------------------------------------------
  // todict

  /** The number of elements an array of `shape` holds. */
  function Product(shape: seq<nat>): nat {
    if shape == [] then 1 else shape[0] * Product(shape[1..])
  }

  /** The numbers of `xs` as a list of Python numbers. */
  function Nums(xs: seq<real>): (r: seq<Value>)
    ensures |r| == |xs| && forall i :: 0 <= i < |xs| ==> r[i] == Num(xs[i])
  {
    seq(|xs|, i requires 0 <= i < |xs| => Num(xs[i]))
  }

  /** The dict `todict` writes for an array: its shape and its row-major elements under "array". */
  function ArrayDict(shape: seq<nat>, elements: seq<real>): Value {
    var dims := seq(|shape|, i requires 0 <= i < |shape| => shape[i] as real);
    Dict([("array", Dict([("shape", List(Nums(dims))), ("elements", List(Nums(elements)))]))])
  }

  /**
   * `todict(obj)`, with `numpy` imported: a schema named tuple becomes
   * `{class name: {field: todict(value)}}`, an array its `ArrayDict`, a
   * list the list of its items' `todict`; anything else, dicts and
   * tuples included, is returned as it is, its contents unconverted.
   */
  function Todict(v: Value): Value
    decreases v
  {
    match v
    case Record(k, vs) =>
      var n := if |vs| < |Fields(k)| then |vs| else |Fields(k)|;
      Dict([(KindName(k), Dict(seq(n, i requires 0 <= i < n => (Fields(k)[i], Todict(vs[i])))))])
    case Array(shape, elements) => ArrayDict(shape, elements)
    case List(xs) => List(seq(|xs|, i requires 0 <= i < |xs| => Todict(xs[i])))
    case _ => v
  }

  /**
   * `todict(obj)` as written: `numpy` is never imported, so the array test
   * raises `NameError` for every object that is not a schema named tuple,
   * and a named tuple's fields are converted in order until one raises.
   */
  function TodictAsWritten(v: Value): Result<Value>
    decreases v, 1
  {
    match v
    case Record(k, vs) =>
      var n := if |vs| < |Fields(k)| then |vs| else |Fields(k)|;
      var fs := TodictFieldsAsWritten(v, n, 0);
      if fs.Err? then Err(fs.error) else Ok(Dict([(KindName(k), Dict(fs.value))]))
    case _ => Err(NameError("numpy"))
  }

  /** The items for fields `j..n` of the named tuple `v` under `TodictAsWritten`. */
  function TodictFieldsAsWritten(v: Value, n: nat, j: nat): Result<seq<(string, Value)>>
    requires v.Record? && j <= n <= |v.values| && n <= |Fields(v.kind)|
    decreases v, 0, n - j
  {
    if j == n then Ok([])
    else
      var x := TodictAsWritten(v.values[j]);
      if x.Err? then Err(x.error)
      else
        var rest := TodictFieldsAsWritten(v, n, j + 1);
        if rest.Err? then rest else Ok([(Fields(v.kind)[j], x.value)] + rest.value)
  }

  /** A named tuple has exactly its fields, and every one of them holds a well-formed value. */
  predicate WellFormed(v: Value)
    decreases v
  {
    match v
    case Record(k, vs) => |vs| == |Fields(k)| && forall i :: 0 <= i < |vs| ==> WellFormed(vs[i])
    case List(xs) => forall i :: 0 <= i < |xs| ==> WellFormed(xs[i])
    case _ => true
  }

  /** As written, `todict` raises `NameError` for every well-formed value: sooner or later it reaches a value that is not a named tuple. */
  lemma {:induction false} TodictAsWrittenFails(v: Value)
    requires WellFormed(v)
    ensures TodictAsWritten(v) == Err(NameError("numpy"))
    decreases v
  {
    if v.Record? {
      TodictAsWrittenFails(v.values[0]);
      assert TodictFieldsAsWritten(v, |v.values|, 0) == Err(NameError("numpy"));
    }
  }

  // ---------------------------------------------------------------------
  // fromdict

  /** The keys `fromdict` treats as markers. */
  predicate Reserved(es: seq<(string, Value)>) {
    HasKey(es, "array") || HasKey(es, "FieldResponse") || HasKey(es, "PlaneResponse") || HasKey(es, "PathResponse")
  }

  /** The position of the first item with key `k`, the one `d[k]` reads. */
  function KeyIndex(es: seq<(string, Value)>, k: string): (j: nat)
    requires HasKey(es, k)
    ensures j < |es| && es[j].0 == k && Get(es, k) == Some(es[j].1)
  {
    if es[0].0 == k then 0 else 1 + KeyIndex(es[1..], k)
  }

  /** A list or a tuple, the sequences `numpy.asarray` and `reshape` take. */
  predicate Sequence(v: Value) {
    v.List? || v.Tuple?
  }

  /** Every item of `xs` is a number. */
  predicate AllNums(xs: seq<Value>) {
    forall i :: 0 <= i < |xs| ==> xs[i].Num?
  }

  /** Every item of `xs` is a number that is a natural number. */
  predicate AllNats(xs: seq<Value>) {
    forall i :: 0 <= i < |xs| ==> xs[i].Num? && xs[i].x == xs[i].x.Floor as real && xs[i].x >= 0.0
  }

  /** A number that is a natural number, the one-axis shape `reshape` also takes. */
  predicate NatNum(v: Value) {
    v.Num? && v.x == v.x.Floor as real && v.x >= 0.0
  }

  /**
   * The dimensions `reshape(sh)` reads from `sh`: a list or tuple of
   * naturals, or one natural `n` standing for the shape `(n,)`; `None` for
   * anything else.
   */
  function ShapeOf(sh: Value): (r: Option<seq<nat>>)
    ensures r.Some? <==> (Sequence(sh) && AllNats(sh.items)) || NatNum(sh)
    ensures r.Some? && sh.Num? ==> r.value == [sh.x.Floor] && r.value[0] as real == sh.x
    ensures r.Some? && !sh.Num? ==> |r.value| == |sh.items| && forall i :: 0 <= i < |sh.items| ==> r.value[i] as real == sh.items[i].x
  {
    if Sequence(sh) && AllNats(sh.items) then Some(Dims(sh.items))
    else if NatNum(sh) then Some([sh.x.Floor])
    else None
  }

  /**
   * `numpy.asarray(a['elements']).reshape(a['shape'])` for the value `a`
   * stored under "array", with `numpy` imported: subscripting anything but
   * a dict fails, a missing key raises `KeyError`, and elements or a shape
   * that do not make a real-valued array raise `ValueError`. The elements
   * may be a list or a tuple; the shape a list, a tuple or one natural.
   */
  function FromArrayDict(a: Value): (r: Result<Value>)
    ensures r.Ok? <==>
      && a.Dict? && HasKey(a.entries, "elements") && HasKey(a.entries, "shape")
      && Sequence(Get(a.entries, "elements").value) && AllNums(Get(a.entries, "elements").value.items)
      && ShapeOf(Get(a.entries, "shape").value).Some?
      && Product(ShapeOf(Get(a.entries, "shape").value).value) == |Get(a.entries, "elements").value.items|
    ensures r.Ok? ==> r.value.Array? && |r.value.elements| == Product(r.value.shape)
    ensures r.Ok? ==> Some(r.value.shape) == ShapeOf(Get(a.entries, "shape").value)
    ensures r.Ok? ==> forall i :: 0 <= i < |r.value.elements| ==> r.value.elements[i] == Get(a.entries, "elements").value.items[i].x
  {
    if a.Array? then Err(IndexError)
    else if !a.Dict? then Err(TypeError("not subscriptable"))
    else if !HasKey(a.entries, "elements") then Err(KeyError("elements"))
    else
      var els := Get(a.entries, "elements").value;
      if !(Sequence(els) && AllNums(els.items)) then Err(ValueError("elements"))
      else if !HasKey(a.entries, "shape") then Err(KeyError("shape"))
      else
        var sh := ShapeOf(Get(a.entries, "shape").value);
        if sh.None? then Err(ValueError("shape"))
        else if Product(sh.value) != |els.items| then Err(ValueError("cannot reshape"))
        else Ok(Array(sh.value, Reals(els.items)))
  }

  function Dims(xs: seq<Value>): (r: seq<nat>)
    requires AllNats(xs)
    ensures |r| == |xs| && forall i :: 0 <= i < |xs| ==> r[i] as real == xs[i].x
  {
    seq(|xs|, i requires 0 <= i < |xs| => xs[i].x.Floor)
  }

  function Reals(xs: seq<Value>): (r: seq<real>)
    requires AllNums(xs)
    ensures |r| == |xs| && forall i :: 0 <= i < |xs| ==> r[i] == xs[i].x
  {
    seq(|xs|, i requires 0 <= i < |xs| => xs[i].x)
  }

  /**
   * `fromdict(obj)`, undoing `todict`. `numpy` says whether the module
   * imports numpy: as written it does not, and reaching a dict with key
   * "array" raises `NameError`. A dict with key "array" becomes an array;
   * else a dict naming a schema class (tried in the order FieldResponse,
   * PlaneResponse, PathResponse) becomes that named tuple; any other dict
   * is returned as it is, unconverted. A list is converted item by item; any
   * other value, a tuple included, is returned as it is.
   */
  function FromdictWith(numpy: bool, v: Value): Result<Value>
    decreases v, 2
  {
    match v
    case Dict(es) =>
      if HasKey(es, "array") then
        if numpy then FromArrayDict(es[KeyIndex(es, "array")].1) else Err(NameError("numpy"))
      else if HasKey(es, "FieldResponse") then Rebuild(numpy, FieldResponse, es[KeyIndex(es, "FieldResponse")].1)
      else if HasKey(es, "PlaneResponse") then Rebuild(numpy, PlaneResponse, es[KeyIndex(es, "PlaneResponse")].1)
      else if HasKey(es, "PathResponse") then Rebuild(numpy, PathResponse, es[KeyIndex(es, "PathResponse")].1)
      else Ok(v)
    case List(xs) =>
      var ys := FromdictItems(numpy, v, 0);
      if ys.Err? then Err(ys.error) else Ok(List(ys.value))
    case _ => Ok(v)
  }

  /** `fromdict` of items `j..` of the list `v`, in order: the first exception is raised, else the converted items. */
  function FromdictItems(numpy: bool, v: Value, j: nat): (r: Result<seq<Value>>)
    requires v.List? && j <= |v.items|
    ensures r.Ok? <==> forall i :: j <= i < |v.items| ==> FromdictWith(numpy, v.items[i]).Ok?
    ensures r.Ok? ==> |r.value| == |v.items| - j && forall i :: j <= i < |v.items| ==> FromdictWith(numpy, v.items[i]) == Ok(r.value[i - j])
    ensures r.Err? ==> exists i :: j <= i < |v.items| && FromdictWith(numpy, v.items[i]) == Err(r.error)
    decreases v, 0, |v.items| - j
  {
    if j == |v.items| then Ok([])
    else
      var x := FromdictWith(numpy, v.items[j]);
      if x.Err? then Err(x.error)
      else
        var rest := FromdictItems(numpy, v, j + 1);
        if rest.Err? then rest else Ok([x.value] + rest.value)
  }

  /**
   * `typ(**{k: fromdict(v) for k, v in body.items() if k not in ["pitchdir", "wiredir"]})`:
   * a body without `items` raises `AttributeError`; the keyword arguments
   * must be exactly the named tuple's fields, else `TypeError`.
   */
  function Rebuild(numpy: bool, k: Kind, body: Value): Result<Value>
    decreases body, 1
  {
    if !body.Dict? then Err(AttributeError("items"))
    else
      var pairs := Kwargs(numpy, body, 0);
      if pairs.Err? then Err(pairs.error)
      else
        var kw := DictOf(pairs.value);
        if Matches(kw, Fields(k)) then Ok(Record(k, seq(|Fields(k)|, i requires 0 <= i < |Fields(k)| => Get(kw, Fields(k)[i]).value)))
        else Err(TypeError(KindName(k)))
  }

  /** The keyword arguments name every field and nothing else. */
  predicate Matches(kw: seq<(string, Value)>, fields: seq<string>) {
    (forall i :: 0 <= i < |fields| ==> HasKey(kw, fields[i])) && (forall i :: 0 <= i < |kw| ==> kw[i].0 in fields)
  }

  /** The keys `fromdict` drops from a named tuple's body. */
  predicate Dropped(key: string) {
    key == "pitchdir" || key == "wiredir"
  }

  /** The converted keyword items for items `j..` of the dict `body`, dropped keys left out. */
  function Kwargs(numpy: bool, body: Value, j: nat): (r: Result<seq<(string, Value)>>)
    requires body.Dict? && j <= |body.entries|
    ensures r.Ok? ==> forall p :: p in r.value ==> !Dropped(p.0)
    decreases body, 0, |body.entries| - j
  {
    if j == |body.entries| then Ok([])
    else
      var (key, x) := body.entries[j];
      if Dropped(key) then Kwargs(numpy, body, j + 1)
      else
        var y := FromdictWith(numpy, x);
        if y.Err? then Err(y.error)
        else
          var rest := Kwargs(numpy, body, j + 1);
          if rest.Err? then rest else Ok([(key, y.value)] + rest.value)
  }

  /** `fromdict` with `numpy` imported. */
  function Fromdict(v: Value): Result<Value> {
    FromdictWith(true, v)
  }

  /** `fromdict` as written, without the numpy import. */
  function FromdictAsWritten(v: Value): Result<Value> {
    FromdictWith(false, v)
  }

  // ---------------------------------------------------------------------
  // The round trip

  /**
   * The values `todict` can encode so that `fromdict` decodes them: named
   * tuples with all their fields, arrays whose elements fill their shape,
   * and plain dicts that carry none of the marker keys `fromdict` looks for.
   */
  predicate Encodable(v: Value)
    decreases v
  {
    match v
    case Dict(es) => !Reserved(es)
    case List(xs) => forall i :: 0 <= i < |xs| ==> Encodable(xs[i])
    case Record(k, vs) => |vs| == |Fields(k)| && forall i :: 0 <= i < |vs| ==> Encodable(vs[i])
    case Array(shape, elements) => |elements| == Product(shape)
    case _ => true
  }

  /** No field name of a schema named tuple is repeated or dropped by `fromdict`. */
  lemma FieldsDistinct(k: Kind)
    ensures forall i, j :: 0 <= i < j < |Fields(k)| ==> Fields(k)[i] != Fields(k)[j]
    ensures forall i :: 0 <= i < |Fields(k)| ==> !Dropped(Fields(k)[i])
  {
  }

  /** An encoded array decodes to itself. */
  lemma ArrayRoundTrip(shape: seq<nat>, elements: seq<real>)
    requires |elements| == Product(shape)
    ensures FromArrayDict(ArrayDict(shape, elements).entries[0].1) == Ok(Array(shape, elements))
  {
    var a := ArrayDict(shape, elements).entries[0].1;
    assert UniqueKeys(a.entries);
    GetUnique(a.entries, 0);
    GetUnique(a.entries, 1);
    var sh := a.entries[0].1.items;
    var els := a.entries[1].1.items;
    assert AllNats(sh);
    assert Dims(sh) == shape;
    assert Reals(els) == elements;
  }

  /** The items `(field, value)` of a named tuple's fields `j..`. */
  function FieldItems(k: Kind, vs: seq<Value>, j: nat): (r: seq<(string, Value)>)
    requires j <= |vs| <= |Fields(k)|
    ensures |r| == |vs| - j && forall i :: 0 <= i < |r| ==> r[i] == (Fields(k)[j + i], vs[j + i])
    decreases |vs| - j
  {
    if j == |vs| then [] else [(Fields(k)[j], vs[j])] + FieldItems(k, vs, j + 1)
  }

  /** The converted keyword items of an encoded named tuple's body, from field `j` on, are its fields and values. */
  lemma {:induction false} KwargsRoundTrip(v: Value, j: nat)
    requires v.Record? && Encodable(v) && j <= |v.values|
    ensures Todict(v).entries[0].1.Dict?
    ensures Kwargs(true, Todict(v).entries[0].1, j) == Ok(FieldItems(v.kind, v.values, j))
    decreases v, 0, |v.values| - j
  {
    var body := Todict(v).entries[0].1;
    if j < |v.values| {
      FieldsDistinct(v.kind);
      var key, x := body.entries[j].0, body.entries[j].1;
      assert key == Fields(v.kind)[j] && !Dropped(key);
      assert x == Todict(v.values[j]);
      RoundTrip(v.values[j]);
      assert FromdictWith(true, x) == Ok(v.values[j]);
      KwargsRoundTrip(v, j + 1);
    }
  }

  /** `fromdict(todict(v)) == v` for every encodable value. */
  lemma {:induction false} RoundTrip(v: Value)
    requires Encodable(v)
    ensures Fromdict(Todict(v)) == Ok(v)
    decreases v, 1
  {
    match v
    case Array(shape, elements) =>
      ArrayRoundTrip(shape, elements);
    case List(xs) =>
      forall i | 0 <= i < |xs| ensures Fromdict(Todict(xs[i])) == Ok(xs[i]) {
        RoundTrip(xs[i]);
      }
      var e := Todict(v);
      assert forall i :: 0 <= i < |xs| ==> e.items[i] == Todict(xs[i]);
      var ys := FromdictItems(true, e, 0);
      assert ys.Ok?;
      assert ys.value == xs;
    case Record(k, vs) =>
      RebuildRoundTrip(v);
      RecordDispatch(true, k, Todict(v).entries[0].1);
    case _ =>
  }

  /** A dict whose one key is a schema class name is rebuilt as that class. */
  lemma RecordDispatch(numpy: bool, k: Kind, body: Value)
    ensures FromdictWith(numpy, Dict([(KindName(k), body)])) == Rebuild(numpy, k, body)
  {
    var es := [(KindName(k), body)];
    assert !HasKey(es, "array");
    assert es[0].0 == KindName(k);
    match k
    case FieldResponse =>
    case PlaneResponse =>
      assert !HasKey(es, "FieldResponse");
    case PathResponse =>
      assert !HasKey(es, "FieldResponse") && !HasKey(es, "PlaneResponse");
  }

  /** The body of an encoded named tuple rebuilds the named tuple. */
  lemma {:induction false} RebuildRoundTrip(v: Value)
    requires v.Record? && Encodable(v)
    ensures Todict(v) == Dict([(KindName(v.kind), Todict(v).entries[0].1)])
    ensures Rebuild(true, v.kind, Todict(v).entries[0].1) == Ok(v)
    decreases v, 0, |v.values| + 1
  {
    var k, vs := v.kind, v.values;
    var body := Todict(v).entries[0].1;
    var pairs := FieldItems(k, vs, 0);
    KwargsRoundTrip(v, 0);
    FieldsDistinct(k);
    DictOfUnique(pairs);
    forall i | 0 <= i < |vs| ensures Get(pairs, Fields(k)[i]) == Some(vs[i]) {
      GetUnique(pairs, i);
    }
    assert Matches(pairs, Fields(k));
    assert seq(|Fields(k)|, i requires 0 <= i < |Fields(k)| => Get(DictOf(pairs), Fields(k)[i]).value) == vs;
  }

  /** Values that are neither named tuples, arrays nor lists, and dicts without marker keys, pass through both ways unchanged. */
  lemma PassThrough(v: Value)
    requires v.Null? || v.Bool? || v.Num? || v.Str? || v.Tuple? || (v.Dict? && !Reserved(v.entries))
    ensures Todict(v) == v && Fromdict(v) == Ok(v) && FromdictAsWritten(v) == Ok(v)
  {
  }

  /**
   * A tuple is not a list, so neither direction looks inside it: an array
   * in a tuple stays a raw array, and an encoded array in a tuple stays a
   * dict, with or without the numpy import, where in a list it decodes.
   */
  lemma TupleUnconverted(shape: seq<nat>, elements: seq<real>)
    requires |elements| == Product(shape)
    ensures Todict(Tuple([Array(shape, elements)])) == Tuple([Array(shape, elements)])
    ensures Fromdict(Tuple([ArrayDict(shape, elements)])) == Ok(Tuple([ArrayDict(shape, elements)]))
    ensures FromdictAsWritten(Tuple([ArrayDict(shape, elements)])) == Ok(Tuple([ArrayDict(shape, elements)]))
    ensures Fromdict(List([ArrayDict(shape, elements)])) == Ok(List([Array(shape, elements)]))
  {
    ArrayAsWritten(shape, elements);
    var d := ArrayDict(shape, elements);
    assert Todict(Array(shape, elements)) == d;
    assert FromdictWith(true, d) == Ok(Array(shape, elements));
    var l := List([d]);
    assert l.items[0] == d && |l.items| == 1;
    var ys := FromdictItems(true, l, 0);
    assert ys.Ok? && |ys.value| == 1 && ys.value[0] == Array(shape, elements);
    assert ys.value == [Array(shape, elements)];
  }

  /** Converting a body with one more item in front skips to the items of the rest. */
  lemma {:induction false} KwargsShift(numpy: bool, d: (string, Value), es: seq<(string, Value)>, j: nat)
    requires j <= |es|
    ensures Kwargs(numpy, Dict([d] + es), j + 1) == Kwargs(numpy, Dict(es), j)
    decreases |es| - j
  {
    if j < |es| {
      assert ([d] + es)[j + 1] == es[j];
      KwargsShift(numpy, d, es, j + 1);
    }
  }

  /** A "pitchdir" or "wiredir" item in a named tuple's body is ignored. */
  lemma DroppedIgnored(numpy: bool, k: Kind, key: string, x: Value, es: seq<(string, Value)>)
    requires Dropped(key)
    ensures Rebuild(numpy, k, Dict([(key, x)] + es)) == Rebuild(numpy, k, Dict(es))
  {
    KwargsShift(numpy, (key, x), es, 0);
  }

  /**
   * As written, `fromdict` cannot decode the arrays `todict` encodes, and
   * `todict` cannot encode them: both raise `NameError`, while with `numpy`
   * imported the array comes back.
   */
  lemma ArrayAsWritten(shape: seq<nat>, elements: seq<real>)
    requires |elements| == Product(shape)
    ensures TodictAsWritten(Array(shape, elements)) == Err(NameError("numpy"))
    ensures FromdictAsWritten(Todict(Array(shape, elements))) == Err(NameError("numpy"))
    ensures Fromdict(Todict(Array(shape, elements))) == Ok(Array(shape, elements))
  {
    ArrayRoundTrip(shape, elements);
    var es := Todict(Array(shape, elements)).entries;
    assert es[0].0 == "array";
  }
}

=== FILE: pochoir.dfy ===
/**
 * The first, fixed-rank version of the solver's pieces: a padded grid,
 * halo conditions named by strings for 1, 2 and 3 dimensions, the
 * one-cell-shifted sub-arrays and the 1-, 2- and 3-D stencils. Each is
 * shown to agree with the rank-generic rule of `FdmGeneric`.
 */
module Pochoir {
  import opened NdArrays
  import opened Arrays
  import opened FdmGeneric

  /** `make_domain(arrays, shape)` with the numpy back end: a zero grid two cells larger on every axis, whose core has `shape`. */
  method MakeDomain(shape: Shape) returns (grid: NdArray)
    ensures fresh(grid) && grid.Valid()
    ensures grid.shape == PadShape(shape) && CoreShape(grid.shape) == shape
    ensures forall i :: i in grid.cells ==> grid.cells[i] == 0.0
  {
    CoreOfPad(shape);
    grid := new NdArray.Zeros(PadShape(shape));
  }

  // ---------------------------------------------------------------------
  // edge_conditions1d/2d/3d

  /** Python's position for index `k` on an axis of length `n`: a negative index counts from the end. */
  function PyIndex(k: int, n: nat): (r: nat)
    requires -(n as int) <= k < n
    ensures r < n && (k >= 0 ==> r == k) && (k < 0 ==> r == n + k)
  {
    if k < 0 then n + k else k
  }

  /** The first `rank` axes are long enough to hold two halo cells. */
  predicate HaloedUpTo(shape: Shape, rank: nat) {
    rank <= |shape| && forall d :: 0 <= d < rank ==> shape[d] >= 2
  }

  /**
   * The halo copies of axis `d` for the condition named `cond`: "periodic"
   * copies plane `-2` into plane 0 and plane 1 into plane `-1`; "fixed"
   * copies plane 1 into plane 0 and plane `-2` into plane `-1`; any other
   * name leaves the array as it is.
   */
  function NamedAxisHalo(m: map<Index, real>, shape: Shape, d: nat, cond: string): (r: map<Index, real>)
    requires Shaped(m, shape) && d < |shape| && shape[d] >= 2
    ensures Shaped(r, shape)
  {
    var n := shape[d];
    if cond == "periodic" then CopyPlane(CopyPlane(m, shape, d, 0, n - 2), shape, d, n - 1, 1)
    else if cond == "fixed" then CopyPlane(CopyPlane(m, shape, d, 0, 1), shape, d, n - 1, n - 2)
    else m
  }

  /** The grid after the conditions of the first `k` axes have been applied, in axis order. */
  function NamedHaloUpTo(m: map<Index, real>, shape: Shape, cond: seq<string>, k: nat): (r: map<Index, real>)
    requires Shaped(m, shape) && k <= |cond| && HaloedUpTo(shape, k)
    ensures Shaped(r, shape)
  {
    if k == 0 then m else NamedAxisHalo(NamedHaloUpTo(m, shape, cond, k - 1), shape, k - 1, cond[k - 1])
  }

  /** Every condition names one of the two rules. */
  predicate Named(cond: seq<string>) {
    forall d :: 0 <= d < |cond| ==> cond[d] == "periodic" || cond[d] == "fixed"
  }

  /** The generic rule's flags: `periodic[d]` holds exactly when condition `d` is "periodic". */
  function Flags(cond: seq<string>): (r: seq<bool>)
    ensures |r| == |cond| && forall d :: 0 <= d < |cond| ==> (r[d] <==> cond[d] == "periodic")
  {
    seq(|cond|, d requires 0 <= d < |cond| => cond[d] == "periodic")
  }

  /**
   * With every condition named "periodic" or "fixed", the named conditions of
   * the first `k` axes do what the generic `edge_condition` does for those axes.
   */
  lemma NamedHaloAgrees(m: map<Index, real>, shape: Shape, cond: seq<string>, k: nat)
    requires Shaped(m, shape) && Haloed(shape) && |cond| == |shape| && Named(cond) && k <= |shape|
    ensures NamedHaloUpTo(m, shape, cond, k) == HaloUpTo(m, shape, Flags(cond), k)
  {
    for a := 0 to k
      invariant NamedHaloUpTo(m, shape, cond, a) == HaloUpTo(m, shape, Flags(cond), a)
    {
      NamedHaloStep(m, shape, cond, a + 1);
    }
  }

  /** The inductive step of `NamedHaloAgrees`: agreement on `k - 1` axes carries over to `k`. */
  lemma NamedHaloStep(m: map<Index, real>, shape: Shape, cond: seq<string>, k: nat)
    requires Shaped(m, shape) && Haloed(shape) && |cond| == |shape| && Named(cond) && 0 < k <= |shape|
    requires NamedHaloUpTo(m, shape, cond, k - 1) == HaloUpTo(m, shape, Flags(cond), k - 1)
    ensures NamedHaloUpTo(m, shape, cond, k) == HaloUpTo(m, shape, Flags(cond), k)
  {
    var prev := HaloUpTo(m, shape, Flags(cond), k - 1);
    assert NamedHaloUpTo(m, shape, cond, k) == NamedAxisHalo(prev, shape, k - 1, cond[k - 1]);
    NamedAxisIsAxisHalo(prev, shape, k - 1, cond[k - 1], Flags(cond)[k - 1]);
  }

  /** A named condition on one axis is the generic per-axis rule with the matching flag. */
  lemma NamedAxisIsAxisHalo(m: map<Index, real>, shape: Shape, d: nat, cond: string, periodic: bool)
    requires Shaped(m, shape) && d < |shape| && shape[d] >= 2 && (cond == "periodic" || cond == "fixed")
    requires periodic <==> cond == "periodic"
    ensures NamedAxisHalo(m, shape, d, cond) == AxisHalo(m, shape, d, periodic)
  {
    var n := shape[d];
    assert HaloSources(n, periodic) == if periodic then (n - 2, 1) else (1, n - 2);
  }

  /**
   * One `if cond[d] == ...` pair of the fixed-rank edge conditions: the halo
   * planes of axis `d` are assigned with Python's negative indices.
   */
  method NamedAxis(grid: NdArray, d: nat, cond: string)
    requires grid.Valid() && d < |grid.shape| && grid.shape[d] >= 2
    modifies grid
    ensures grid.Valid()
    ensures grid.cells == NamedAxisHalo(old(grid.cells), grid.shape, d, cond)
    ensures cond != "periodic" && cond != "fixed" ==> grid.cells == old(grid.cells)
  {
    var n := grid.shape[d];
    if cond == "periodic" {
      grid.cells := SliceCopy(grid.cells, grid.shape, d, PyIndex(0, n), PyIndex(-2, n));
      grid.cells := SliceCopy(grid.cells, grid.shape, d, PyIndex(-1, n), PyIndex(1, n));
    }
    if cond == "fixed" {
      grid.cells := SliceCopy(grid.cells, grid.shape, d, PyIndex(0, n), PyIndex(1, n));
      grid.cells := SliceCopy(grid.cells, grid.shape, d, PyIndex(-1, n), PyIndex(-2, n));
    }
  }

  /** The smaller of two counts: how many of the given conditions an N-d edge function reads. */
  function Min(a: nat, b: nat): nat {
    if a < b then a else b
  }

  /**
   * `edge_conditions1d(grid, *cond)`. With no condition given, `cond[0]`
   * raises `IndexError` (`ok` is false). On a 1-D grid with a named
   * condition it is the generic `edge_condition`.
   */
  method EdgeConditions1d(grid: NdArray, cond: seq<string>) returns (ok: bool)
    requires grid.Valid() && HaloedUpTo(grid.shape, 1)
    modifies grid
    ensures grid.Valid() && (ok <==> |cond| >= 1)
    ensures grid.cells == NamedHaloUpTo(old(grid.cells), grid.shape, cond, Min(|cond|, 1))
    ensures |grid.shape| == 1 && |cond| == 1 && Named(cond) ==>
              grid.cells == EdgeConditionOf(old(grid.cells), grid.shape, Flags(cond))
  {
    if |cond| < 1 {
      return false;
    }
    NamedAxis(grid, 0, cond[0]);
    if |grid.shape| == 1 && |cond| == 1 && Named(cond) {
      assert Haloed(grid.shape) && Shaped(old(grid.cells), grid.shape) by {
        assert old(grid.Valid());
      }
      NamedHaloAgrees(old(grid.cells), grid.shape, cond, 1);
    }
    return true;
  }

  /**
   * `edge_conditions2d(grid, *cond)`: axis 0 then axis 1. A missing
   * condition raises `IndexError` (`ok` is false) after the axes before it
   * were processed.
   */
  method EdgeConditions2d(grid: NdArray, cond: seq<string>) returns (ok: bool)
    requires grid.Valid() && HaloedUpTo(grid.shape, 2)
    modifies grid
    ensures grid.Valid() && (ok <==> |cond| >= 2)
    ensures grid.cells == NamedHaloUpTo(old(grid.cells), grid.shape, cond, Min(|cond|, 2))
    ensures |grid.shape| == 2 && |cond| == 2 && Named(cond) ==>
              grid.cells == EdgeConditionOf(old(grid.cells), grid.shape, Flags(cond))
  {
    if |cond| < 1 {
      return false;
    }
    NamedAxis(grid, 0, cond[0]);
    assert grid.cells == NamedHaloUpTo(old(grid.cells), grid.shape, cond, 1);
    if |cond| < 2 {
      return false;
    }
    NamedAxis(grid, 1, cond[1]);
    assert grid.cells == NamedHaloUpTo(old(grid.cells), grid.shape, cond, 2);
    if |grid.shape| == 2 && |cond| == 2 && Named(cond) {
      assert Haloed(grid.shape) && Shaped(old(grid.cells), grid.shape) by {
        assert old(grid.Valid());
      }
      NamedHaloAgrees(old(grid.cells), grid.shape, cond, 2);
    }
    return true;
  }

  /** `edge_conditions3d(grid, *cond)`: axes 0, 1 and 2 in turn, as `EdgeConditions2d` does for two. */
  method EdgeConditions3d(grid: NdArray, cond: seq<string>) returns (ok: bool)
    requires grid.Valid() && HaloedUpTo(grid.shape, 3)
    modifies grid
    ensures grid.Valid() && (ok <==> |cond| >= 3)
    ensures grid.cells == NamedHaloUpTo(old(grid.cells), grid.shape, cond, Min(|cond|, 3))
    ensures |grid.shape| == 3 && |cond| == 3 && Named(cond) ==>
              grid.cells == EdgeConditionOf(old(grid.cells), grid.shape, Flags(cond))
  {
    if |cond| < 1 {
      return false;
    }
    NamedAxis(grid, 0, cond[0]);
    assert grid.cells == NamedHaloUpTo(old(grid.cells), grid.shape, cond, 1);
    if |cond| < 2 {
      return false;
    }
    NamedAxis(grid, 1, cond[1]);
    assert grid.cells == NamedHaloUpTo(old(grid.cells), grid.shape, cond, 2);
    if |cond| < 3 {
      return false;
    }
    NamedAxis(grid, 2, cond[2]);
    assert grid.cells == NamedHaloUpTo(old(grid.cells), grid.shape, cond, 3);
    if |grid.shape| == 3 && |cond| == 3 && Named(cond) {
      assert Haloed(grid.shape) && Shaped(old(grid.cells), grid.shape) by {
        assert old(grid.Valid());
      }
      NamedHaloAgrees(old(grid.cells), grid.shape, cond, 3);
    }
    return true;
  }

  // ---------------------------------------------------------------------
  // subarray1d/2d/3d and stencil1d/2d/3d

  /** Every offset is -1, 0 or +1. */
  predicate UnitOffsets(sign: seq<int>) {
    forall d :: 0 <= d < |sign| ==> -1 <= sign[d] <= 1
  }

  /** The slices `1 + sign[d] : n - 1 + sign[d]` on every axis. */
  function SignSlices(shape: Shape, sign: seq<int>): (r: seq<Slice>)
    requires |sign| == |shape|
    ensures |r| == |shape|
  {
    seq(|shape|, d requires 0 <= d < |shape| => Slice(1 + sign[d], shape[d] as int - 1 + sign[d]))
  }

  /** Where cell `j` of the shifted view sits in the grid: `j + 1 + sign`. */
  function Shifted(j: Index, sign: seq<int>): (r: Index)
    requires |sign| == |j|
    ensures |r| == |j| && forall d :: 0 <= d < |j| ==> r[d] == j[d] + 1 + sign[d]
  {
    seq(|j|, d requires 0 <= d < |j| => j[d] + 1 + sign[d])
  }

  /** The slices of a unit offset select the core shape, starting at `1 + sign`. */
  lemma SignSlicesShape(shape: Shape, sign: seq<int>)
    requires |sign| == |shape| && Haloed(shape) && UnitOffsets(sign)
    ensures SliceShape(SignSlices(shape, sign), shape) == CoreShape(shape)
    ensures forall d :: 0 <= d < |shape| ==> Starts(SignSlices(shape, sign), shape)[d] == 1 + sign[d]
  {
    var s := SignSlices(shape, sign);
    forall d | 0 <= d < |shape| ensures Range(s[d], shape[d]) == (1 + sign[d], shape[d] - 1 + sign[d]) {
    }
  }

  /** The offsets `[a]`, `[a, b]` and `[a, b, c]` of the stencils are unit offsets. */
  lemma UnitOffsets3(a: int, b: int, c: int)
    requires -1 <= a <= 1 && -1 <= b <= 1 && -1 <= c <= 1
    ensures UnitOffsets([a]) && UnitOffsets([a, b]) && UnitOffsets([a, b, c])
  {
  }

  /** `subarrayNd(arr, *sign)` for an array of rank N with N offsets. */
  function Subarray(m: map<Index, real>, shape: Shape, sign: seq<int>): (r: map<Index, real>)
    requires Shaped(m, shape) && |sign| == |shape|
    ensures forall j :: j in r ==> |j| == |shape|
  {
    SliceCells(m, shape, SignSlices(shape, sign))
  }

  /** A unit-offset view of a haloed array has the core's cells. */
  lemma SubarrayKeys(m: map<Index, real>, shape: Shape, sign: seq<int>)
    requires Shaped(m, shape) && |sign| == |shape| && Haloed(shape) && UnitOffsets(sign)
    ensures Subarray(m, shape, sign).Keys == Indices(CoreShape(shape))
  {
    SignSlicesShape(shape, sign);
    var r := Subarray(m, shape, sign);
    assert Shaped(r, CoreShape(shape));
    assert forall j :: j in r.Keys <==> j in Indices(CoreShape(shape));
  }

  /** Cell `j` of `subarrayNd(arr, *sign)` is `arr[j + 1 + sign]`. */
  lemma SubarrayAt(m: map<Index, real>, shape: Shape, sign: seq<int>, j: Index)
    requires Shaped(m, shape) && |sign| == |shape| && Haloed(shape) && UnitOffsets(sign)
    requires InBounds(CoreShape(shape), j)
    ensures j in Subarray(m, shape, sign) && Shifted(j, sign) in m
    ensures Subarray(m, shape, sign)[j] == m[Shifted(j, sign)]
  {
    SignSlicesShape(shape, sign);
    assert Plus(j, Starts(SignSlices(shape, sign), shape)) == Shifted(j, sign);
  }

  /** `stencil1d(grid)`: `(1/2) * (left + right)`. */
  function Stencil1d(m: map<Index, real>, shape: Shape): (r: map<Index, real>)
    requires Shaped(m, shape) && |shape| == 1 && Haloed(shape)
    ensures Shaped(r, CoreShape(shape))
  {
    UnitOffsets3(-1, 0, 0);
    UnitOffsets3(1, 0, 0);
    SubarrayKeys(m, shape, [-1]);
    SubarrayKeys(m, shape, [1]);
    var r := ScaleCells(AddCells(Subarray(m, shape, [-1]), Subarray(m, shape, [1])), 1.0 / 2.0);
    KeysShaped(r, CoreShape(shape));
    r
  }

  /** `stencil2d(grid)`: a quarter of the four shifted views' sum. */
  function Stencil2d(m: map<Index, real>, shape: Shape): (r: map<Index, real>)
    requires Shaped(m, shape) && |shape| == 2 && Haloed(shape)
    ensures Shaped(r, CoreShape(shape))
  {
    var a, b := Subarray(m, shape, [-1, 0]), Subarray(m, shape, [1, 0]);
    var c, e := Subarray(m, shape, [0, -1]), Subarray(m, shape, [0, 1]);
    UnitOffsets3(-1, 0, 0);
    UnitOffsets3(1, 0, 0);
    UnitOffsets3(0, -1, 0);
    UnitOffsets3(0, 1, 0);
    SubarrayKeys(m, shape, [-1, 0]);
    SubarrayKeys(m, shape, [1, 0]);
    SubarrayKeys(m, shape, [0, -1]);
    SubarrayKeys(m, shape, [0, 1]);
    var r := ScaleCells(AddCells(AddCells(AddCells(a, b), c), e), 1.0 / 4.0);
    KeysShaped(r, CoreShape(shape));
    r
  }

  /** `stencil3d(grid)`: a sixth of the six shifted views' sum. */
  function Stencil3d(m: map<Index, real>, shape: Shape): (r: map<Index, real>)
    requires Shaped(m, shape) && |shape| == 3 && Haloed(shape)
    ensures Shaped(r, CoreShape(shape))
  {
    var a, b := Subarray(m, shape, [-1, 0, 0]), Subarray(m, shape, [1, 0, 0]);
    var c, e := Subarray(m, shape, [0, -1, 0]), Subarray(m, shape, [0, 1, 0]);
    var f, g := Subarray(m, shape, [0, 0, -1]), Subarray(m, shape, [0, 0, 1]);
    UnitOffsets3(-1, 0, 0);
    UnitOffsets3(1, 0, 0);
    UnitOffsets3(0, -1, 0);
    UnitOffsets3(0, 1, 0);
    UnitOffsets3(0, 0, -1);
    UnitOffsets3(0, 0, 1);
    SubarrayKeys(m, shape, [-1, 0, 0]);
    SubarrayKeys(m, shape, [1, 0, 0]);
    SubarrayKeys(m, shape, [0, -1, 0]);
    SubarrayKeys(m, shape, [0, 1, 0]);
    SubarrayKeys(m, shape, [0, 0, -1]);
    SubarrayKeys(m, shape, [0, 0, 1]);
    var r := ScaleCells(AddCells(AddCells(AddCells(AddCells(AddCells(a, b), c), e), f), g), 1.0 / 6.0);
    KeysShaped(r, CoreShape(shape));
    r
  }

  // ---------------------------------------------------------------------
  // Agreement of the fixed-rank stencils with the generic one

  /** The offsets of rank `n` that are `v` on axis `d` and 0 elsewhere. */
  function Unit(n: nat, d: nat, v: int): (r: seq<int>)
    ensures |r| == n && forall e :: 0 <= e < n ==> r[e] == if e == d then v else 0
  {
    seq(n, e requires 0 <= e < n => if e == d then v else 0)
  }

  /** The offsets the stencils pass are unit vectors and their negations. */
  lemma UnitSigns()
    ensures [-1] == Unit(1, 0, -1) && [1] == Unit(1, 0, 1)
    ensures [-1, 0] == Unit(2, 0, -1) && [1, 0] == Unit(2, 0, 1)
    ensures [0, -1] == Unit(2, 1, -1) && [0, 1] == Unit(2, 1, 1)
    ensures [-1, 0, 0] == Unit(3, 0, -1) && [1, 0, 0] == Unit(3, 0, 1)
    ensures [0, -1, 0] == Unit(3, 1, -1) && [0, 1, 0] == Unit(3, 1, 1)
    ensures [0, 0, -1] == Unit(3, 2, -1) && [0, 0, 1] == Unit(3, 2, 1)
  {
  }

  /** The view shifted by -1 along axis `d` is the generic stencil's `array[neg]`, the one shifted by +1 its `array[pos]`. */
  lemma UnitViews(m: map<Index, real>, shape: Shape, d: nat)
    requires Shaped(m, shape) && Haloed(shape) && d < |shape|
    ensures Subarray(m, shape, Unit(|shape|, d, -1)) == NegView(m, shape, d)
    ensures Subarray(m, shape, Unit(|shape|, d, 1)) == PosView(m, shape, d)
  {
    var cs := CoreSlices1(shape);
    var neg, pos := SignSlices(shape, Unit(|shape|, d, -1)), SignSlices(shape, Unit(|shape|, d, 1));
    forall e | 0 <= e < |shape| ensures neg[e] == NegSlices(shape, d)[e] && pos[e] == PosSlices(shape, d)[e] {
      if e != d {
        assert cs[e] == Slice(1, shape[e] as int - 1);
      }
    }
    assert neg == NegSlices(shape, d) && pos == PosSlices(shape, d);
  }

  /** The first pass of a fixed-rank stencil: the view at -1 plus the view at +1 along axis `d`. */
  function ViewPair(m: map<Index, real>, shape: Shape, d: nat): (r: map<Index, real>)
    requires Shaped(m, shape) && Haloed(shape) && d < |shape|
    ensures Shaped(r, CoreShape(shape))
  {
    SameKeys(NegView(m, shape, d), PosView(m, shape, d), CoreShape(shape));
    var r := AddCells(NegView(m, shape, d), PosView(m, shape, d));
    KeysOfShaped(NegView(m, shape, d), r, CoreShape(shape));
    r
  }

  /** A further pass of a fixed-rank stencil over axis `d`: `acc + (view at -1) + (view at +1)`. */
  function NegPosSum(acc: map<Index, real>, m: map<Index, real>, shape: Shape, d: nat): (r: map<Index, real>)
    requires Shaped(m, shape) && Haloed(shape) && d < |shape| && Shaped(acc, CoreShape(shape))
    ensures Shaped(r, CoreShape(shape))
  {
    ViewKeys(acc, m, shape, d);
    var r := AddCells(AddCells(acc, NegView(m, shape, d)), PosView(m, shape, d));
    KeysOfShaped(acc, r, CoreShape(shape));
    r
  }

  /** Adding the -1 view before the +1 view gives the generic accumulator of the next axis. */
  lemma NegPosSumNext(m: map<Index, real>, shape: Shape, d: nat, next: nat)
    requires Shaped(m, shape) && Haloed(shape) && d < |shape| && next == d + 1
    ensures NegPosSum(PartialSums(m, shape, d), m, shape, d) == PartialSums(m, shape, next)
  {
    var ps := PartialSums(m, shape, d);
    AccumulateAxis(m, shape, d);
    ViewKeys(ps, m, shape, d);
    AddSwap(ps, PosView(m, shape, d), NegView(m, shape, d));
  }

  /** On the first axis the zero accumulator drops out: the sum is the -1 view plus the +1 view. */
  lemma FirstAxisSum(m: map<Index, real>, shape: Shape)
    requires Shaped(m, shape) && Haloed(shape) && |shape| >= 1
    ensures PartialSums(m, shape, 1) == ViewPair(m, shape, 0)
  {
    NegPosSumNext(m, shape, 0, 1);
    ZeroAccumulator(m, shape);
  }

  lemma ZeroAccumulator(m: map<Index, real>, shape: Shape)
    requires Shaped(m, shape) && Haloed(shape) && |shape| >= 1
    ensures NegPosSum(PartialSums(m, shape, 0), m, shape, 0) == ViewPair(m, shape, 0)
  {
    var ps, n, p := PartialSums(m, shape, 0), NegView(m, shape, 0), PosView(m, shape, 0);
    ViewKeys(ps, m, shape, 0);
    PartialSumsZero(m, shape);
    AddToZero(ps, n);
    AddCongr(AddCells(ps, n), p, n, p);
  }

  /** `stencil1d` adds the two views of axis 0. */
  lemma Stencil1dViews(m: map<Index, real>, shape: Shape)
    requires Shaped(m, shape) && |shape| == 1 && Haloed(shape)
    ensures Stencil1d(m, shape) == ScaleCells(ViewPair(m, shape, 0), 1.0 / 2.0)
  {
    UnitSigns();
    UnitViews(m, shape, 0);
    SameKeys(NegView(m, shape, 0), PosView(m, shape, 0), CoreShape(shape));
    ScaleAddCongr(Subarray(m, shape, [-1]), Subarray(m, shape, [1]), NegView(m, shape, 0), PosView(m, shape, 0), 1.0 / 2.0);
  }

  /** `stencil2d` adds the views of axis 0, then those of axis 1. */
  lemma Stencil2dViews(m: map<Index, real>, shape: Shape)
    requires Shaped(m, shape) && |shape| == 2 && Haloed(shape)
    ensures Stencil2d(m, shape) == ScaleCells(NegPosSum(ViewPair(m, shape, 0), m, shape, 1), 1.0 / 4.0)
  {
    UnitSigns();
    UnitViews(m, shape, 0);
    UnitViews(m, shape, 1);
    var cs := CoreShape(shape);
    var n0, p0, n1, p1 := NegView(m, shape, 0), PosView(m, shape, 0), NegView(m, shape, 1), PosView(m, shape, 1);
    SameKeys(n0, p0, cs);
    SameKeys(n0, n1, cs);
    SameKeys(n0, p1, cs);
    ScaleAdd4Congr(Subarray(m, shape, [-1, 0]), Subarray(m, shape, [1, 0]),
                   Subarray(m, shape, [0, -1]), Subarray(m, shape, [0, 1]), n0, p0, n1, p1, 1.0 / 4.0);
  }

  /** `stencil3d` adds the views of axes 0, 1 and 2 in turn. */
  lemma Stencil3dViews(m: map<Index, real>, shape: Shape)
    requires Shaped(m, shape) && |shape| == 3 && Haloed(shape)
    ensures Stencil3d(m, shape)
            == ScaleCells(NegPosSum(NegPosSum(ViewPair(m, shape, 0), m, shape, 1), m, shape, 2), 1.0 / 6.0)
  {
    UnitSigns();
    UnitViews(m, shape, 0);
    UnitViews(m, shape, 1);
    UnitViews(m, shape, 2);
    var cs := CoreShape(shape);
    var n0, p0, n1, p1 := NegView(m, shape, 0), PosView(m, shape, 0), NegView(m, shape, 1), PosView(m, shape, 1);
    var n2, p2 := NegView(m, shape, 2), PosView(m, shape, 2);
    SameKeys(n0, p0, cs);
    SameKeys(n0, n1, cs);
    SameKeys(n0, p1, cs);
    SameKeys(n0, n2, cs);
    SameKeys(n0, p2, cs);
    ScaleAdd6Congr(Subarray(m, shape, [-1, 0, 0]), Subarray(m, shape, [1, 0, 0]),
                   Subarray(m, shape, [0, -1, 0]), Subarray(m, shape, [0, 1, 0]),
                   Subarray(m, shape, [0, 0, -1]), Subarray(m, shape, [0, 0, 1]),
                   n0, p0, n1, p1, n2, p2, 1.0 / 6.0);
  }

  /** The generic stencil's weight for ranks 1, 2 and 3. */
  lemma NormValues()
    ensures Norm(1) == 1.0 / 2.0 && Norm(2) == 1.0 / 4.0 && Norm(3) == 1.0 / 6.0
  {
  }

  /** `stencil1d` is the generic `stencil` on 1-D arrays. */
  lemma Stencil1dAgrees(m: map<Index, real>, shape: Shape)
    requires Shaped(m, shape) && |shape| == 1 && Haloed(shape)
    ensures Stencil1d(m, shape) == StencilCells(m, shape)
  {
    Stencil1dViews(m, shape);
    FirstAxisSum(m, shape);
    NormValues();
  }

  /** `stencil2d` is the generic `stencil` on 2-D arrays. */
  lemma Stencil2dAgrees(m: map<Index, real>, shape: Shape)
    requires Shaped(m, shape) && |shape| == 2 && Haloed(shape)
    ensures Stencil2d(m, shape) == StencilCells(m, shape)
  {
    Stencil2dViews(m, shape);
    FirstAxisSum(m, shape);
    NegPosSumNext(m, shape, 1, 2);
    NormValues();
  }

  /** `stencil3d` is the generic `stencil` on 3-D arrays. */
  lemma Stencil3dAgrees(m: map<Index, real>, shape: Shape)
    requires Shaped(m, shape) && |shape| == 3 && Haloed(shape)
    ensures Stencil3d(m, shape) == StencilCells(m, shape)
  {
    Stencil3dViews(m, shape);
    FirstAxisSum(m, shape);
    NegPosSumNext(m, shape, 1, 2);
    NegPosSumNext(m, shape, 2, 3);
    NormValues();
  }
}

=== FILE: pystrings.dfy ===
/**
 * The few Python `str` methods the modelled code relies on: `split` on one
 * separator character, `sep.join`, `strip` and the substring test `x in s`.
 */
module PyStrings {

  /**
   * The characters `str.strip()` removes: those for which `str.isspace()`
   * holds, the ASCII whitespace, the information separators `\x1c`-`\x1f`,
   * NEL, the no-break space and the Unicode space separators, line and
   * paragraph separators.
   */
  predicate IsSpace(c: char) {
    || c == ' ' || '\t' <= c <= '\r' || '\U{001C}' <= c <= '\U{001F}'
    || c == '\U{0085}' || c == '\U{00A0}' || c == '\U{1680}'
    || '\U{2000}' <= c <= '\U{200A}' || c == '\U{2028}' || c == '\U{2029}'
    || c == '\U{202F}' || c == '\U{205F}' || c == '\U{3000}'
  }

  /** `s.split(sep)`: the pieces between occurrences of `sep`; never empty, and no piece holds `sep`. */
  function Split(s: string, sep: char): (r: seq<string>)
    ensures |r| >= 1
    ensures forall k :: 0 <= k < |r| ==> sep !in r[k]
  {
    if s == [] then [""]
    else
      var rest := Split(s[1..], sep);
      if s[0] == sep then [""] + rest else [[s[0]] + rest[0]] + rest[1..]
  }

  /** `sep.join(xs)` */
  function Join(xs: seq<string>, sep: char): string {
    if xs == [] then ""
    else if |xs| == 1 then xs[0]
    else xs[0] + [sep] + Join(xs[1..], sep)
  }

  /** Splitting what was joined gives back the pieces, when no piece holds the separator. */
  lemma {:induction false} SplitJoin(xs: seq<string>, sep: char)
    requires |xs| >= 1
    requires forall k :: 0 <= k < |xs| ==> sep !in xs[k]
    ensures Split(Join(xs, sep), sep) == xs
  {
    if |xs| == 1 {
      SplitNoSep(xs[0], sep);
    } else {
      SplitJoin(xs[1..], sep);
      SplitPrefix(xs[0], Join(xs[1..], sep), sep);
    }
  }

  /** A string without the separator splits into itself. */
  lemma {:induction false} SplitNoSep(s: string, sep: char)
    requires sep !in s
    ensures Split(s, sep) == [s]
  {
    if s != [] {
      SplitNoSep(s[1..], sep);
      assert [s[0]] + s[1..] == s;
    }
  }

  /** `(a + sep + t).split(sep)` is `[a] + t.split(sep)` when `a` holds no separator. */
  lemma {:induction false} SplitPrefix(a: string, t: string, sep: char)
    requires sep !in a
    ensures Split(a + [sep] + t, sep) == [a] + Split(t, sep)
  {
    if a == [] {
      assert a + [sep] + t == [sep] + t;
    } else {
      var w := a + [sep] + t;
      assert w[0] == a[0] && w[1..] == a[1..] + [sep] + t;
      SplitPrefix(a[1..], t, sep);
      assert [a[0]] + a[1..] == a;
    }
  }

  /** Joining what was split gives back the string. */
  lemma {:induction false} JoinSplit(s: string, sep: char)
    ensures Join(Split(s, sep), sep) == s
  {
    if s != [] {
      var rest := Split(s[1..], sep);
      JoinSplit(s[1..], sep);
      if s[0] == sep {
        assert Split(s, sep) == [""] + rest;
        assert s == [sep] + s[1..];
      } else {
        var r := Split(s, sep);
        assert r == [[s[0]] + rest[0]] + rest[1..];
        if |rest| == 1 {
          assert s == [s[0]] + s[1..];
        } else {
          assert r[1..] == rest[1..];
          assert Join(rest, sep) == rest[0] + [sep] + Join(rest[1..], sep);
          assert s == [s[0]] + s[1..];
        }
      }
    }
  }

  function TrimLeft(s: string): (r: string)
    ensures r == [] || !IsSpace(r[0])
    ensures |r| <= |s| && r == s[|s| - |r|..]
  {
    if s != [] && IsSpace(s[0]) then TrimLeft(s[1..]) else s
  }

  function TrimRight(s: string): (r: string)
    ensures r == [] || !IsSpace(r[|r| - 1])
    ensures |r| <= |s| && r == s[..|r|]
  {
    if s != [] && IsSpace(s[|s| - 1]) then TrimRight(s[..|s| - 1]) else s
  }

  /** `s.strip()`: leading and trailing whitespace removed. */
  function Strip(s: string): (r: string)
    ensures r == [] || (!IsSpace(r[0]) && !IsSpace(r[|r| - 1]))
  {
    var l := TrimLeft(s);
    var r := TrimRight(l);
    assert r != [] ==> !IsSpace(r[0]) by {
      if r != [] { assert r[0] == l[0]; }
    }
    r
  }

  /** Only whitespace strips to the empty string. */
  lemma StripBlank(s: string)
    requires forall c :: c in s ==> IsSpace(c)
    ensures Strip(s) == ""
  {
  }

  /** A string with no whitespace at either end is its own strip. */
  lemma StripKeeps(s: string)
    requires s == [] || (!IsSpace(s[0]) && !IsSpace(s[|s| - 1]))
    ensures Strip(s) == s
  {
  }

  /** The substring test `sub in s`. */
  predicate Contains(s: string, sub: string) {
    sub <= s || (s != [] && Contains(s[1..], sub))
  }

  /** A string never contains one longer than itself. */
  lemma {:induction false} ContainsShorter(s: string, sub: string)
    requires |s| < |sub|
    ensures !Contains(s, sub)
    decreases |s|
  {
    if s != [] {
      ContainsShorter(s[1..], sub);
    }
  }
}

=== FILE: shape_schema.dfy ===
/**
 * The rectangle record of the shape schema: a dict naming a rectangle and
 * its two corner points, refused when a point is missing.
 */
module ShapeSchema {
  import opened Wrappers
  import opened Values

  /**
   * Python's truth value of `v`: false for `None`, `False`, zero, and empty
   * strings and containers; a numpy array is the truth of its only element,
   * false when empty, and raises `ValueError` with more than one element.
   */
  function Truthy(v: Value): (r: Result<bool>)
    ensures r.Err? <==> v.Array? && |v.elements| > 1
    ensures r.Err? ==> r.error.ValueError?
  {
    match v
    case Null => Ok(false)
    case Bool(b) => Ok(b)
    case Num(x) => Ok(x != 0.0)
    case Str(s) => Ok(s != "")
    case List(xs) => Ok(xs != [])
    case Tuple(xs) => Ok(xs != [])
    case Dict(es) => Ok(es != [])
    case Record(_, vs) => Ok(vs != [])
    case Array(_, elements) =>
      if |elements| == 0 then Ok(false)
      else if |elements| == 1 then Ok(elements[0] != 0.0)
      else Err(ValueError("The truth value of an array with more than one element is ambiguous"))
  }

  /** `all(xs)`: the truth of the items in order, stopping at the first false one or the first that raises. */
  function All(xs: seq<Value>): (r: Result<bool>)
    ensures r == Ok(true) <==> forall i :: 0 <= i < |xs| ==> Truthy(xs[i]) == Ok(true)
    ensures r == Ok(false) <==> exists i :: 0 <= i < |xs| && Truthy(xs[i]) == Ok(false) && forall j :: 0 <= j < i ==> Truthy(xs[j]) == Ok(true)
    ensures r.Err? ==> exists i :: 0 <= i < |xs| && Truthy(xs[i]) == r && forall j :: 0 <= j < i ==> Truthy(xs[j]) == Ok(true)
  {
    if xs == [] then Ok(true)
    else
      var t := Truthy(xs[0]);
      if t.Err? then Err(t.error)
      else if !t.value then Ok(false)
      else
        var r := All(xs[1..]);
        AllTail(xs, r);
        r
  }

  /** After a truthy first item, `all` of the rest answers for the whole list. */
  lemma AllTail(xs: seq<Value>, r: Result<bool>)
    requires xs != [] && Truthy(xs[0]) == Ok(true)
    requires r == Ok(true) <==> forall i :: 0 <= i < |xs[1..]| ==> Truthy(xs[1..][i]) == Ok(true)
    requires r == Ok(false) <==> exists i :: 0 <= i < |xs[1..]| && Truthy(xs[1..][i]) == Ok(false) && forall j :: 0 <= j < i ==> Truthy(xs[1..][j]) == Ok(true)
    ensures r == Ok(true) <==> forall i :: 0 <= i < |xs| ==> Truthy(xs[i]) == Ok(true)
    ensures r == Ok(false) <==> exists i :: 0 <= i < |xs| && Truthy(xs[i]) == Ok(false) && forall j :: 0 <= j < i ==> Truthy(xs[j]) == Ok(true)
    ensures r.Err? && (exists i :: 0 <= i < |xs[1..]| && Truthy(xs[1..][i]) == r && forall j :: 0 <= j < i ==> Truthy(xs[1..][j]) == Ok(true)) ==>
      exists i :: 0 <= i < |xs| && Truthy(xs[i]) == r && forall j :: 0 <= j < i ==> Truthy(xs[j]) == Ok(true)
  {
    var tl := xs[1..];
    assert forall i :: 1 <= i < |xs| ==> tl[i - 1] == xs[i];
    if r == Ok(false) {
      var i :| 0 <= i < |tl| && Truthy(tl[i]) == Ok(false) && forall j :: 0 <= j < i ==> Truthy(tl[j]) == Ok(true);
      assert Truthy(xs[i + 1]) == Ok(false);
      assert forall j :: 0 <= j < i + 1 ==> Truthy(xs[j]) == Ok(true);
    }
    if exists i :: 0 <= i < |xs| && Truthy(xs[i]) == Ok(false) && forall j :: 0 <= j < i ==> Truthy(xs[j]) == Ok(true) {
      var i :| 0 <= i < |xs| && Truthy(xs[i]) == Ok(false) && forall j :: 0 <= j < i ==> Truthy(xs[j]) == Ok(true);
      assert i >= 1 && Truthy(tl[i - 1]) == Ok(false);
      assert forall j :: 0 <= j < i - 1 ==> Truthy(tl[j]) == Ok(true);
    }
    if r.Err? && exists i :: 0 <= i < |tl| && Truthy(tl[i]) == r && forall j :: 0 <= j < i ==> Truthy(tl[j]) == Ok(true) {
      var i :| 0 <= i < |tl| && Truthy(tl[i]) == r && forall j :: 0 <= j < i ==> Truthy(tl[j]) == Ok(true);
      assert Truthy(xs[i + 1]) == r;
      assert forall j :: 0 <= j < i + 1 ==> Truthy(xs[j]) == Ok(true);
    }
  }

  /** The message of the exception for a rectangle without both points. */
  function LacksPoints(name: string): string {
    "rectangle \"" + name + "\" lacks points"
  }

  /**
   * `rectangle(name, point1, point2)`: the dict `{type: "rectangle", name,
   * point1, point2}` when both points are truthy, else `ValueError`.
   */
  function Rectangle(name: string, point1: Value, point2: Value): (r: Result<Value>)
    ensures r.Ok? <==> Truthy(point1) == Ok(true) && Truthy(point2) == Ok(true)
    ensures Truthy(point1) == Ok(false) ==> r == Err(ValueError(LacksPoints(name)))
    ensures Truthy(point1) == Ok(true) && Truthy(point2) == Ok(false) ==> r == Err(ValueError(LacksPoints(name)))
    ensures Truthy(point1).Err? ==> r == Err(Truthy(point1).error)
    ensures Truthy(point1) == Ok(true) && Truthy(point2).Err? ==> r == Err(Truthy(point2).error)
    ensures r.Ok? ==>
      && r.value.Dict? && UniqueKeys(r.value.entries)
      && Get(r.value.entries, "type") == Some(Str("rectangle"))
      && Get(r.value.entries, "name") == Some(Str(name))
      && Get(r.value.entries, "point1") == Some(point1)
      && Get(r.value.entries, "point2") == Some(point2)
  {
    var points := [point1, point2];
    assert points[0] == point1 && points[1] == point2;
    var t := All(points);
    if t.Err? then Err(t.error)
    else if !t.value then Err(ValueError(LacksPoints(name)))
    else
      var es := [("type", Str("rectangle")), ("name", Str(name)), ("point1", point1), ("point2", point2)];
      GetUnique(es, 0);
      GetUnique(es, 1);
      GetUnique(es, 2);
      GetUnique(es, 3);
      Ok(Dict(es))
  }
}

=== FILE: shapes.dfy ===
/**
 * Solid shapes for building electrode geometries (`pochoir/shapes.py`).
 *
 * Every shape answers `inside(point)`. Points are coordinate vectors of the
 * shape's own dimension; a sphere keeps its centre and squared radius, a
 * shelf (an axis-aligned box) its two corners, and the boolean combinations
 * keep their members.
 */
module Shapes {

  type Point = seq<real>

  datatype Solid =
    | Sphere(center: Point, radius2: real)   // built from `radius` as `radius*radius`
    | Shelf(p1: Point, p2: Point)
    | Union(members: seq<Solid>)
    | Intersection(members: seq<Solid>)
    | Hole(shape: Solid)

  /** `Sphere(radius, center)` */
  function MakeSphere(radius: real, center: Point): (s: Solid)
    ensures s.Sphere? && s.center == center && s.radius2 >= 0.0
  {
    Sphere(center, radius * radius)
  }

  /** Every sphere and shelf inside `s` has dimension `n`, so numpy's vector arithmetic applies to points of dimension `n`. */
  predicate Fits(s: Solid, n: nat) {
    match s
    case Sphere(c, _) => |c| == n
    case Shelf(p1, p2) => |p1| == n && |p2| == n
    case Union(ss) => forall i :: 0 <= i < |ss| ==> Fits(ss[i], n)
    case Intersection(ss) => forall i :: 0 <= i < |ss| ==> Fits(ss[i], n)
    case Hole(h) => Fits(h, n)
  }

  function Size(s: Solid): nat {
    match s
    case Sphere(_, _) => 1
    case Shelf(_, _) => 1
    case Union(ss) => 1 + Sizes(ss)
    case Intersection(ss) => 1 + Sizes(ss)
    case Hole(h) => 1 + Size(h)
  }

  function Sizes(ss: seq<Solid>): nat {
    if ss == [] then 0 else 1 + Size(ss[0]) + Sizes(ss[1..])
  }

  /** `numpy.dot(d, d)` for `d = p - c`: the squared distance between two points. */
  function SqDist(p: Point, c: Point): (r: real)
    requires |p| == |c|
    ensures r >= 0.0
  {
    if p == [] then 0.0 else (p[0] - c[0]) * (p[0] - c[0]) + SqDist(p[1..], c[1..])
  }

  /** `(a <= b).all()` */
  predicate AllLe(a: Point, b: Point)
    requires |a| == |b|
  {
    a == [] || (a[0] <= b[0] && AllLe(a[1..], b[1..]))
  }

  /** `s.inside(p)` */
  predicate Inside(s: Solid, p: Point)
    requires Fits(s, |p|)
    decreases Size(s), 1
  {
    match s
    case Sphere(c, r2) => SqDist(p, c) <= r2
    case Shelf(p1, p2) => AllLe(p1, p) && AllLe(p, p2)
    case Union(ss) => AnyInside(ss, p)
    case Intersection(ss) => AllInside(ss, p)
    case Hole(h) => !Inside(h, p)
  }

  /** `any([s.inside(p) for s in ss])` */
  predicate AnyInside(ss: seq<Solid>, p: Point)
    requires forall i :: 0 <= i < |ss| ==> Fits(ss[i], |p|)
    decreases Sizes(ss), 0
  {
    ss != [] && (Inside(ss[0], p) || AnyInside(ss[1..], p))
  }

  /** `all([s.inside(p) for s in ss])` */
  predicate AllInside(ss: seq<Solid>, p: Point)
    requires forall i :: 0 <= i < |ss| ==> Fits(ss[i], |p|)
    decreases Sizes(ss), 0
  {
    ss == [] || (Inside(ss[0], p) && AllInside(ss[1..], p))
  }

  // Spheres

  /** The centre of a sphere lies inside it, whatever the radius. */
  lemma {:induction false} SphereHoldsCenter(radius: real, c: Point)
    ensures Inside(MakeSphere(radius, c), c)
  {
    ZeroSqDist(c);
  }

  lemma {:induction false} ZeroSqDist(c: Point)
    ensures SqDist(c, c) == 0.0
  {
    if c != [] {
      ZeroSqDist(c[1..]);
    }
  }

  /** The boundary is inclusive: the point `radius` away from the centre along axis `k` is inside. */
  lemma {:induction false} SphereHoldsAxisPoint(radius: real, c: Point, k: nat)
    requires k < |c|
    ensures Inside(MakeSphere(radius, c), c[k := c[k] + radius])
  {
    AxisSqDist(c, k, radius);
  }

  lemma {:induction false} AxisSqDist(c: Point, k: nat, t: real)
    requires k < |c|
    ensures SqDist(c[k := c[k] + t], c) == t * t
  {
    var p := c[k := c[k] + t];
    if k == 0 {
      assert p[1..] == c[1..];
      ZeroSqDist(c[1..]);
    } else {
      assert p[1..] == c[1..][k - 1 := c[k] + t];
      AxisSqDist(c[1..], k - 1, t);
    }
  }

  /** Each coordinate's squared offset is at most the squared distance. */
  lemma {:induction false} SqDistCovers(p: Point, c: Point, k: nat)
    requires |p| == |c| && k < |p|
    ensures (p[k] - c[k]) * (p[k] - c[k]) <= SqDist(p, c)
  {
    if k > 0 {
      SqDistCovers(p[1..], c[1..], k - 1);
    }
  }

  /** A point further than the radius from the centre along any one axis is outside. */
  lemma SphereMissesFarPoint(radius: real, c: Point, p: Point, k: nat)
    requires |p| == |c| && k < |p|
    requires (p[k] - c[k]) * (p[k] - c[k]) > radius * radius
    ensures !Inside(MakeSphere(radius, c), p)
  {
    SqDistCovers(p, c, k);
  }

  function Reflect(p: Point, c: Point): (r: Point)
    requires |p| == |c|
    ensures |r| == |p| && forall d :: 0 <= d < |r| ==> r[d] == 2.0 * c[d] - p[d]
  {
    seq(|p|, d requires 0 <= d < |p| => 2.0 * c[d] - p[d])
  }

  /** A sphere is symmetric about its centre. */
  lemma SphereSymmetric(radius: real, c: Point, p: Point)
    requires |p| == |c|
    ensures Inside(MakeSphere(radius, c), p) <==> Inside(MakeSphere(radius, c), Reflect(p, c))
  {
    ReflectSqDist(p, c);
  }

  lemma {:induction false} ReflectSqDist(p: Point, c: Point)
    requires |p| == |c|
    ensures SqDist(Reflect(p, c), c) == SqDist(p, c)
  {
    if p != [] {
      assert Reflect(p, c)[1..] == Reflect(p[1..], c[1..]);
      ReflectSqDist(p[1..], c[1..]);
    }
  }

  // Shelves

  lemma {:induction false} AllLeEach(a: Point, b: Point)
    requires |a| == |b|
    ensures AllLe(a, b) <==> forall d :: 0 <= d < |a| ==> a[d] <= b[d]
  {
    if a != [] {
      AllLeEach(a[1..], b[1..]);
      assert forall d :: 1 <= d < |a| ==> a[d] == a[1..][d - 1] && b[d] == b[1..][d - 1];
    }
  }

  /** A shelf holds exactly the points lying between its corners on every axis, corners included. */
  lemma ShelfInside(p1: Point, p2: Point, p: Point)
    requires |p1| == |p2| == |p|
    ensures Inside(Shelf(p1, p2), p) <==> forall d :: 0 <= d < |p| ==> p1[d] <= p[d] <= p2[d]
  {
    AllLeEach(p1, p);
    AllLeEach(p, p2);
  }

  /** Both corners of a shelf are inside it when the first is below the second on every axis. */
  lemma ShelfHoldsCorners(p1: Point, p2: Point)
    requires |p1| == |p2|
    requires forall d :: 0 <= d < |p1| ==> p1[d] <= p2[d]
    ensures Inside(Shelf(p1, p2), p1) && Inside(Shelf(p1, p2), p2)
  {
    ShelfInside(p1, p2, p1);
    ShelfInside(p1, p2, p2);
  }

  // Boolean combinations

  /** A union holds a point iff some member does. */
  lemma {:induction false} UnionInside(ss: seq<Solid>, p: Point)
    requires forall i :: 0 <= i < |ss| ==> Fits(ss[i], |p|)
    ensures Inside(Union(ss), p) <==> exists i :: 0 <= i < |ss| && Inside(ss[i], p)
  {
    AnyInsideSome(ss, p);
  }

  lemma {:induction false} AnyInsideSome(ss: seq<Solid>, p: Point)
    requires forall i :: 0 <= i < |ss| ==> Fits(ss[i], |p|)
    ensures AnyInside(ss, p) <==> exists i :: 0 <= i < |ss| && Inside(ss[i], p)
    decreases |ss|
  {
    if ss != [] {
      AnyInsideSome(ss[1..], p);
      if exists i :: 0 <= i < |ss| && Inside(ss[i], p) {
        var i :| 0 <= i < |ss| && Inside(ss[i], p);
        if i > 0 {
          assert Inside(ss[1..][i - 1], p);
        }
      }
      if exists j :: 0 <= j < |ss[1..]| && Inside(ss[1..][j], p) {
        var j :| 0 <= j < |ss[1..]| && Inside(ss[1..][j], p);
        assert Inside(ss[j + 1], p);
      }
    }
  }

  /** An intersection holds a point iff every member does. */
  lemma {:induction false} IntersectionInside(ss: seq<Solid>, p: Point)
    requires forall i :: 0 <= i < |ss| ==> Fits(ss[i], |p|)
    ensures Inside(Intersection(ss), p) <==> forall i :: 0 <= i < |ss| ==> Inside(ss[i], p)
  {
    AllInsideEvery(ss, p);
  }

  lemma {:induction false} AllInsideEvery(ss: seq<Solid>, p: Point)
    requires forall i :: 0 <= i < |ss| ==> Fits(ss[i], |p|)
    ensures AllInside(ss, p) <==> forall i :: 0 <= i < |ss| ==> Inside(ss[i], p)
    decreases |ss|
  {
    if ss != [] {
      AllInsideEvery(ss[1..], p);
      if forall i :: 0 <= i < |ss| ==> Inside(ss[i], p) {
        assert forall j :: 0 <= j < |ss[1..]| ==> Inside(ss[1..][j], p) by {
          forall j | 0 <= j < |ss[1..]| ensures Inside(ss[1..][j], p) {
            assert ss[1..][j] == ss[j + 1];
          }
        }
      }
      if AllInside(ss, p) {
        forall i | 0 <= i < |ss| ensures Inside(ss[i], p) {
          if i > 0 {
            assert ss[i] == ss[1..][i - 1];
          }
        }
      }
    }
  }

  /** The empty union contains nothing and the empty intersection contains everything. */
  lemma EmptyCombinations(p: Point)
    ensures !Inside(Union([]), p) && Inside(Intersection([]), p)
  {
  }

  /** A hole is the complement of its shape, so a hole of a hole is the shape again. */
  lemma HoleOfHole(s: Solid, p: Point)
    requires Fits(s, |p|)
    ensures Inside(Hole(s), p) <==> !Inside(s, p)
    ensures Inside(Hole(Hole(s)), p) <==> Inside(s, p)
  {
  }

  /** Cutting `b` out of `s` with `Intersection(s, Hole(b))` leaves no point of `b`. */
  lemma CutOut(s: Solid, b: Solid, p: Point)
    requires Fits(s, |p|) && Fits(b, |p|)
    ensures Inside(Intersection([s, Hole(b)]), p) <==> Inside(s, p) && !Inside(b, p)
  {
    var ss := [s, Hole(b)];
    IntersectionInside(ss, p);
    HoleOfHole(b, p);
    assert (forall i :: 0 <= i < |ss| ==> Inside(ss[i], p)) <==> Inside(ss[0], p) && Inside(ss[1], p);
  }

  function Holes(ss: seq<Solid>): (r: seq<Solid>)
    ensures |r| == |ss| && forall i :: 0 <= i < |ss| ==> r[i] == Hole(ss[i])
  {
    seq(|ss|, i requires 0 <= i < |ss| => Hole(ss[i]))
  }

  /** De Morgan: the hole of a union is the intersection of the members' holes. */
  lemma HoleOfUnion(ss: seq<Solid>, p: Point)
    requires forall i :: 0 <= i < |ss| ==> Fits(ss[i], |p|)
    ensures Inside(Hole(Union(ss)), p) <==> Inside(Intersection(Holes(ss)), p)
  {
    UnionInside(ss, p);
    IntersectionInside(Holes(ss), p);
  }
}

=== FILE: units.dfy ===
/**
 * Pochoir's system of units: millimetres, seconds, radians, kelvin and
 * volts are the base units, each 1.
 */
module Units {
  const mm: real := 1.0
  const um: real := 0.001 * mm
  const cm: real := 10.0 * mm
  const m: real := 1000.0 * mm
  const rad: real := 1.0
  const deg: real := 3.141592 / 180.0 * rad

  const second: real := 1.0
  const s: real := second
  const ms: real := second * 0.001
  const us: real := second * 0.000001
  const ns: real := second * 0.000000001

  const Kelvin: real := 1.0
  const K: real := Kelvin

  const Volt: real := 1.0
  const V: real := Volt
  const kV: real := 1000.0 * V

  /** How the lengths relate to one another: a thousand micrometres to the millimetre, ten millimetres to the centimetre, a hundred centimetres to the metre. */
  lemma Lengths()
    ensures mm == 1.0 && 1000.0 * um == mm && cm == 10.0 * mm && m == 100.0 * cm && m == 1000.0 * mm
  {
  }

  /** How the times relate: each of ms, us and ns is a thousandth of the one before, starting from the second. */
  lemma Times()
    ensures s == second == 1.0 && 1000.0 * ms == s && 1000.0 * us == ms && 1000.0 * ns == us
  {
  }

  /** A half turn is 180 degrees of 3.141592 / 180 radians each, and the remaining units are the base units or their aliases. */
  lemma Others()
    ensures 180.0 * deg == 3.141592 * rad && rad == 1.0
    ensures K == Kelvin == 1.0 && V == Volt == 1.0 && kV == 1000.0 * V
  {
  }
}

=== FILE: util.dfy ===
/**
 * `flatten` from the utilities: a hierarchical dict made flat, each leaf
 * under the key that joins the keys on its path with a separator.
 */
module Util {
  import opened Wrappers
  import opened Values

  /** The key of item `k` under `parent`: `parent + sep + k`, or `k` alone when `parent` is empty. */
  function NewKey(parent: string, sep: string, k: string): string {
    if parent != "" then parent + sep + k else k
  }

  /**
   * `flatten(d, sep, parent)` for a dict `d`: the dict built from the items
   * collected for its entries.
   */
  function Flatten(d: Value, sep: string, parent: string): seq<(string, Value)>
    requires d.Dict?
    decreases d, 1, 0
  {
    DictOf(Items(d, 0, sep, parent))
  }

  /**
   * The items `flatten` collects for entries `j..` of `d`: a dict value
   * contributes the items of its own flattening under the new key; any other
   * value, which has no `items` and so raises `AttributeError` inside the
   * recursive call, becomes one item under the new key.
   */
  function Items(d: Value, j: nat, sep: string, parent: string): seq<(string, Value)>
    requires d.Dict? && j <= |d.entries|
    decreases d, 0, |d.entries| - j
  {
    if j == |d.entries| then []
    else
      var k, v := d.entries[j].0, d.entries[j].1;
      var nk := NewKey(parent, sep, k);
      (if v.Dict? then Flatten(v, sep, nk) else [(nk, v)]) + Items(d, j + 1, sep, parent)
  }

  /** `flatten(v, sep, parent)` on any value: one without `items` raises `AttributeError`. */
  function FlattenValue(v: Value, sep: string, parent: string): (r: Result<seq<(string, Value)>>)
    ensures r.Err? <==> !v.Dict?
    ensures r.Err? ==> r.error == AttributeError("items")
  {
    if v.Dict? then Ok(Flatten(v, sep, parent)) else Err(AttributeError("items"))
  }

  // ---------------------------------------------------------------------
  // The reference: leaves and their paths

  /** Every leaf under entries `j..` of `d`, depth first, under its joined key, duplicates and all. */
  function Leaves(d: Value, j: nat, sep: string, parent: string): seq<(string, Value)>
    requires d.Dict? && j <= |d.entries|
    decreases d, |d.entries| - j
  {
    if j == |d.entries| then []
    else
      var k, v := d.entries[j].0, d.entries[j].1;
      var nk := NewKey(parent, sep, k);
      (if v.Dict? then Leaves(v, 0, sep, nk) else [(nk, v)]) + Leaves(d, j + 1, sep, parent)
  }

  /** The key a leaf at `path` gets: the keys of the path joined onto `parent`. */
  function JoinKey(parent: string, sep: string, path: seq<string>): string
    decreases |path|
  {
    if path == [] then parent else JoinKey(NewKey(parent, sep, path[0]), sep, path[1..])
  }

  /** Following the keys `path` from dict `d` ends at the value `v`, which is not a dict. */
  ghost predicate LeafAt(d: Value, path: seq<string>, v: Value)
    decreases d, 1
  {
    d.Dict? && LeafFrom(d, 0, path, v)
  }

  /** `LeafAt` through one of the entries `j..` of dict `d`. */
  ghost predicate LeafFrom(d: Value, j: nat, path: seq<string>, v: Value)
    requires d.Dict?
    decreases d, 0
  {
    path != [] &&
    exists i :: j <= i < |d.entries| && d.entries[i].0 == path[0] &&
      (if d.entries[i].1.Dict? then LeafAt(d.entries[i].1, path[1..], v) else |path| == 1 && v == d.entries[i].1)
  }

  // ---------------------------------------------------------------------
  // Properties

  /** Flattening level by level and building one dict from all the leaves give the same dict. */
  lemma {:induction false} ItemsFold(acc: seq<(string, Value)>, d: Value, j: nat, sep: string, parent: string)
    requires d.Dict? && j <= |d.entries|
    ensures Fold(acc, Items(d, j, sep, parent)) == Fold(acc, Leaves(d, j, sep, parent))
    decreases d, |d.entries| - j
  {
    if j < |d.entries| {
      var k, v := d.entries[j].0, d.entries[j].1;
      var nk := NewKey(parent, sep, k);
      var head := if v.Dict? then Flatten(v, sep, nk) else [(nk, v)];
      var leaves := if v.Dict? then Leaves(v, 0, sep, nk) else [(nk, v)];
      FoldAppend(acc, head, Items(d, j + 1, sep, parent));
      FoldAppend(acc, leaves, Leaves(d, j + 1, sep, parent));
      if v.Dict? {
        FoldDictOf(acc, Items(v, 0, sep, nk));
        ItemsFold(acc, v, 0, sep, nk);
      }
      ItemsFold(Fold(acc, leaves), d, j + 1, sep, parent);
    }
  }

  /** `flatten(d)` is `dict` of the leaves of `d` in depth-first order: a repeated key keeps its first place and its last value. */
  lemma FlattenIsDictOfLeaves(d: Value, sep: string, parent: string)
    requires d.Dict?
    ensures Flatten(d, sep, parent) == DictOf(Leaves(d, 0, sep, parent))
  {
    ItemsFold([], d, 0, sep, parent);
  }

  /** Every leaf comes from a path of keys through `d`, under the key joined from that path. */
  lemma {:induction false} LeavesHavePaths(d: Value, j: nat, sep: string, parent: string, p: (string, Value))
    requires d.Dict? && j <= |d.entries| && p in Leaves(d, j, sep, parent)
    ensures exists path :: LeafFrom(d, j, path, p.1) && p.0 == JoinKey(parent, sep, path)
    decreases d, |d.entries| - j
  {
    var k, v := d.entries[j].0, d.entries[j].1;
    var nk := NewKey(parent, sep, k);
    var head := if v.Dict? then Leaves(v, 0, sep, nk) else [(nk, v)];
    if p in head {
      if v.Dict? {
        LeavesHavePaths(v, 0, sep, nk, p);
        var tail :| LeafFrom(v, 0, tail, p.1) && p.0 == JoinKey(nk, sep, tail);
        var path := [k] + tail;
        assert path[0] == k && path[1..] == tail;
        assert LeafAt(v, path[1..], p.1);
        assert LeafFrom(d, j, path, p.1);
      } else {
        assert p == (nk, v);
        assert [k][1..] == [];
        assert LeafFrom(d, j, [k], p.1);
        assert p.0 == JoinKey(parent, sep, [k]);
      }
    } else {
      LeavesHavePaths(d, j + 1, sep, parent, p);
      var path :| LeafFrom(d, j + 1, path, p.1) && p.0 == JoinKey(parent, sep, path);
      assert LeafFrom(d, j, path, p.1);
    }
  }

  /** Every path of keys through `d` to a value that is not a dict gives a leaf under its joined key. */
  lemma {:induction false} PathsAreLeaves(d: Value, j: nat, sep: string, parent: string, path: seq<string>, v: Value)
    requires d.Dict? && j <= |d.entries| && LeafFrom(d, j, path, v)
    ensures (JoinKey(parent, sep, path), v) in Leaves(d, j, sep, parent)
    decreases d, |d.entries| - j
  {
    var i :| j <= i < |d.entries| && d.entries[i].0 == path[0] &&
      (if d.entries[i].1.Dict? then LeafAt(d.entries[i].1, path[1..], v) else |path| == 1 && v == d.entries[i].1);
    if i == j {
      var w := d.entries[j].1;
      var nk := NewKey(parent, sep, path[0]);
      if w.Dict? {
        PathsAreLeaves(w, 0, sep, nk, path[1..], v);
      }
      LeafOfEntry(d, j, sep, parent, path, v);
    } else {
      assert LeafFrom(d, j + 1, path, v);
      PathsAreLeaves(d, j + 1, sep, parent, path, v);
      LeavesUnfold(d, j, sep, parent);
    }
  }

  /** The leaves of entries `j..` are those of entry `j` followed by those of the entries after it. */
  lemma LeavesUnfold(d: Value, j: nat, sep: string, parent: string)
    requires d.Dict? && j < |d.entries|
    ensures var nk := NewKey(parent, sep, d.entries[j].0);
            var w := d.entries[j].1;
            Leaves(d, j, sep, parent) == (if w.Dict? then Leaves(w, 0, sep, nk) else [(nk, w)]) + Leaves(d, j + 1, sep, parent)
  {
  }

  /** A path through entry `j` itself gives a leaf of entries `j..`, once the entry's own leaves hold it. */
  lemma LeafOfEntry(d: Value, j: nat, sep: string, parent: string, path: seq<string>, v: Value)
    requires d.Dict? && j < |d.entries| && path != [] && d.entries[j].0 == path[0]
    requires var w := d.entries[j].1;
             if w.Dict? then (JoinKey(NewKey(parent, sep, path[0]), sep, path[1..]), v) in Leaves(w, 0, sep, NewKey(parent, sep, path[0]))
             else |path| == 1 && v == w
    ensures (JoinKey(parent, sep, path), v) in Leaves(d, j, sep, parent)
  {
    var nk := NewKey(parent, sep, path[0]);
    assert JoinKey(parent, sep, path) == JoinKey(nk, sep, path[1..]);
    LeavesUnfold(d, j, sep, parent);
    if !d.entries[j].1.Dict? {
      assert path[1..] == [];
      assert JoinKey(parent, sep, path) == nk;
    }
  }

  /** No leaf is a dict. */
  lemma {:induction false} LeavesNotDicts(d: Value, j: nat, sep: string, parent: string)
    requires d.Dict? && j <= |d.entries|
    ensures forall p :: p in Leaves(d, j, sep, parent) ==> !p.1.Dict?
    decreases d, |d.entries| - j
  {
    if j < |d.entries| {
      var k, v := d.entries[j].0, d.entries[j].1;
      if v.Dict? {
        LeavesNotDicts(v, 0, sep, NewKey(parent, sep, k));
      }
      LeavesNotDicts(d, j + 1, sep, parent);
    }
  }

  /** Under a non-empty `parent`, every leaf's key starts with `parent + sep`. */
  lemma {:induction false} LeavesUnderParent(d: Value, j: nat, sep: string, parent: string)
    requires d.Dict? && j <= |d.entries| && parent != ""
    ensures forall p :: p in Leaves(d, j, sep, parent) ==> parent + sep <= p.0
    decreases d, |d.entries| - j
  {
    if j < |d.entries| {
      var k, v := d.entries[j].0, d.entries[j].1;
      var nk := NewKey(parent, sep, k);
      assert nk == (parent + sep) + k;
      if v.Dict? {
        LeavesUnderParent(v, 0, sep, nk);
        forall p | p in Leaves(v, 0, sep, nk) ensures parent + sep <= p.0 {
          assert nk + sep <= p.0;
          assert (parent + sep) == (nk + sep)[..|parent + sep|];
        }
      }
      LeavesUnderParent(d, j + 1, sep, parent);
    }
  }

  /**
   * `flatten(d, sep, parent)` has no key twice, and a key's value is the
   * value of the last leaf under that key, depth first.
   */
  lemma FlattenValues(d: Value, sep: string, parent: string, key: string)
    requires d.Dict?
    ensures UniqueKeys(Flatten(d, sep, parent))
    ensures Get(Flatten(d, sep, parent), key) == LastValue(Leaves(d, 0, sep, parent), key)
  {
    FlattenIsDictOfLeaves(d, sep, parent);
    DictOfSpec(Leaves(d, 0, sep, parent), key);
  }

  /** A key some leaf has comes from a path of keys through `d`. */
  lemma LeafKeyHasPath(d: Value, sep: string, parent: string, key: string)
    requires d.Dict? && HasKey(Leaves(d, 0, sep, parent), key)
    ensures exists path, v :: LeafAt(d, path, v) && key == JoinKey(parent, sep, path)
  {
    var leaves := Leaves(d, 0, sep, parent);
    var j :| 0 <= j < |leaves| && leaves[j].0 == key;
    LeavesHavePaths(d, 0, sep, parent, leaves[j]);
    var path :| LeafFrom(d, 0, path, leaves[j].1) && leaves[j].0 == JoinKey(parent, sep, path);
    assert LeafAt(d, path, leaves[j].1);
  }

  /** The key a path of keys through `d` joins to is some leaf's key. */
  lemma PathHasLeafKey(d: Value, sep: string, parent: string, path: seq<string>, v: Value)
    requires LeafAt(d, path, v)
    ensures HasKey(Leaves(d, 0, sep, parent), JoinKey(parent, sep, path))
  {
    var leaves := Leaves(d, 0, sep, parent);
    PathsAreLeaves(d, 0, sep, parent, path, v);
    var j :| 0 <= j < |leaves| && leaves[j] == (JoinKey(parent, sep, path), v);
  }

  /**
   * A key is in `flatten(d, sep, parent)` exactly when some path of keys
   * through `d` leads to a value that is not a dict and joins to that key.
   */
  lemma FlattenKeys(d: Value, sep: string, parent: string, key: string)
    requires d.Dict?
    ensures HasKey(Flatten(d, sep, parent), key) <==> exists path, v :: LeafAt(d, path, v) && key == JoinKey(parent, sep, path)
  {
    FlattenIsDictOfLeaves(d, sep, parent);
    DictOfSpec(Leaves(d, 0, sep, parent), key);
    if HasKey(Leaves(d, 0, sep, parent), key) {
      LeafKeyHasPath(d, sep, parent, key);
    }
    if exists path, v :: LeafAt(d, path, v) && key == JoinKey(parent, sep, path) {
      var path, v :| LeafAt(d, path, v) && key == JoinKey(parent, sep, path);
      PathHasLeafKey(d, sep, parent, path, v);
    }
  }

  /**
   * No value of `flatten(d, sep, parent)` is a dict, and under a non-empty
   * `parent` every key starts with `parent + sep`.
   */
  lemma FlattenLeaves(d: Value, sep: string, parent: string)
    requires d.Dict?
    ensures forall i :: 0 <= i < |Flatten(d, sep, parent)| ==> !Flatten(d, sep, parent)[i].1.Dict?
    ensures parent != "" ==> forall i :: 0 <= i < |Flatten(d, sep, parent)| ==> parent + sep <= Flatten(d, sep, parent)[i].0
  {
    var leaves := Leaves(d, 0, sep, parent);
    var r := Flatten(d, sep, parent);
    FlattenIsDictOfLeaves(d, sep, parent);
    LeavesNotDicts(d, 0, sep, parent);
    if parent != "" {
      LeavesUnderParent(d, 0, sep, parent);
    }
    forall i | 0 <= i < |r| ensures r[i] in leaves {
      FoldPairs([], leaves, r[i]);
    }
  }

  /** With an empty `parent`, an entry of `d` that is not a dict keeps its key unchanged. */
  lemma TopLevelKept(d: Value, sep: string, j: nat)
    requires d.Dict? && j < |d.entries| && !d.entries[j].1.Dict?
    ensures HasKey(Flatten(d, sep, ""), d.entries[j].0)
  {
    var k := d.entries[j].0;
    assert [k][1..] == [];
    assert LeafAt(d, [k], d.entries[j].1);
    assert k == JoinKey("", sep, [k]);
    PathHasLeafKey(d, sep, "", [k], d.entries[j].1);
    FlattenIsDictOfLeaves(d, sep, "");
    DictOfSpec(Leaves(d, 0, sep, ""), k);
  }
}

=== FILE: values.dfy ===
/**
 * The Python values the configuration and persistence helpers handle:
 * JSON-like scalars, lists, tuples, dicts with string keys (kept in
 * insertion order, as Python keeps them), numpy arrays and the named
 * tuples of the field-response schema.
 */
module Values {
  import opened Wrappers

  /** The three named tuples of the field-response schema. */
  datatype Kind = FieldResponse | PlaneResponse | PathResponse

  datatype Value =
    | Null
    | Bool(b: bool)
    | Num(x: real)
    | Str(s: string)
      /** A Python list. */
    | List(items: seq<Value>)
      /** A plain tuple, which is not a list: `todict` and `fromdict` leave it as it is. */
    | Tuple(items: seq<Value>)
      /** A dict with string keys, as its `(key, value)` items in insertion order. */
    | Dict(entries: seq<(string, Value)>)
      /** A numpy array: its shape and its elements in row-major order. */
    | Array(shape: seq<nat>, elements: seq<real>)
      /** An instance of the named tuple `kind`, its field values in declaration order. */
    | Record(kind: Kind, values: seq<Value>)

  /** The class name of a schema named tuple. */
  function KindName(k: Kind): string {
    match k
    case FieldResponse => "FieldResponse"
    case PlaneResponse => "PlaneResponse"
    case PathResponse => "PathResponse"
  }

  /** The field names of a schema named tuple, in declaration order. */
  function Fields(k: Kind): (r: seq<string>)
    ensures |r| > 0
  {
    match k
    case FieldResponse => ["planes", "axis", "origin", "tstart", "period", "speed"]
    case PlaneResponse => ["paths", "planeid", "location", "pitch"]
    case PathResponse => ["current", "pitchpos", "wirepos"]
  }

  /** `k in d` for a dict with items `entries`. */
  predicate HasKey(entries: seq<(string, Value)>, k: string) {
    exists j :: 0 <= j < |entries| && entries[j].0 == k
  }

  /** `d.get(k)`: the value of the first item with key `k` (a Python dict has only one). */
  function Get(entries: seq<(string, Value)>, k: string): (r: Option<Value>)
    ensures r.Some? <==> HasKey(entries, k)
  {
    if entries == [] then None
    else if entries[0].0 == k then Some(entries[0].1)
    else
      var r := Get(entries[1..], k);
      assert HasKey(entries[1..], k) ==> HasKey(entries, k) by {
        if HasKey(entries[1..], k) {
          var j :| 0 <= j < |entries[1..]| && entries[1..][j].0 == k;
          assert entries[j + 1].0 == k;
        }
      }
      assert HasKey(entries, k) ==> HasKey(entries[1..], k) by {
        if HasKey(entries, k) {
          var j :| 0 <= j < |entries| && entries[j].0 == k;
          assert j > 0 && entries[1..][j - 1].0 == k;
        }
      }
      r
  }

  /** No key occurs twice, as in every Python dict. */
  predicate UniqueKeys(entries: seq<(string, Value)>) {
    forall i, j :: 0 <= i < j < |entries| ==> entries[i].0 != entries[j].0
  }

  // ---------------------------------------------------------------------
  // Building a dict from items: `dict(items)`

  /** `d[p.0] = p.1`: an existing key keeps its place and takes the new value; a new key goes last. */
  function Insert(d: seq<(string, Value)>, p: (string, Value)): seq<(string, Value)> {
    if d == [] then [p]
    else if d[0].0 == p.0 then [p] + d[1..]
    else [d[0]] + Insert(d[1..], p)
  }

  /** Setting the items `xs` one after another on the dict `acc`. */
  function Fold(acc: seq<(string, Value)>, xs: seq<(string, Value)>): seq<(string, Value)>
    decreases |xs|
  {
    if xs == [] then acc else Fold(Insert(acc, xs[0]), xs[1..])
  }

  /** `dict(xs)` for a list of `(key, value)` pairs. */
  function DictOf(xs: seq<(string, Value)>): seq<(string, Value)> {
    Fold([], xs)
  }

  /** The value of the last pair with key `k` in `xs`, if any. */
  function LastValue(xs: seq<(string, Value)>, k: string): (r: Option<Value>)
    ensures r.Some? <==> HasKey(xs, k)
    ensures r.Some? ==> exists j :: 0 <= j < |xs| && xs[j] == (k, r.value)
  {
    if xs == [] then None
    else
      var r := LastValue(xs[1..], k);
      assert HasKey(xs, k) <==> xs[0].0 == k || HasKey(xs[1..], k) by {
        if HasKey(xs[1..], k) {
          var j :| 0 <= j < |xs[1..]| && xs[1..][j].0 == k;
          assert xs[j + 1].0 == k;
        }
        if HasKey(xs, k) && xs[0].0 != k {
          var j :| 0 <= j < |xs| && xs[j].0 == k;
          assert xs[1..][j - 1].0 == k;
        }
      }
      if r.Some? then
        var j :| 0 <= j < |xs[1..]| && xs[1..][j] == (k, r.value);
        assert xs[j + 1] == (k, r.value);
        r
      else if xs[0].0 == k then Some(xs[0].1) else None
  }

  lemma {:induction false} InsertGet(d: seq<(string, Value)>, p: (string, Value), k: string)
    ensures Get(Insert(d, p), k) == if k == p.0 then Some(p.1) else Get(d, k)
    decreases |d|
  {
    if d != [] && d[0].0 != p.0 {
      InsertGet(d[1..], p, k);
      assert ([d[0]] + Insert(d[1..], p))[1..] == Insert(d[1..], p);
    } else if d != [] {
      assert ([p] + d[1..])[1..] == d[1..];
    }
  }

  lemma {:induction false} InsertUnique(d: seq<(string, Value)>, p: (string, Value))
    requires UniqueKeys(d)
    ensures UniqueKeys(Insert(d, p))
    decreases |d|
  {
    if d != [] && d[0].0 != p.0 {
      InsertUnique(d[1..], p);
      var r := Insert(d[1..], p);
      InsertGet(d[1..], p, d[0].0);
      assert !HasKey(d[1..], d[0].0);
      assert !HasKey(r, d[0].0);
      assert forall j :: 0 <= j < |r| ==> r[j].0 != d[0].0;
      assert forall j :: 1 <= j < |[d[0]] + r| ==> ([d[0]] + r)[j] == r[j - 1];
    }
  }

  /** Setting a key twice keeps only the second value. */
  lemma InsertTwice(a: seq<(string, Value)>, k: string, v: Value, w: Value)
    ensures Insert(Insert(a, (k, v)), (k, w)) == Insert(a, (k, w))
    decreases |a|
  {
    if a != [] && a[0].0 != k {
      InsertTwice(a[1..], k, v, w);
      assert ([a[0]] + Insert(a[1..], (k, v)))[1..] == Insert(a[1..], (k, v));
    } else if a != [] {
      assert ([(k, v)] + a[1..])[1..] == a[1..];
    }
  }

  /** Setting an existing key and setting another key commute. */
  lemma {:induction false} InsertCommute(a: seq<(string, Value)>, s: (string, Value), k: string, v: Value)
    requires HasKey(a, k) && s.0 != k
    ensures Insert(Insert(a, s), (k, v)) == Insert(Insert(a, (k, v)), s)
    decreases |a|
  {
    if a[0].0 == k {
      assert Insert(a, (k, v)) == [(k, v)] + a[1..];
      if a[1..] == [] {
        assert Insert(a, s) == [a[0], s];
      } else {
        assert ([a[0]] + Insert(a[1..], s))[1..] == Insert(a[1..], s);
        assert ([(k, v)] + a[1..])[1..] == a[1..];
      }
    } else if a[0].0 == s.0 {
      assert HasKey(a[1..], k) by {
        var j :| 0 <= j < |a| && a[j].0 == k;
        assert a[1..][j - 1].0 == k;
      }
      assert ([s] + a[1..])[1..] == a[1..];
      assert ([a[0]] + Insert(a[1..], (k, v)))[1..] == Insert(a[1..], (k, v));
    } else {
      assert HasKey(a[1..], k) by {
        var j :| 0 <= j < |a| && a[j].0 == k;
        assert a[1..][j - 1].0 == k;
      }
      InsertCommute(a[1..], s, k, v);
      assert ([a[0]] + Insert(a[1..], s))[1..] == Insert(a[1..], s);
      assert ([a[0]] + Insert(a[1..], (k, v)))[1..] == Insert(a[1..], (k, v));
    }
  }

  lemma {:induction false} InsertKeeps(a: seq<(string, Value)>, s: (string, Value), k: string)
    requires HasKey(a, k)
    ensures HasKey(Insert(a, s), k)
  {
    InsertGet(a, s, k);
  }

  /** Setting an existing key `k` before or after items without key `k` gives the same dict. */
  lemma {:induction false} FoldReplace(a: seq<(string, Value)>, xs: seq<(string, Value)>, k: string, v: Value)
    requires HasKey(a, k) && forall j :: 0 <= j < |xs| ==> xs[j].0 != k
    ensures Insert(Fold(a, xs), (k, v)) == Fold(Insert(a, (k, v)), xs)
    decreases |xs|
  {
    if xs != [] {
      InsertKeeps(a, xs[0], k);
      FoldReplace(Insert(a, xs[0]), xs[1..], k, v);
      InsertCommute(a, xs[0], k, v);
    }
  }

  /** Folding a dict that has just been set at `x.0` is setting `x` after folding the dict. */
  lemma {:induction false} FoldInsert(acc: seq<(string, Value)>, d: seq<(string, Value)>, x: (string, Value))
    requires UniqueKeys(d)
    ensures Fold(acc, Insert(d, x)) == Insert(Fold(acc, d), x)
    decreases |d|
  {
    if d == [] {
      assert Fold(acc, [x]) == Fold(Insert(acc, x), []);
    } else if d[0].0 == x.0 {
      var a := Insert(acc, d[0]);
      InsertGet(acc, d[0], x.0);
      assert ([x] + d[1..])[0] == x && ([x] + d[1..])[1..] == d[1..];
      assert forall j :: 0 <= j < |d[1..]| ==> d[1..][j].0 != x.0 by {
        forall j | 0 <= j < |d[1..]| ensures d[1..][j].0 != x.0 {
          assert d[1..][j] == d[j + 1];
        }
      }
      FoldReplace(a, d[1..], x.0, x.1);
      InsertTwice(acc, x.0, d[0].1, x.1);
    } else {
      assert ([d[0]] + Insert(d[1..], x))[0] == d[0] && ([d[0]] + Insert(d[1..], x))[1..] == Insert(d[1..], x);
      FoldInsert(Insert(acc, d[0]), d[1..], x);
    }
  }

  /** Folding the dict built from `xs` onto `acc` is folding `xs` itself onto `acc`. */
  lemma {:induction false} FoldFold(acc: seq<(string, Value)>, d: seq<(string, Value)>, xs: seq<(string, Value)>)
    requires UniqueKeys(d)
    ensures Fold(acc, Fold(d, xs)) == Fold(Fold(acc, d), xs)
    decreases |xs|
  {
    if xs != [] {
      InsertUnique(d, xs[0]);
      FoldFold(acc, Insert(d, xs[0]), xs[1..]);
      FoldInsert(acc, d, xs[0]);
    }
  }

  /** `dict.update` with a built dict is the same as with the pairs it was built from. */
  lemma FoldDictOf(acc: seq<(string, Value)>, xs: seq<(string, Value)>)
    ensures Fold(acc, DictOf(xs)) == Fold(acc, xs)
  {
    FoldFold(acc, [], xs);
  }

  lemma {:induction false} FoldAppend(acc: seq<(string, Value)>, xs: seq<(string, Value)>, ys: seq<(string, Value)>)
    ensures Fold(acc, xs + ys) == Fold(Fold(acc, xs), ys)
    decreases |xs|
  {
    if xs == [] {
      assert xs + ys == ys;
    } else {
      assert (xs + ys)[0] == xs[0] && (xs + ys)[1..] == xs[1..] + ys;
      FoldAppend(Insert(acc, xs[0]), xs[1..], ys);
    }
  }

  /** Looking up a key after a fold finds the last pair of `xs` with that key, else what `acc` held. */
  lemma {:induction false} FoldGet(acc: seq<(string, Value)>, xs: seq<(string, Value)>, k: string)
    ensures Get(Fold(acc, xs), k) == if LastValue(xs, k).Some? then LastValue(xs, k) else Get(acc, k)
    decreases |xs|
  {
    if xs != [] {
      FoldGet(Insert(acc, xs[0]), xs[1..], k);
      InsertGet(acc, xs[0], k);
    }
  }

  lemma {:induction false} FoldUnique(acc: seq<(string, Value)>, xs: seq<(string, Value)>)
    requires UniqueKeys(acc)
    ensures UniqueKeys(Fold(acc, xs))
    decreases |xs|
  {
    if xs != [] {
      InsertUnique(acc, xs[0]);
      FoldUnique(Insert(acc, xs[0]), xs[1..]);
    }
  }

  /**
   * `dict(xs)` has no key twice, has exactly the keys of `xs`, and maps each
   * to the value of the last pair with that key.
   */
  lemma DictOfSpec(xs: seq<(string, Value)>, k: string)
    ensures UniqueKeys(DictOf(xs))
    ensures HasKey(DictOf(xs), k) <==> HasKey(xs, k)
    ensures Get(DictOf(xs), k) == LastValue(xs, k)
  {
    FoldUnique([], xs);
    FoldGet([], xs, k);
  }

  /** Every pair of a dict built by setting items comes from the dict started from or from the items. */
  lemma {:induction false} FoldPairs(acc: seq<(string, Value)>, xs: seq<(string, Value)>, p: (string, Value))
    requires p in Fold(acc, xs)
    ensures p in acc || p in xs
    decreases |xs|
  {
    if xs != [] {
      FoldPairs(Insert(acc, xs[0]), xs[1..], p);
      if p in Insert(acc, xs[0]) {
        InsertPairs(acc, xs[0], p);
      }
    }
  }

  lemma {:induction false} InsertPairs(d: seq<(string, Value)>, q: (string, Value), p: (string, Value))
    requires p in Insert(d, q)
    ensures p in d || p == q
    decreases |d|
  {
    if d != [] && d[0].0 != q.0 {
      if p != d[0] {
        InsertPairs(d[1..], q, p);
      }
    }
  }

  /** In a dict, the lookup of the key at position `i` finds the value at position `i`. */
  lemma {:induction false} GetUnique(es: seq<(string, Value)>, i: nat)
    requires UniqueKeys(es) && i < |es|
    ensures Get(es, es[i].0) == Some(es[i].1)
    decreases i
  {
    if i > 0 {
      assert es[0].0 != es[i].0;
      assert es[1..][i - 1] == es[i];
      GetUnique(es[1..], i - 1);
    }
  }

  /** Setting a key the dict does not have appends the item. */
  lemma {:induction false} InsertFresh(d: seq<(string, Value)>, p: (string, Value))
    requires !HasKey(d, p.0)
    ensures Insert(d, p) == d + [p]
    decreases |d|
  {
    if d != [] {
      assert d[0].0 != p.0;
      InsertFresh(d[1..], p);
      assert [d[0]] + (d[1..] + [p]) == d + [p];
    }
  }

  /** Setting items whose keys are all new and distinct appends them in order. */
  lemma {:induction false} FoldFresh(acc: seq<(string, Value)>, xs: seq<(string, Value)>)
    requires UniqueKeys(acc + xs)
    ensures Fold(acc, xs) == acc + xs
    decreases |xs|
  {
    if xs != [] {
      var all := acc + xs;
      forall j | 0 <= j < |acc| ensures acc[j].0 != xs[0].0 {
        assert all[j] == acc[j] && all[|acc|] == xs[0];
      }
      InsertFresh(acc, xs[0]);
      assert (acc + [xs[0]]) + xs[1..] == all;
      FoldFresh(acc + [xs[0]], xs[1..]);
    }
  }

  /** `dict(xs)` of distinct keys keeps every item, in order. */
  lemma DictOfUnique(xs: seq<(string, Value)>)
    requires UniqueKeys(xs)
    ensures DictOf(xs) == xs
  {
    assert [] + xs == xs;
    FoldFresh([], xs);
  }
}

=== FILE: wrappers.dfy ===
/** Option and Result types used for Python's `None` and for raised exceptions. */
module Wrappers {

  datatype Option<+T> = None | Some(value: T)

  /** The exceptions the modelled code raises, named after Python's. */
  datatype Error =
    | ValueError(reason: string)
    | IndexError
    | KeyError(key: string)
    | TypeError(reason: string)
    | NameError(name: string)
    | AttributeError(name: string)
    | ZeroDivisionError

  datatype Result<+T> = Ok(value: T) | Err(error: Error)
}

=== FILE: writes.dfy ===
/**
 * numpy's basic indexing for assignments of the form `arr[sel] = value`,
 * as the geometry generators use it: each axis is addressed by an integer
 * (negative values count from the end, out-of-range ones raise
 * `IndexError`), by a step-1 slice, or by `:` for the whole axis. Axes left
 * unmentioned at the end are taken whole.
 */
module Writes {
  import opened Wrappers
  import opened NdArrays

  datatype Sel = At(i: int) | Span(s: Slice) | All

  /** The position an integer index `i` addresses on an axis of length `n`, if any. */
  function Position(i: int, n: nat): (r: Option<nat>)
    ensures r.Some? <==> -(n as int) <= i < n
    ensures r.Some? ==> r.value < n && (r.value == i || r.value == i + n)
  {
    if 0 <= i < n then Some(i) else if -(n as int) <= i < 0 then Some(i + n) else None
  }

  /** Every integer index of `sel` addresses a position and `sel` names no more axes than `shape` has. */
  predicate Addressable(sel: seq<Sel>, shape: Shape) {
    |sel| <= |shape| && forall d :: 0 <= d < |sel| ==> sel[d].At? ==> Position(sel[d].i, shape[d]).Some?
  }

  /** Cell `i` lies in the region `sel` picks out (axes past the end of `sel` are taken whole). */
  predicate Selects(sel: seq<Sel>, shape: Shape, i: Index)
    requires |sel| <= |shape| == |i|
  {
    forall d :: 0 <= d < |sel| ==> Picks(sel[d], shape[d], i[d])
  }

  predicate Picks(s: Sel, n: nat, k: int) {
    match s
    case At(j) => Position(j, n) == Some(k)
    case Span(sl) => Range(sl, n).0 <= k < Range(sl, n).1
    case All => true
  }

  /** The outcome of a write sequence that may raise: the cells written so far and the exception, if one was raised. */
  datatype Outcome = Outcome(cells: map<Index, real>, error: Option<Error>)

  /** `arr[sel] = v` for a scalar `v`: every selected cell becomes `v`, or `IndexError` is raised before any write. */
  function Fill(m: map<Index, real>, shape: Shape, sel: seq<Sel>, v: real): (r: Result<map<Index, real>>)
    requires Shaped(m, shape)
    ensures r.Err? <==> !Addressable(sel, shape)
    ensures r.Err? ==> r.error == IndexError
    ensures r.Ok? ==> r.value.Keys == m.Keys
    ensures r.Ok? ==> forall i :: i in m ==> r.value[i] == if Selects(sel, shape, i) then v else m[i]
  {
    if !Addressable(sel, shape) then Err(IndexError)
    else Ok(map i | i in m :: if Selects(sel, shape, i) then v else m[i])
  }

  /** Filling keeps the array's shape. */
  lemma FillShaped(m: map<Index, real>, shape: Shape, sel: seq<Sel>, v: real)
    requires Shaped(m, shape) && Fill(m, shape, sel, v).Ok?
    ensures Shaped(Fill(m, shape, sel, v).value, shape)
  {
    KeysOfShaped(m, Fill(m, shape, sel, v).value, shape);
  }
}
